=== FILE: README.md ===
# hermes containers and readers, in Dafny

This project models the sequential core of the hermes C++ library. It covers the
containers under `hermes/container`, the three integer readers (`IntegralFastIO` in
`hermes/io/fastio.h`, `hermes/fastio/fastio.h` and `hermes/fastio/fast_io.h`) and the
job-chain builder in `test/perf/temp/job_manager.h`. Each component is an immutable
datatype with pure step functions. Lemmas relate every step to a partner: the abstract
content it preserves, an inverse, or a reference definition.

- **Digits** (`digits.dfy`): the shared character helpers. It has `IsDigit`, the
  stream-level `NextChar`, and three stream parsers. `ReadNumber` is
  `hermes::io::IntegralFastIO::ReadOne` and `CsvReader::NextInt`. `SkipNonDigits` and
  `ParseRun` are the two loops of `hermes::fastio::IntegralFastIO::ReadOne`. `ToDecimal`
  is `std::to_string` of a non-negative number and is the inverse the round-trip lemmas
  use.
- **IoFastIO**, **FastIO**, **FastStream** (`io_fastio.dfy`, `fastio_fastio.dfy`,
  `fastio_fast_io.dfy`): each reader at two levels. The stream level is a parser over the
  unread characters. The buffer level keeps the source's cursors (`file_offset_`,
  `begin_`, `end_`, `is_good_`) and its refills. Methods with loops show that the buffer
  level reads exactly what the stream level reads.
- **JobCsv**, **JobManager** (`job_csv.dfy`, `job_manager.dfy`): `CsvReader` (header
  skip, `NextInt`, `ReadOne`), `Job::IsValid`, and `JobManager::InitImpl`. `InitImpl`
  has three phases: read, link `prev_id`s, and walk the chains. The iteration order of
  the `unordered_map` is a parameter. Also here: `JobChain::ToString`'s `TimeFormat`.
- **HashMapNodes**, **StlHashMap** (`hash_map_nodes.dfy`, `stl_hash_map.dfy`):
  `HashMap`.
  - The shared doubly-linked list is a sequence of nodes in bucket order.
  - A node's address is its id.
  - `buckets_[b]` is the id of bucket `b`'s first node.
  - `Hash` is a function parameter; `LOAD_FACTOR` is 1.0.
- **StaticLists** (`static_list.dfy`): `StaticList` over its `StaticListAllocator`. The
  list is a sequence of values plus the pool slot of each value.
- **StlVector**, **StringBuf**, **Pow2** (`stl_vector.dfy`, `string_buf.dfy`,
  `pow2.dfy`): `Vector` and `String`, each a buffer plus a capacity with its doubling
  rule. `Pow2` holds `std::bit_ceil`.
- **Optionals**, **Anys** (`optional.dfy`, `any.dfy`): `Optional` and `Any`.
  - They count the values they construct and destroy (allocate and free, for `Any`).
  - Lemmas show that every value is destroyed exactly once, for the corrected members (see ## Findings).
- `Any`'s `std::type_info` is an abstract tag.
  - The function pointer `Type_` can be set, null, or uninitialised.
- **UniquePtrs**, **SmartPointers**, **StlSharedPtr**, **HandleCounts**
  (`unique_ptr.dfy`, `smart_pointer.dfy`, `stl_shared_ptr.dfy`, `handle_counts.dfy`):
  the owning pointers. Each is a whole system of handles over a heap of counters.
  - The invariant ties every counter to the number of handles that point at it.
  - A multiset records how often each object (and control block) was deleted.
  - The lemmas show it is deleted exactly once, after its last owner is gone, for the corrected members (see ## Findings).
- **SpscQueues** (`spsc_queue.dfy`): the index arithmetic of `SpscQueue::Init` and
  `PushImpl`. It covers the `int` narrowing of `max_size_` and C's `%`. It also checks
  where in the mapped file each slot lies.
- **Options** (`options.dfy`): the `Option` datatype.

## Model

| member | source | states |
|---|---|---|
| Digits.IsDigitIsDecimal | hermes/io/fastio.h:57-59 | The unsigned-byte test `(unsigned char)(c - '0') < 10` holds exactly for '0'..'9'. |
| Digits.DigitValue | test/perf/temp/job_manager.h:106 | `c - '0'` of a digit is below 10 and is the digit's value. |
| Digits.NextChar | hermes/io/fastio.h:62-66 | A non-empty stream yields its first char and the rest. An exhausted stream yields the NUL written into the empty buffer and stays empty. |
| Digits.ToDecimal | test/perf/temp/job_manager.h:36-38 | `std::to_string(n)`: at least one digit, no leading zero, value `n`, one digit iff `n < 10`. |
| Digits.ToDecimalInjective | test/perf/temp/job_manager.h:36-38 | Different numbers print differently. |
| Digits.ReadFromSpec | test/perf/temp/job_manager.h:101-109 | `NextInt` from accumulator `acc` folds `ret * 10 + digit` over the maximal digit run. It consumes the run and the one char after it. |
| Digits.ReadNumberSpec | hermes/io/fastio.h:44-54 | `ReadOne` returns the decimal value of the maximal digit run. It consumes the run plus the first non-digit. |
| Digits.ReadNumberAtNonDigit | hermes/io/fastio.h:47-48 | At a non-digit, `ReadOne` returns 0 and consumes exactly one char. |
| Digits.ReadNumberRoundTrip | hermes/io/fastio.h:44-54 | Reading `to_string(n)` followed by a separator gives back `n` and exactly the text after the separator. |
| Digits.ReadNumberRoundTripAtEnd | hermes/io/fastio.h:44-54 | Reading `to_string(n)` at the end of the file gives `n` and an empty stream. |
| Digits.SkipNonDigits | hermes/fastio/fastio.h:35-41 | The skip drops a digit-free prefix and stops at a digit or at the end of input. |
| Digits.SkipNonDigitsPrefix | hermes/fastio/fastio.h:35-41 | Skipping digit-free junk in front of a digit (or nothing) removes exactly the junk. |
| Digits.ParseRunValue | hermes/fastio/fastio.h:46-53 | The parse loop returns the value of the maximal digit run. It stops at the first non-digit without consuming it. |
| Digits.ParseRunRoundTrip | hermes/fastio/fastio.h:46-53 | Parsing `to_string(n)` before a non-digit gives `n` and leaves that non-digit unread. |
| IoFastIO.ReadToBuffer | hermes/io/fastio.h:68-87 | A refill advances the offset by the previous chunk and maps `min(remaining, MAX_BUFFER_SIZE)` bytes from cursor 0. `is_good_` becomes whether the chunk is non-empty, and the offset never passes the file size. |
| IoFastIO.Init | hermes/io/fastio.h:22-40 | The reader starts at offset 0 with the whole file unread. It is good iff the file is non-empty. |
| IoFastIO.NextCharBuffered | hermes/io/fastio.h:62-66 | `NextChar` on the buffers (refill when the chunk is used up) yields the same char and the same unread rest as the stream-level `NextChar`. |
| IoFastIO.ReadOneBuffered | hermes/io/fastio.h:44-54 | The `ReadOne` loop on the buffers returns the stream-level value and leaves the stream-level rest. |
| IoFastIO.DigitsBufferedReads | hermes/io/fastio.h:48-52 | Once a char has been read, the rest of the digit loop on the buffers stops with the value and the unread input that the stream-level loop reaches from the same point. |
| IoFastIO.GoodIsNotMoreInput | hermes/io/fastio.h:36-42 | `IsGood` reports whether the last refill produced bytes, not whether input remains. After reading all of "5 " it is still true. |
| FastIO.ReadOneSpec | hermes/fastio/fastio.h:33-56 | `ReadOne` skips non-digits. It fails, with `ret` untouched and nothing left, iff no digit remains. Otherwise `ret` is the value of the digit run and the stream continues at the char after the run. |
| FastIO.ReadOneFailsIffNoDigits | hermes/fastio/fastio.h:43-44 | `ReadOne` returns false iff the unread input has no digit. |
| FastIO.ReadOneAfterJunk | hermes/fastio/fastio.h:35-53 | Junk, then `to_string(n)`, then a non-digit or the end: the call returns `n` and stops before the tail. |
| FastIO.ReadAllLines | hermes/fastio/fastio.h:33-56 | Calling `ReadOne` until it fails on numbers written one per line gives back exactly those numbers. |
| FastIO.ReadToBuffer | hermes/fastio/fastio.h:59-72 | A refill advances the offset by the previous chunk length and maps `min(remaining, MAX_BUFFER_SIZE)` bytes from cursor 0. |
| FastIO.Init | hermes/fastio/fastio.h:21-31 | After `Init` the whole file is unread. |
| FastIO.Advance | hermes/fastio/fastio.h:38-40 | `begin_ += 1`, with a refill when the chunk ends, drops exactly one unread char. |
| FastIO.SkipBuffered | hermes/fastio/fastio.h:35-41 | The skip loop on the buffers leaves exactly what the stream-level skip leaves. |
| FastIO.ParseBuffered | hermes/fastio/fastio.h:46-53 | The parse loop on the buffers computes the stream-level value and rest. |
| FastIO.ReadOneBuffered | hermes/fastio/fastio.h:33-56 | The whole `ReadOne` on the buffers has the stream-level outcome. |
| FastStream.OpenAsWrittenSkipsNothing | hermes/fastio/fast_io.h:14-20 | The constructor's loop, with `c >= '0' \|\| c <= '9'` as written, skips nothing. |
| FastStream.OpenSkipsNonDigits | hermes/fastio/fast_io.h:14-20 | With the intended `&&`, the constructor skips exactly the leading non-digits. |
| FastStream.ReadOneSpec | hermes/fastio/fast_io.h:24-47 | `ReadOne` fails, with `ret` untouched, iff the buffer is empty on entry. Otherwise `ret` is the value of the digit prefix (0 if there is none), and the trailing non-digits are skipped. |
| FastStream.ReadOneMatchesFastIO | hermes/fastio/fast_io.h:24-47 | From a digit or the end, this `ReadOne` agrees with `hermes::fastio`'s, except that it also skips the junk after the number. |
| FastStream.ReadAllMatchesFastIO | hermes/fastio/fast_io.h:24-47 | From a digit or the end, repeated calls yield the same numbers as `hermes::fastio`'s reader. |
| FastStream.OpenReadAllLines | hermes/fastio/fast_io.h:10-47 | With the corrected constructor, numbers written one per line read back exactly. |
| FastStream.OpenAsWrittenSpuriousZero | hermes/fastio/fast_io.h:14-35 | As written, the input " 7" reads as 0 then 7; with the fix it reads as 7. |
| FastStream.Construct | hermes/fastio/fast_io.h:10-21 | The corrected constructor (`&&` stop test) on the buffers leaves the stream-level `Open` of the file; as written the constructor skips nothing (`OpenAsWrittenSkipsNothing`). |
| FastStream.ReadOneBuffered | hermes/fastio/fast_io.h:24-55 | `ReadOne` on the buffers, with refills of at most 4096 bytes, has the stream-level outcome. |
| JobCsv.SkipLineRoundTrip | test/perf/temp/job_manager.h:75-76 | `Init` skips the header line up to and including its newline, and no further. |
| JobCsv.SkipLineWithoutNewline | test/perf/temp/job_manager.h:75-76 | A file without a newline is consumed entirely by the header skip. |
| JobCsv.ReadJob | test/perf/temp/job_manager.h:81-91 | `ReadOne` yields a job with `prev_id` -1 and non-negative fields. It consumes at least one char of non-empty input. |
| JobCsv.ReadJobRoundTrip | test/perf/temp/job_manager.h:81-91 | A row printed as `id,runtime,next\n` reads back as that job, in the field order id, runtime, next_id. |
| JobCsv.ReadJobs | test/perf/temp/job_manager.h:165-175 | The read loop only adds jobs with `prev_id` -1 and never changes an id already read. |
| JobCsv.Parse | test/perf/temp/job_manager.h:162-175 | A file whose header skip leaves nothing is rejected. |
| JobCsv.ReadJobsText | test/perf/temp/job_manager.h:165-175 | Reading printed rows succeeds iff every row is a valid job. On success the map is the rows emplaced in order. |
| JobCsv.ParseRoundTrip | test/perf/temp/job_manager.h:70-79 | Header, newline and at least one row: the file parses iff every row is valid, and then to the rows emplaced in order. |
| JobCsv.EmplaceRowsFirst | test/perf/temp/job_manager.h:174 | `emplace` keeps the first job with a given id: the keys are the old keys plus the row ids, and an id's first row wins. |
| JobCsv.ReadToBuffer | test/perf/temp/job_manager.h:121-129 | `CsvReader`'s refill reads the next chunk; `is_good_` says whether it read anything. |
| JobCsv.NextCharBuffered | test/perf/temp/job_manager.h:111-119 | `NextChar` refills eagerly, so `IsGood` holds iff unread input remains. |
| JobCsv.InitBuffered | test/perf/temp/job_manager.h:70-79 | `Init` on the buffers leaves the text after the header line. It succeeds iff any text remains. |
| JobCsv.NextIntBuffered | test/perf/temp/job_manager.h:101-109 | `NextInt` on the buffers reads what the stream-level `ReadNumber` reads. |
| JobCsv.ReadJobBuffered | test/perf/temp/job_manager.h:81-91 | `ReadOne` on the buffers reads what the stream-level `ReadJob` reads. |
| JobCsv.ParseBuffered | test/perf/temp/job_manager.h:162-175 | The read phase of `InitImpl` on the buffers gives the stream-level result. |
| JobManager.Link | test/perf/temp/job_manager.h:177-195 | The link pass keeps the set of jobs and the fact that each job sits under its own id. |
| JobManager.LinkInvariant | test/perf/temp/job_manager.h:177-195 | Linking the rest of the jobs succeeds iff their next jobs exist and are not shared. On success every job's `prev_id` names the job whose `next_id` is it. |
| JobManager.LinkSpec | test/perf/temp/job_manager.h:177-195 | For any iteration order, linking fails iff some `next_id` is missing or two jobs name the same next job. On success the `prev_id`s invert the `next_id`s. |
| JobManager.WalkPrev | test/perf/temp/job_manager.h:209-223 | The prev walk only adds visited jobs and extends its path. |
| JobManager.BuildChains | test/perf/temp/job_manager.h:197-226 | The chain pass only appends chains. |
| JobManager.WalkPrevSummary | test/perf/temp/job_manager.h:202-223 | A finished walk is a `prev_id` path. Its chain has that path's first and last ids, its length and the sum of its runtimes. |
| JobManager.WalkPrevSucceeds | test/perf/temp/job_manager.h:213-217 | After a successful link, a walk from a root never meets a visited job, so the cycle check never fires. |
| JobManager.BuildChainsSpec | test/perf/temp/job_manager.h:197-226 | After a successful link the chain pass succeeds. Every chain it appends is a prev path from a job with `next_id == 0`. |
| JobManager.Roots | test/perf/temp/job_manager.h:197-199 | The jobs at which the chain pass starts a chain are exactly the listed jobs with `next_id == 0`. |
| JobManager.RootsDistinct | test/perf/temp/job_manager.h:197-199 | Each root is started at most once, because the map lists each job once. |
| JobManager.WalkPrevKeepsRoots | test/perf/temp/job_manager.h:209-223 | A prev walk keeps the chain's `end_id` and marks only jobs with a next job, so it never marks a root. |
| JobManager.BuildChainsEnds | test/perf/temp/job_manager.h:197-226 | From any point of the chain pass at which no root still to come is visited, the appended chains end one each at the roots still to come, in iteration order. |
| JobManager.ChainPassEnds | test/perf/temp/job_manager.h:197-228 | After a successful link the whole chain pass succeeds, and its chains' `end_id`s are the roots in iteration order, without repeats. |
| JobManager.OneChainPerRoot | test/perf/temp/job_manager.h:197-228 | Such a list has exactly one chain per job with `next_id == 0`, no two chains share an `end_id`, and the list is as long as the number of roots. |
| JobManager.InitImplRoots | test/perf/temp/job_manager.h:162-229 | On success, each job of the file with `next_id == 0` ends exactly one listed chain, and there are as many chains as such jobs. |
| JobManager.InitImplSpec | test/perf/temp/job_manager.h:162-229 | For any iteration order, `InitImpl` fails iff the file is malformed, a `next_id` is missing, or two jobs name the same next job. On success every chain is a prev path from a root. Each job with `next_id == 0` ends exactly one chain, and there are as many chains as such jobs. |
| JobManager.ChainAverage | test/perf/temp/job_manager.h:53 | A chain of valid jobs has `job_cnt >= 1` and total runtime at most `86400 * job_cnt`, so the average at line 53 is defined and within a day. |
| JobManager.SumRuntimeBound | test/perf/temp/job_manager.h:22-25 | The runtimes of valid jobs sum to between 0 and `86400` per job. |
| JobManager.TimeFormat | test/perf/temp/job_manager.h:35-46 | `TimeFormat` prints at least eight chars. |
| JobManager.TimeFormatFields | test/perf/temp/job_manager.h:35-46 | For `sec >= 0`, `TimeFormat` prints `sec/3600`, `(sec%3600)/60` and `sec%60`, each zero-padded to two digits and joined by ':'. |
| JobManager.ReadPaddedRoundTrip | test/perf/temp/job_manager.h:41-43 | A zero-padded field followed by a separator reads back as its number. |
| JobManager.TimeFormatRoundTrip | test/perf/temp/job_manager.h:35-46 | Reading the three fields of `TimeFormat(sec)` back gives hours, minutes below 60 and seconds below 60 that recombine to `sec`. |
| HashMapNodes.InsertAt | hermes/container/stl_hash_map.h:17-26 | `Hook` puts the node at the hook position and shifts the later nodes by one. |
| HashMapNodes.RemoveAt | hermes/container/stl_hash_map.h:29-32 | `UnHook` removes the node and shifts the later nodes back by one. |
| HashMapNodes.InsertHeads | hermes/container/stl_hash_map.h:244-263 | Hooking a node before the first node of a bucket at or after its own keeps the list in bucket order. The node becomes its bucket's head, and every other bucket keeps its head. |
| HashMapNodes.RemoveHeads | hermes/container/stl_hash_map.h:195-203 | Unhooking a node keeps the bucket order. The node's bucket head becomes the next node if that node is in the same bucket, else null; other heads are unchanged. |
| HashMapNodes.InsertAtSpec | hermes/container/stl_hash_map.h:17-26 | Hooking a node with a fresh key and address adds exactly that entry. |
| HashMapNodes.RemoveAtSpec | hermes/container/stl_hash_map.h:29-32 | Unhooking a node removes exactly its key and address. |
| StlHashMap.InitSpec | hermes/container/stl_hash_map.h:140-147 | `Init` gives an empty, well-formed map: one null bucket, size 0, no entries. |
| StlHashMap.KeyToBucketId | hermes/container/stl_hash_map.h:282-284 | The bucket id `Hash(key) % bucket_cnt` is below the bucket count. |
| StlHashMap.BeginIsFirst | hermes/container/stl_hash_map.h:212-220 | `Begin()` is the first node of the list, or `End()` for an empty map. |
| StlHashMap.Find | hermes/container/stl_hash_map.h:161-176 | A non-end result of `Find` is a node holding the key. |
| StlHashMap.FindSpec | hermes/container/stl_hash_map.h:161-176 | Scanning the key's bucket run finds the key's node if it is anywhere in the map. `Find` returns `End()` iff the key is absent. |
| StlHashMap.ContainsSpec | hermes/container/stl_hash_map.h:156-159 | `Contains` holds iff the key has an entry. |
| StlHashMap.IsEmptySpec | hermes/container/stl_hash_map.h:150 | `IsEmpty` holds iff there are no entries. |
| StlHashMap.HookPositionIsFirstAtLeast | hermes/container/stl_hash_map.h:248-258 | The hook position (own head, else the next non-null bucket, else the sentinel) is before the first node of a bucket at or after the key's. |
| StlHashMap.LinkSpec | hermes/container/stl_hash_map.h:244-263 | `InsertNew(node)` keeps the map well formed and adds exactly the node's entry. |
| StlHashMap.RelinkSpec | hermes/container/stl_hash_map.h:275-279 | Re-inserting a run of detached nodes keeps the map well formed and adds exactly their entries. |
| StlHashMap.Rehash | hermes/container/stl_hash_map.h:265-280 | `Rehash` doubles the bucket count and keeps the size. |
| StlHashMap.RehashSpec | hermes/container/stl_hash_map.h:265-280 | `Rehash` keeps every entry, with the same value and node, and the map stays well formed. |
| StlHashMap.InsertNewSpec | hermes/container/stl_hash_map.h:236-242 | Inserting an absent key adds exactly that entry and raises the size by 1. It doubles the buckets exactly when the size reaches the bucket count, so `Size() < BucketSize()` holds. |
| StlHashMap.SetValueSpec | hermes/container/stl_hash_map.h:183-186 | Overwriting a node's value changes only that key's value; the node stays where it is. |
| StlHashMap.InsertSpec | hermes/container/stl_hash_map.h:181-189 | `Insert` reports true iff the key was absent and raises the size by 1 only then. Afterwards the key maps to the new value, all else is unchanged, and the iterator is the key's node. |
| StlHashMap.InsertAllSpec | test/unit_test/container/stl_hash_map_test.cpp:15-29 | Inserting distinct fresh keys raises the size by their number, and each key then maps to its value. |
| StlHashMap.InsertAllKeeps | hermes/container/stl_hash_map.h:181-189 | Inserting a sequence of pairs leaves the value of every key outside the sequence unchanged. |
| StlHashMap.IndexSpec | hermes/container/stl_hash_map.h:224-233 | `operator[]` on a present key returns its value and changes nothing. On an absent key it inserts `(key, T{})` and returns `T{}`. |
| StlHashMap.EraseAsWritten | hermes/container/stl_hash_map.h:191-208 | As written, `Erase(End())` changes nothing. Erasing a node removes it but keeps `size_`. |
| StlHashMap.EraseSpec | hermes/container/stl_hash_map.h:191-208 | `Erase(End())` returns `End()` and changes nothing. Erasing a node removes exactly its entry, lowers the size by 1, keeps the map well formed and returns the next node. |
| StlHashMap.EraseShape | hermes/container/stl_hash_map.h:199-203 | After an erase every bucket pointer is again its bucket's first node or null. |
| StlHashMap.EraseAsWrittenKeepsSize | hermes/container/stl_hash_map.h:191-208 | As written, an erase leaves `size_` one above the number of nodes. |
| StlHashMap.EraseAsWrittenStaleSize | hermes/container/stl_hash_map.h:191-208 | Insert one key and erase it: as written the map reports size 1 and not empty with no nodes; the corrected erase reports 0. |
| StaticLists.NewAllocator | hermes/container/static_list.h:12-20 | The allocator starts with all `MAX_SIZE` slots free, listed 0 .. MAX_SIZE-1. |
| StaticLists.New | hermes/container/static_list.h:28-34 | `New` returns null, changing nothing, iff no slot is free. Otherwise it takes slot `free_list_[free_cnt_ - 1]` and decrements the count. |
| StaticLists.DeleteAsWritten | hermes/container/static_list.h:36-44 | As written, `Delete` fails iff the free list is full and never raises the free count. |
| StaticLists.Delete | hermes/container/static_list.h:36-44 | The corrected `Delete` appends the slot to the free list and raises the free count. It fails only when the list is full. |
| StaticLists.Empty | hermes/container/static_list.h:100 | A new list holds no values. |
| StaticLists.SizeBound | hermes/container/static_list.h:16-34 | List size plus free slots is always `MAX_SIZE`. |
| StaticLists.PushBackSpec | hermes/container/static_list.h:162-182 | `PushBack` succeeds iff a slot is free and then appends the value. On failure the list is unchanged. |
| StaticLists.PushFrontSpec | hermes/container/static_list.h:184-204 | `PushFront` succeeds iff a slot is free and then prepends the value. On failure the list is unchanged. |
| StaticLists.EraseSpec | hermes/container/static_list.h:138-159 | `Erase` of a null iterator returns true and changes nothing. Erasing a node removes exactly its value and lowers the size by 1. |
| StaticLists.BeginEndValues | hermes/container/static_list.h:102-104 | `Begin()` holds the first value and `End()` holds the last. |
| StaticLists.EraseBegin | hermes/container/static_list.h:138-159 | `Erase(Begin())` keeps the list well formed and drops the first value. |
| StaticLists.EraseEnd | hermes/container/static_list.h:152-154 | Erasing `End()` keeps the list well formed and drops the last value. |
| StaticLists.PushAllSpec | hermes/container/static_list.h:162-182 | Pushing back values that fit appends them all in order. |
| StaticLists.DrainSpec | hermes/container/static_list.h:138-159 | Repeatedly reading and erasing `Begin()` yields the values in order. |
| StaticLists.PushEraseDrain | test/unit_test/container/static_list_test.cpp:13-31 | Push the data plus two values, erase `End()` twice, then drain from `Begin()`: the data come out in push order. |
| StaticLists.RunAsWritten | hermes/container/static_list.h:28-44 | Any sequence of pushes and erases, as written, keeps the list's shape and pool size. |
| StaticLists.AsWrittenLifetime | hermes/container/static_list.h:16-44 | As written, successful pushes over a list's lifetime never exceed `MAX_SIZE`, because every push uses up a free slot for good. |
| StaticLists.AsWrittenPoolRunsDry | hermes/container/static_list.h:36-44 | With `MAX_SIZE` 1, push, erase and push again: the second push fails as written and succeeds with the corrected `Delete`. |
| Pow2.BitCeil | hermes/container/string.h:98 | `std::bit_ceil(n)` is a power of two at least `n`, and half of it is below `n` (or it is 1). |
| Pow2.BitCeilLeast | hermes/container/string.h:98 | `bit_ceil(n)` is the least power of two that is at least `n`. |
| StlVector.Empty | hermes/container/stl_vector.h:11-15 | A new vector has size 0 and capacity 0. |
| StlVector.Resize | hermes/container/stl_vector.h:143-161 | `Resize` sets the capacity to 1 from 0, otherwise doubles it, and keeps the elements. |
| StlVector.PushBackSpec | hermes/container/stl_vector.h:80-98 | `PushBack` stores the item at index `size_` and keeps earlier items. It grows exactly when full, by the `Resize` rule; `size_ <= max_size_` stays true. |
| StlVector.BackAfterPush | hermes/container/stl_vector.h:111-120 | After `PushBack(x)`, `Back()` is `x`. |
| StlVector.PopBackSpec | hermes/container/stl_vector.h:122-128 | `PopBack` on a non-empty vector lowers the size by 1 and keeps the capacity and the earlier items. |
| StlVector.PopUndoesPush | hermes/container/stl_vector.h:80-128 | `PopBack` after `PushBack` restores the items. |
| StlVector.PushAllItems | hermes/container/stl_vector.h:100-106 | After a sequence of pushes the items are the old items followed by the pushed ones. |
| StlVector.PushKeepsTight | hermes/container/stl_vector.h:82-84 | A push keeps the capacity 0 for no items, else a power of two below twice the size. |
| StlVector.PushAllTight | hermes/container/stl_vector.h:82-84 | Any sequence of pushes keeps that capacity bound. |
| StlVector.PushAllFromEmpty | hermes/container/stl_vector.h:80-106 | Pushing `xs` into a new vector gives size `\|xs\|`, element `i` equal to `xs[i]`, and capacity `bit_ceil(\|xs\|)`. |
| StlVector.PushReadPop | test/unit_test/container/stl_vector_test.cpp:13-30 | Push eight values, read them back by index, pop seven: `Back()` is the first value. |
| StringBuf.Default | hermes/container/string.h:23 | A default `String` is empty, with no buffer and capacity 0. |
| StringBuf.Grown | hermes/container/string.h:83 | The grown capacity is a power of two above the old one. |
| StringBuf.PushBackSpec | hermes/container/string.h:62-69 | `PushBack` appends the char, keeps the text NUL-terminated and raises the size by 1; afterwards `size_ < max_size_`. It grows (2 from 0, else doubling) exactly when `size_ + 1 >= max_size_`. |
| StringBuf.PopBackSpec | hermes/container/string.h:71-77 | `PopBack` of an empty string changes nothing. Otherwise it drops the last char and re-terminates. |
| StringBuf.PopUndoesPush | hermes/container/string.h:62-77 | `PopBack` after `PushBack` restores the text. |
| StringBuf.SetSpec | hermes/container/string.h:79 | Writing through `operator[]` changes only the byte at `idx`. |
| StringBuf.SameBytesSpec | hermes/container/string.h:52 | The `memcmp` of `n` bytes is zero iff the first `n` bytes are equal. |
| StringBuf.EqualSpec | hermes/container/string.h:50-53 | `==` holds iff the two texts are equal: same size and the same bytes. |
| StringBuf.AssignValueSpec | hermes/container/string.h:112-122 | Assigning `(ptr, n)` sets the size to `n` and the text to the first `n` source bytes, terminated iff byte `n` is NUL. It keeps the capacity when `n + 1` fits, else reallocates to `bit_ceil(n + 1)`. |
| StringBuf.StrLen | hermes/container/string.h:29 | `strlen` is the position of the first NUL. |
| StringBuf.FromCStrSpec | hermes/container/string.h:29 | `String(const char*)` holds the text up to the first NUL, and `CStr()` gives it back. |
| StringBuf.CopyFromAsWritten | hermes/container/string.h:94-104 | As written, copying keeps the result well formed whenever it does not read through a null buffer. |
| StringBuf.CopyFromSpec | hermes/container/string.h:94-104 | Copying gives a terminated string equal to the source. It keeps the capacity when the source and its terminator fit, else reallocates to `bit_ceil(size + 1)`, the least power of two that holds them. |
| StringBuf.CopyFromAsWrittenNullRead | hermes/container/string.h:94-104 | As written, copying a default `String` reads through its null buffer; the corrected copy gives the empty text. Otherwise the two agree. |
| StringBuf.MoveFromSpec | hermes/container/string.h:106-110 | Moving swaps text and capacity, so moving twice restores both. Moving into a default `String` leaves the source empty. |
| StringBuf.PushPopCopy | test/unit_test/container/string_test.cpp:28-54 | From a C string: push then pop restores the text. A copy compares equal, and stops being equal after a push. |
| Optionals.Default | hermes/container/optional.h:17-18 | Default and `nullopt` construction hold no value. |
| Optionals.FromValue | hermes/container/optional.h:53-56 | Construction from a value holds that value and constructs exactly one. |
| Optionals.Reset | hermes/container/optional.h:131-136 | `Reset` clears the value and destroys exactly the value held, if any. |
| Optionals.Convert | hermes/container/optional.h:20-40 | The converting constructors construct exactly as many values as they leave held. |
| Optionals.ConvertAssign | hermes/container/optional.h:60-88 | Converting assignment destroys the old value and constructs exactly the new one. |
| Optionals.Assign | hermes/container/optional.h:90-100 | Value assignment destroys the old value and constructs exactly the new one. |
| Optionals.NulloptComparisons | hermes/container/optional.h:102-116 | `== nullopt` holds iff there is no value, and `!=` is its negation. |
| Optionals.AssignSpec | hermes/container/optional.h:90-100 | After value assignment the optional holds exactly that value. One value is made and the old one destroyed. |
| Optionals.ConvertSpec | hermes/container/optional.h:20-88 | Conversion keeps presence and applies the conversion to the value. Converting assignment gives the same result after destroying the old value. |
| Optionals.ResetOnce | hermes/container/optional.h:131-136 | A second `Reset` destroys nothing, so a value is destroyed at most once. |
| Optionals.CopyAsWritten | hermes/container/optional.h:13-58 | As written, the implicit copy constructor copies the flag and the bytes and constructs nothing. |
| Optionals.CopySpec | hermes/container/optional.h:20-29 | The corrected copy holds the same value and constructs one value per value held. |
| Optionals.CopyAssign | hermes/container/optional.h:60-73 | Corrected same-type assignment: it holds the other's value, destroys exactly the old value and constructs exactly one copy per value assigned. |
| Optionals.CopyAssignAsWrittenMiscounts | hermes/container/optional.h:13-73 | As written, assigning one holding optional to another destroys nothing and constructs nothing, and both destructors then destroy the assigned value. Assigning an empty optional over a holding one loses the old value. The corrected assignment destroys one and constructs one. |
| Optionals.RunBalanced | hermes/container/optional.h:58 | Holds of the corrected same-type assignment `CopyAssign`, not of `CopyAssignAsWritten`. Over any sequence of operations ending in the destructor, destructions equal constructions plus the value held at the start. |
| Optionals.CopyAsWrittenDestroysTwice | hermes/container/optional.h:58 | Copy a holding optional and destroy both: as written one value is made and two are destroyed; the corrected copy balances. |
| Anys.Default | hermes/container/any.h:13-14 | A default `Any` is empty, with a null type function, so `Type()` is `void`. |
| Anys.ResetSpec | hermes/container/any.h:70-75 | `Reset` frees the value, if any, and empties the `Any` but keeps the type function. A second `Reset` does nothing. |
| Anys.AssignSpec | hermes/container/any.h:45-51 | Value assignment frees the old value and allocates the new one with its type tag. Construction from a value is the same from empty. |
| Anys.CopyCtorSpec | hermes/container/any.h:91-98 | Copy construction clones the value and tag of a holding source, allocating once. From an empty source the corrected constructor gives an empty `Any` with a null type function; as written `Type_` stays uninitialised (`CtorsFromEmptyAsWritten`). |
| Anys.MoveCtorSpec | hermes/container/any.h:101-109 | Move construction takes the value and tag without allocating and leaves the source empty. |
| Anys.CopyAssignSpec | hermes/container/any.h:29-35 | Self copy-assignment is a no-op. Otherwise the old value is freed and the source's value and tag are cloned. |
| Anys.MoveAssignSpec | hermes/container/any.h:37-43 | Self move-assignment is a no-op. Otherwise the old value is freed, the source's value is taken, and the source is left empty. |
| Anys.CtorsFromEmptyAsWritten | hermes/container/any.h:16-18 | As written, copy or move construction from an empty `Any` leaves the type function uninitialised; the corrected constructors leave it null. |
| Anys.TakeSpec | hermes/container/any.h:59-64 | Rvalue `Get`/`AnyCast` returns the value and leaves the `Any` empty. The corrected version frees the moved-from object. |
| Anys.RunBalanced | hermes/container/any.h:26 | Holds of the corrected rvalue `Get` (`Take`), not of `TakeAsWritten`. Over any sequence of operations ending in the destructor, frees equal allocations plus the value held at the start. |
| Anys.TakeAsWrittenLeaks | hermes/container/any.h:59-64 | As written, constructing from a value and then taking it out allocates once and frees nothing. |
| UniquePtrs.IsOwning | hermes/container/smart_pointer.h:66 | `operator bool` holds iff the pointer is non-null. |
| UniquePtrs.Deletes | hermes/container/smart_pointer.h:35 | The destructor deletes the owned object, or nothing for null. |
| UniquePtrs.MoveConstruct | hermes/container/smart_pointer.h:30 | Move construction takes the pointer and nulls the source; together they delete what the source would have. |
| UniquePtrs.MoveAssign | hermes/container/smart_pointer.h:47-50 | Move assignment takes the source's pointer; the swap keeps the set of objects the two will delete. |
| UniquePtrs.MoveAssignTwice | hermes/container/smart_pointer.h:47-50 | Move-assigning back undoes a move assignment. |
| UniquePtrs.TransferOwnership | test/unit_test/container/smart_pointer_test.cpp:17-21 | After a move the new handle reaches the object and the old one is null. |
| UniquePtrs.ApplyKeepsOwned | hermes/container/smart_pointer.h:23-50 | Every operation keeps the multiset of owned objects, adding only the one `MakeUnique` creates. |
| UniquePtrs.RunDeletesOnce | hermes/container/smart_pointer.h:23-86 | After any sequence of operations, destroying all handles deletes every object made exactly once. |
| SmartPointers.NewBlock | hermes/container/smart_pointer.h:96 | A new control block has count 1 in exactly the field its flag names. |
| SmartPointers.MakeShared | hermes/container/smart_pointer.h:176-180 | `MakeShared` adds a handle to a new block with strong count 1 and weak count 0. |
| SmartPointers.DefaultShared | hermes/container/smart_pointer.h:108 | A default `SharedPtr` is an empty handle; the heap is unchanged. |
| SmartPointers.CopyShared | hermes/container/smart_pointer.h:117-132 | Copy and move construction both add a handle to the source's block and keep the source. |
| SmartPointers.ResetShared | hermes/container/smart_pointer.h:139-150 | `Reset` empties the handle and keeps the counting invariant. |
| SmartPointers.ResetSharedTo | hermes/container/smart_pointer.h:153-157 | `Reset(ptr)` releases the old block and points the handle at a new block with strong count 1. |
| SmartPointers.DefaultWeak | hermes/container/smart_pointer.h:190 | A default `WeakPtr` is an empty handle; the heap is unchanged. |
| SmartPointers.WeakFromShared | hermes/container/smart_pointer.h:202-208 | A `WeakPtr` made from a `SharedPtr` points at its block. |
| SmartPointers.CopyWeak | hermes/container/smart_pointer.h:193-199 | A copied `WeakPtr` points at the source's block. |
| SmartPointers.ResetWeak | hermes/container/smart_pointer.h:253-262 | `WeakPtr::Reset` empties the handle and keeps the counting invariant. |
| SmartPointers.AssignWeak | hermes/container/smart_pointer.h:215-223 | Assigning a `SharedPtr` to a `WeakPtr` repoints it at the shared handle's block. |
| SmartPointers.Lock | hermes/container/smart_pointer.h:236-246 | `Lock` adds one shared handle and keeps the weak handles and the rest. |
| SmartPointers.PointedAlive | hermes/container/smart_pointer.h:139-150 | A block that a shared handle points at is alive with positive strong count, and its object is not deleted. |
| SmartPointers.MakeSharedUnique | hermes/container/smart_pointer.h:163-180 | A handle fresh from `MakeShared` is unique, with counts (1, 0), and nothing of it is deleted. |
| SmartPointers.CopySharedCounts | hermes/container/smart_pointer.h:117-132 | Copying a non-empty handle raises only the strong count by 1 and keeps the source. Neither handle is then unique. |
| SmartPointers.IsUniqueSpec | hermes/container/smart_pointer.h:163-166 | `IsUnique` holds iff the handle is empty or no other shared handle points at its block. |
| SmartPointers.ResetSharedCounts | hermes/container/smart_pointer.h:139-150 | `Reset` deletes the object iff the handle was unique. It frees the block iff additionally no weak count remains; otherwise the strong count drops by 1. |
| SmartPointers.AddWeakCounts | hermes/container/smart_pointer.h:193-208 | A new weak handle raises only the weak count of its block. |
| SmartPointers.IsExpiredSpec | hermes/container/smart_pointer.h:226-229 | A weak handle is expired iff its object has been deleted, iff no shared handle points at its block. |
| SmartPointers.LockCounts | hermes/container/smart_pointer.h:236-246 | `Lock` of an expired or empty handle gives an empty handle and changes no count. Otherwise it raises the strong count by 1 and shares the block. |
| SmartPointers.ResetWeakCounts | hermes/container/smart_pointer.h:253-262 | `WeakPtr::Reset` frees the block iff it was the last weak reference and the strong count is 0. Otherwise it lowers the weak count by 1. |
| SmartPointers.AllReleased | hermes/container/smart_pointer.h:135-150 | Once every handle is empty, every object and every block made has been deleted exactly once. |
| SmartPointers.DestroyWeakAsWritten | hermes/container/smart_pointer.h:187-267 | `WeakPtr` has no destructor: destroying one drops the handle and touches no count. |
| SmartPointers.DestroyWeakAsWrittenMiscounts | hermes/container/smart_pointer.h:187-267 | After such a destruction the block's weak count exceeds its weak handles by one. |
| SmartPointers.WeakPtrLeaksBlock | hermes/container/smart_pointer.h:139-147 | One shared and one weak handle: destroy the weak one, then reset the shared one. The object is deleted but the block (0, 1) is never freed. |
| SmartPointers.WeakPtrResetFreesBlock | hermes/container/smart_pointer.h:253-262 | With `Reset` as the weak destructor, either order of release deletes the object and the block once each. |
| StlSharedPtr.FromPtr | hermes/container/stl_shared_ptr.h:22-26 | Construction from a pointer adds a handle to a new counter set to 1. |
| StlSharedPtr.Copy | hermes/container/stl_shared_ptr.h:30-34 | Copy construction adds a handle sharing the source's counter. |
| StlSharedPtr.Move | hermes/container/stl_shared_ptr.h:36-42 | Move construction hands the source's counter to the new handle and empties the source. |
| StlSharedPtr.Destroy | hermes/container/stl_shared_ptr.h:74-83 | Destruction empties the handle, leaves every other handle and the next object id alone, and keeps the counting invariant. |
| StlSharedPtr.MoveAssign | hermes/container/stl_shared_ptr.h:58-72 | Move assignment points the target at the source's counter and empties the source (just the target's own handle, emptied, on self-move). No other handle changes, no object is created, and the invariant is kept. |
| StlSharedPtr.MoveAssignCounts | hermes/container/stl_shared_ptr.h:60-65 | Move assignment deletes the target's old object exactly when the target was its unique handle, and deletes nothing else. |
| StlSharedPtr.CopyAssign | hermes/container/stl_shared_ptr.h:44-56 | Copy assignment, incrementing before releasing, points the target at the source's counter, changes no other handle, creates no object and keeps the invariant. |
| StlSharedPtr.CopyShares | hermes/container/stl_shared_ptr.h:30-34 | A copy points at the same counter, which rises by 1 and equals the number of handles at it. |
| StlSharedPtr.MoveTransfers | hermes/container/stl_shared_ptr.h:36-42 | A move empties the source, gives its counter to the new handle, and changes no count and no other handle. |
| StlSharedPtr.IsUniqueSpec | hermes/container/stl_shared_ptr.h:88-90 | `IsUnique` holds iff no other handle points at the same counter. |
| StlSharedPtr.DestroySpecCounts | hermes/container/stl_shared_ptr.h:74-83 | Destroying an empty handle does nothing. Otherwise the object and counter are deleted iff the handle was unique, and else the count drops by 1. |
| StlSharedPtr.DestroyRange | hermes/container/stl_shared_ptr.h:74-83 | Destroying a range of handles empties exactly that range. |
| StlSharedPtr.AllDestroyed | hermes/container/stl_shared_ptr.h:74-83 | Once every handle is empty, every object created has been deleted exactly once. |
| StlSharedPtr.LiveNotDeleted | hermes/container/stl_shared_ptr.h:74-83 | An object some handle points at has not been deleted. |
| StlSharedPtr.ScenarioHandles | test/unit_test/container/stl_shared_ptr_test.cpp:25-38 | From a system without handles, the reference-count test's construction, four copies and a move make one new object. The six handles all point at it except the second, which the move nulled. |
| StlSharedPtr.ScenarioUnique | test/unit_test/container/stl_shared_ptr_test.cpp:26-31 | A fresh handle is unique; after a copy it is not. |
| StlSharedPtr.RefCntScenario | test/unit_test/container/stl_shared_ptr_test.cpp:14-42 | From any system without handles: the moved-to handle shares the copied one's object. Closing the inner scope does not delete the new object; closing the outer one deletes it exactly once. |
| StlSharedPtr.CopyAssignAsWrittenSpec | hermes/container/stl_shared_ptr.h:44-56 | As written, copy assignment uses a freed counter iff both handles share a counter of count 1. Otherwise it agrees with the corrected assignment. |
| StlSharedPtr.SelfCopyAssignUseAfterFree | hermes/container/stl_shared_ptr.h:44-56 | As written, self-assignment of a unique handle uses a freed counter; the corrected assignment leaves everything unchanged. |
| SpscQueues.ToInt | hermes/container/spsc_queue.h:58 | Storing into the `int` `max_size_` keeps the value modulo 2^32 in the 32-bit range, and unchanged when it fits. |
| SpscQueues.CRem | hermes/container/spsc_queue.h:90 | C's `%` is smaller in magnitude than the divisor and agrees with the mathematical remainder for a non-negative dividend. |
| SpscQueues.InitWith | hermes/container/spsc_queue.h:36-61 | `Init` aborts iff `file_size <= HEADER_SIZE`. Otherwise it sets head to 0, tail to 1 and the slot count to the one given; the queue it leaves has no slot written. |
| SpscQueues.InitAsWritten | hermes/container/spsc_queue.h:58 | As written, `max_size_ = (file_size - 8) / sizeof(T)`, and `Init` aborts iff the file is not larger than the header. |
| SpscQueues.Init | hermes/container/spsc_queue.h:56-58 | Corrected: `max_size_ = (file_size - HEADER_SIZE) / sizeof(T)`, with the same abort condition. |
| SpscQueues.PushSpec | hermes/container/spsc_queue.h:81-94 | A push fails and changes nothing iff head equals tail. Otherwise it writes slot `tail`, sets tail to `(tail + 1) % max_size_`, and keeps head and the other slots. |
| SpscQueues.PushAll | hermes/container/spsc_queue.h:81-94 | Pushing a sequence until the first failure succeeds at most once per value. |
| SpscQueues.PushAllFilled | hermes/container/spsc_queue.h:84-90 | From slots 1..k filled with tail at k+1, further pushes fill the next slots until the tail meets the head. |
| SpscQueues.PushesFromStart | hermes/container/spsc_queue.h:60-61 | For a ring of at least two slots: from head 0 and tail 1, exactly `min(n, max_size_ - 1)` pushes succeed; they fill slots 1, 2, … in order, and the queue is full after `max_size_ - 1`. |
| SpscQueues.FullWhenTailMeetsHead | hermes/container/spsc_queue.h:84-90 | After `max_size_ - 1` pushes the tail has wrapped around to the head. |
| SpscQueues.PushesFromInit | hermes/container/spsc_queue.h:32-94 | After a corrected `Init` that leaves a ring of at least two slots, pushes succeed `min(n, max_size_ - 1)` times and fill exactly slots 1..that count. |
| SpscQueues.PushAllFull | hermes/container/spsc_queue.h:84-85 | Once head equals tail, every further push fails and changes nothing. |
| SpscQueues.PushesOneSlot | hermes/container/spsc_queue.h:60-90 | For a ring of one slot, from head 0 and tail 1, exactly `min(n, 1)` pushes succeed, writing slot 1, outside the ring; then the queue is full. |
| SpscQueues.SlotCountFits | hermes/container/spsc_queue.h:56-58 | With the corrected slot count every slot lies inside the file after the header. |
| SpscQueues.PushesStayInFile | hermes/container/spsc_queue.h:87 | With the corrected slot count and a ring of at least two slots, every slot a push writes lies inside the mapped file. |
| SpscQueues.OneSlotRingWritesPastFile | hermes/container/spsc_queue.h:56-87 | Even with the corrected count, a 129-byte file of `char` gets a one-slot ring. Its one successful push writes slot 1, past the end of the file. |
| SpscQueues.AsWrittenWritesPastFile | hermes/container/spsc_queue.h:56-58 | A 256-byte file of `char`: as written `max_size_` is 248, 247 pushes succeed and the 128th writes slot 128, past the file. Corrected it is 128, and all 127 pushes stay inside. |

## Left out

- Concurrency: the atomics and memory orderings of the pointers and the queue are modelled as plain sequential counters and cursors.
- SPSC file handling: `open`, `ftruncate`, `mmap`, `munmap`, logging and the destructor (hermes/container/spsc_queue.h:24-29, 41-54) are left out. The `CHECK(data_ != MAP_FAILED)` at line 51 tests a field that is not yet set; the model assumes the mapping succeeded.
- SPSC `Pop` is a TODO in the source (hermes/container/spsc_queue.h:76-78), so no reads are modelled. The `Push(T&&)` overload at lines 71-74 returns `void` from a `bool` call; both overloads are modelled as `PushImpl`.
- The tests' SPSC API (`Write`, `Read`, `SizeGuess` and the rest) has no implementation in the header and is not part of this model.
- Buffer plumbing: `mmap`, `fread`, `fstat` and `sysconf` become a file given as a sequence of chars. A failed `mmap` is not modelled, in either reader: hermes/io/fastio.h:78-84 and hermes/fastio/fastio.h:65-71 both leave the buffer empty when `mmap` fails, and the model always gets the chunk it asks for.
- Heap mechanics: `new`, `delete`, placement new and pointer casts are not modelled. Ownership is counted in ghost-free multisets of deletions, and node and slot addresses are natural numbers.
- hermes/container/stl_string.h and hermes/container/static_unordered_map.h are not part of this model: one is an unfinished draft that does not compile, the other is syntactically broken.
- `StringView` and `String::operator=(const StringView&)` (hermes/container/string.h:10-19, 45-48) are stubs returning null and 0, and are not modelled.
- `StaticList::Insert` (hermes/container/static_list.h:128-136) calls `InsertImpl` with the wrong number of arguments and cannot compile, so it is not modelled.
- `Vector`'s copy and move constructors and assignments (hermes/container/stl_vector.h:17-77) leave `max_size_` unset and lack return statements, so they are not modelled.
- The assignment at test/perf/temp/job_manager.h:211 overwrites the root's map entry through a reference. It only touches entries already processed and does not change the chains, so the model walks the chain without that mutation.
- `JobManager::Report` and the `ostringstream` assembly in `JobChain::ToString` are output; only `TimeFormat` is modelled.
- `Job.IsValid`: the conditions are copied as written (test/perf/temp/job_manager.h:22-25). A trailing blank line therefore reads as the invalid job 0 and makes `InitImpl` fail.
- JobManager.InitImplSpec: the iteration order of `std::unordered_map` is a parameter. The lemmas hold for every order, but which chain comes first in the output is not determined.
- The network wrappers, `hermes/config/config.h`, `hermes/random/random.h` and the benchmarks are outside the modelled core.
- `HashMap`'s `LOAD_FACTOR` is fixed at its default of 1.0, so the rehash test `double(size_) >= LOAD_FACTOR * bucket_cnt_` is `size_ >= bucket_cnt_`. `Hash` is an arbitrary function given as a parameter.
- StlHashMap.ContainsSpec: `Contains` is declared `const` but calls the non-const `End()` (hermes/container/stl_hash_map.h:156-159, 222), so it does not compile once instantiated; the model gives it the evident meaning `Find(key) != End()`.
- The `HashMap` destructor and iterator increment and decrement are pointer walks over the same list and are not modelled separately. Iterators are node ids, or `None` for `End()`.
- Anys.Run: taking the value out of an empty box (`Get<T>() &&` with a null `data_`, hermes/container/any.h:59-64) dereferences a null pointer in the source. The model treats it as a step that changes nothing, so `Anys.RunBalanced` says nothing about that undefined behaviour.
- `Any`'s `std::type_info` is an abstract tag, and `Clone_`/`Delete_` are represented by the tag they were set with.
- StringBuf.Get: `operator[]` is modelled for indices up to the terminator; bytes of the buffer past it are not tracked.
- StringBuf.CopyFrom: copying a `String` onto itself aliases source and target in the source; the model treats the two as separate values.
- SmartPointers.CopyShared: `SharedPtr` declares no assignment operators; the implicit ones are deleted because of the user-declared move constructor, so there is nothing to model. `WeakPtr`'s implicit memberwise copy assignment is not modelled.
- StlSharedPtr.MoveAssign: `operator=` in hermes/container/stl_shared_ptr.h falls off its end without `return *this`; the model ignores the returned reference.
- StlSharedPtr.Copy: the source forbids using an empty (moved-from) `SharedPtr`, so `Copy`, `IsUnique` and the assignments require a non-empty handle.
- Integer widths: readers, job fields, runtimes, sizes and capacities are unbounded integers. FastIO.ReadOneSpec, Digits.ReadNumberSpec and JobManager.ChainAverage therefore do not model overflow of `T`, `int` or `size_t`. The only narrowing modelled is the store into the SPSC `int max_size_`.
- UniquePtrs.Run: an operation naming a handle that does not exist is skipped rather than being undefined behaviour.
- SpscQueues.Init: the element size is any positive number, but the `static_cast<T *>` from `char *` at hermes/container/spsc_queue.h:56 compiles only when `T` is a (cv-qualified) `char`. The model admits more element sizes than the source does; only size 1 occurs in a program that compiles.
- SpscQueues.PushesFromStart: a slot count whose magnitude is below 2, where `Init`'s tail of 1 is already out of range, is not covered by the fill lemmas; `PushesOneSlot` covers a count of magnitude 1. A slot count of 0 stops `PushAll` at the division by zero.
- SpscQueues.PushesFromInit: says nothing about a corrected `Init` that leaves a one-slot ring (a file with room for one element after the header). There one push succeeds, not `min(n, 0)`, as `PushesOneSlot` shows.
- SpscQueues.PushesStayInFile: does not cover the one-slot ring, and for it the promise is false: the corrected queue still writes slot 1 past the end of the file (`OneSlotRingWritesPastFile`). Correcting the slot count alone does not fix this; the tail's start at 1 assumes at least two slots.

## Findings

| source | as written | input that shows it | evidently intended | confidence | as-written member | corrected member |
|---|---|---|---|---|---|---|
| hermes/fastio/fast_io.h:15 | the constructor's skip loop stops when `c >= '0' \|\| c <= '9'`, which every char satisfies | a file " 7": nothing is skipped, the first `ReadOne` returns 0, the second 7 | stop at a digit (`&&`), so the first read is 7 | not executed | FastStream.OpenAsWrittenSpuriousZero | FastStream.OpenSkipsNonDigits |
| hermes/container/optional.h:13-73 | no copy assignment operator is declared (the template at lines 60-73 is never one), so `a = b` for two `Optional<T>` lvalues uses the implicit one: it copies the flag and raw bytes without destroying `a`'s value or constructing a `T`, and both destructors then destroy `b`'s value | `Optional<Tracker> a = Tracker(), b = Tracker(); a = b;`: `a`'s old `Tracker` is never destroyed and `b`'s is destroyed twice | `Reset()`, then copy-construct the other's value in place | not executed | Optionals.CopyAssignAsWrittenMiscounts | Optionals.CopyAssign |
| hermes/container/stl_hash_map.h:191-208 | `Erase` never decrements `size_` | `Init`, `Insert({k, v})`, `Erase(Find(k))`: `Size()` is 1 and `IsEmpty()` false with no nodes. The stale count lasts only until the next rehash, which recounts `size_` from 0 | `size_ -= 1` on a real erase | not executed | StlHashMap.EraseAsWrittenStaleSize | StlHashMap.EraseSpec |
| hermes/container/static_list.h:36-44 | `Delete` writes the slot at `free_list_[free_cnt_]` but never raises `free_cnt_` | `MAX_SIZE` 1: `PushBack(x)`, `Erase(Begin())`, `PushBack(y)` returns false | `free_cnt_ += 1` after recording the slot | not executed | StaticLists.AsWrittenPoolRunsDry | StaticLists.SizeBound |
| hermes/container/string.h:94-104 | `CopyFrom` copies `rhs.size_ + 1` bytes from `rhs.data_`, which is null for a default `String` | `String a; String b(a);` reads one byte through a null pointer | write only the terminator when the source has no buffer | not executed | StringBuf.CopyFromAsWrittenNullRead | StringBuf.CopyFromSpec |
| hermes/container/optional.h:13-58 | no copy constructor is declared (the template at lines 20-29 is never one), so the implicit one copies the flag and raw bytes without constructing a `T`, and both destructors destroy it | `Optional<Tracker> a = Tracker(); Optional<Tracker> b(a);`: one `Tracker` made (besides the temporary), two destroyed | copy-construct the held value in place | not executed | Optionals.CopyAsWrittenDestroysTwice | Optionals.CopySpec |
| hermes/container/any.h:16-18 | copy and move construction from an empty `Any` never set `Type_`, which has no initialiser | `Any a; Any b(a); b.Type();` calls an indeterminate function pointer | start from the null pointers of the default constructor | not executed | Anys.CtorsFromEmptyAsWritten | Anys.CopyCtorSpec |
| hermes/container/any.h:59-64 | rvalue `Get` moves out of the object and nulls `data_` without deleting it | `Any a = std::string("x"); AnyCast<std::string>(std::move(a));` leaks the heap string | delete the moved-from object through `Delete_` | not executed | Anys.TakeAsWrittenLeaks | Anys.TakeSpec |
| hermes/container/stl_shared_ptr.h:44-56 | copy assignment releases the target before incrementing the source | `p = p` with count 1: the object and counter are deleted, then `fetch_add` runs on the freed counter | increment first (or skip self-assignment) | not executed | StlSharedPtr.SelfCopyAssignUseAfterFree | StlSharedPtr.CopyAssign |
| hermes/container/smart_pointer.h:187-267 | `WeakPtr` has no destructor, so a destroyed weak handle never releases its weak count | `auto s = MakeShared<int>(1); { WeakPtr<int> w(s); } s.Reset();`: the object is deleted but the block (strong 0, weak 1) is never freed | `~WeakPtr() { Reset(); }` | not executed | SmartPointers.WeakPtrLeaksBlock | SmartPointers.WeakPtrResetFreesBlock |
| hermes/container/spsc_queue.h:56-58 | `max_size_` subtracts `2 * sizeof(atomic<int>)` (8 bytes) although the data start `HEADER_SIZE` (128 bytes) into the file | `SpscQueue<char>` with `file_size` 256: `max_size_` is 248, and the 128th push writes byte 256 of a 256-byte mapping | `(file_size - HEADER_SIZE) / sizeof(T)`, here 128. That keeps every write inside the file for rings of two slots or more; a file with room for one element still overflows (`OneSlotRingWritesPastFile`) | not executed | SpscQueues.AsWrittenWritesPastFile | SpscQueues.PushesStayInFile |

=== FILE: any.dfy ===
/**
  `hermes::container::Any` (hermes/container/any.h): a type-erased box. The
  value lives on the heap behind `data_`; three function pointers, set
  together by `AssignValue`, give its `type_info`, clone it and delete it.

  The value is modelled as a `V` and the type as an abstract tag `Tag`; the
  three pointers are one `TypeFn` (they are always set together). Each
  operation also reports the heap objects it allocated and deleted, so that
  leaks can be stated.
 */
module Anys {
  import opened Options

  /** `Type_` (with `Clone_` and `Delete_`): null, never initialised, or
      the functions of one type. */
  datatype TypeFn<Tag> = NullFn | Uninit | TypeOf(tag: Tag)

  datatype Any<V, Tag> = Any(data: Option<V>, typeFn: TypeFn<Tag>)

  /** An operation's result on one `Any`, with the heap objects it
      allocated and deleted. */
  datatype Step<V, Tag> = Step(a: Any<V, Tag>, allocs: nat, frees: nat)

  /** An operation on two `Any`s (copy and move): target, then source. */
  datatype Step2<V, Tag> = Step2(a: Any<V, Tag>, rhs: Any<V, Tag>, allocs: nat, frees: nat)

  /** The heap objects owned. */
  function Live<V, Tag>(a: Any<V, Tag>): nat {
    if a.data.Some? then 1 else 0
  }

  /** `HasValue()`: `data_` is not null. */
  function HasValue<V, Tag>(a: Any<V, Tag>): bool {
    a.data.Some?
  }

  /** `Type()`: the stored type, `None` standing for `typeid(void)` when
      `Type_` is null. Calling through a never-initialised `Type_` is
      undefined behaviour. */
  function Type<V, Tag>(a: Any<V, Tag>): Option<Tag>
    requires !a.typeFn.Uninit?
  {
    if a.typeFn.NullFn? then None else Some(a.typeFn.tag)
  }

  /** `Any()`: every pointer null. */
  function Default<V, Tag>(): (a: Any<V, Tag>)
    ensures !HasValue(a) && !a.typeFn.Uninit? && Type(a) == None
  {
    Any(None, NullFn)
  }

  /** `Reset()`: delete the value if there is one. `Type_` is left as it
      was. */
  function Reset<V, Tag>(a: Any<V, Tag>): (s: Step<V, Tag>)
  {
    if a.data.Some? then Step(Any(None, a.typeFn), 0, 1) else Step(a, 0, 0)
  }

  /** `Reset` empties the box and deletes what it held, once; the type
      reported stays that of the last value. */
  lemma ResetSpec<V, Tag>(a: Any<V, Tag>)
    ensures var s := Reset(a);
      && !HasValue(s.a) && s.a.typeFn == a.typeFn
      && s.allocs == 0 && s.frees == Live(a)
      && Reset(s.a) == Step(s.a, 0, 0)
  {
  }

  /** `AssignValue(value)`: the functions of the decayed type `tag`, and a
      heap copy of the value. */
  function AssignValue<V, Tag>(x: V, tag: Tag): (a: Any<V, Tag>)
  {
    Any(Some(x), TypeOf(tag))
  }

  /** `Any(T&& value)`. */
  function FromValue<V, Tag>(x: V, tag: Tag): (s: Step<V, Tag>)
  {
    Step(AssignValue(x, tag), 1, 0)
  }

  /** `operator=(T&& value)`: `Reset()`, then `AssignValue`. */
  function Assign<V, Tag>(a: Any<V, Tag>, x: V, tag: Tag): (s: Step<V, Tag>)
  {
    Step(AssignValue(x, tag), 1, Reset(a).frees)
  }

  /** After storing a value the box holds it and reports its type; the old
      value, if any, is deleted. */
  lemma AssignSpec<V, Tag>(a: Any<V, Tag>, x: V, tag: Tag)
    ensures var s := Assign(a, x, tag);
      && HasValue(s.a) && s.a.data.value == x && !s.a.typeFn.Uninit? && Type(s.a) == Some(tag)
      && s.allocs == 1 && s.frees == Live(a)
    ensures var s := FromValue(x, tag);
      s.a == Assign(Default(), x, tag).a && s.allocs == 1 && s.frees == 0
  {
  }

  // ---------------------------------------------------------------------------
  // Copy and move

  /** `CopyFrom(rhs)` into `a`: when `rhs` holds a value, take its
      functions and a clone of the value; otherwise leave `a` as it is. */
  function CopyFrom<V, Tag>(a: Any<V, Tag>, rhs: Any<V, Tag>): (s: Step<V, Tag>)
  {
    if rhs.data.Some? then Step(Any(rhs.data, rhs.typeFn), 1, 0) else Step(a, 0, 0)
  }

  /** `MoveFrom(rhs)` into `a`: when `rhs` holds a value, take its
      functions and its pointer, leaving `rhs.data_` null. */
  function MoveFrom<V, Tag>(a: Any<V, Tag>, rhs: Any<V, Tag>): (s: Step2<V, Tag>)
  {
    if rhs.data.Some? then Step2(Any(rhs.data, rhs.typeFn), Any(None, rhs.typeFn), 0, 0)
    else Step2(a, rhs, 0, 0)
  }

  /** The state of a member-initialised `Any` in the copy and move
      constructors as written: `data_` has its default initialiser, the
      three function pointers have none. */
  function Unset<V, Tag>(): Any<V, Tag> {
    Any(None, Uninit)
  }

  /** `Any(const Any&)` as written. */
  function CopyCtorAsWritten<V, Tag>(rhs: Any<V, Tag>): (s: Step<V, Tag>)
  {
    CopyFrom(Unset(), rhs)
  }

  /** `Any(Any&&)` as written. */
  function MoveCtorAsWritten<V, Tag>(rhs: Any<V, Tag>): (s: Step2<V, Tag>)
  {
    MoveFrom(Unset(), rhs)
  }

  /** `Any(const Any&)` with the pointers default-initialised to null, as
      `Any()` does. */
  function CopyCtor<V, Tag>(rhs: Any<V, Tag>): (s: Step<V, Tag>)
  {
    CopyFrom(Default(), rhs)
  }

  /** `Any(Any&&)` with the pointers default-initialised to null. */
  function MoveCtor<V, Tag>(rhs: Any<V, Tag>): (s: Step2<V, Tag>)
  {
    MoveFrom(Default(), rhs)
  }

  /** A copy holds the source's value and type and owns a fresh clone; the
      source is untouched. A copy of an empty box is an empty box whose
      type is `void`. */
  lemma CopyCtorSpec<V, Tag>(rhs: Any<V, Tag>)
    ensures var s := CopyCtor(rhs);
      && HasValue(s.a) == HasValue(rhs)
      && (HasValue(rhs) ==> s.a == rhs && s.allocs == 1)
      && (!HasValue(rhs) ==> s.a == Default() && s.allocs == 0)
      && s.frees == 0
      && (!rhs.typeFn.Uninit? ==> !s.a.typeFn.Uninit? && (HasValue(rhs) ==> Type(s.a) == Type(rhs)))
  {
  }

  /** A move hands over the value and its type without allocating and
      leaves the source empty; the objects owned by the two are the same
      before and after. */
  lemma MoveCtorSpec<V, Tag>(rhs: Any<V, Tag>)
    ensures var s := MoveCtor(rhs);
      && s.a.data == rhs.data && !HasValue(s.rhs)
      && (HasValue(rhs) ==> s.a.typeFn == rhs.typeFn)
      && Live(s.a) + Live(s.rhs) == Live(rhs)
      && s.allocs == 0 && s.frees == 0
  {
  }

  /** `operator=(const Any&)`: nothing on self-assignment (`aliased`);
      otherwise `Reset()`, then `CopyFrom(rhs)`. */
  function CopyAssign<V, Tag>(a: Any<V, Tag>, rhs: Any<V, Tag>, aliased: bool): (s: Step<V, Tag>)
    requires aliased ==> a == rhs
  {
    if aliased then Step(a, 0, 0)
    else
      var r := Reset(a);
      var c := CopyFrom(r.a, rhs);
      Step(c.a, c.allocs, r.frees)
  }

  /** `operator=(Any&&)`: nothing on self-assignment; otherwise `Reset()`,
      then `MoveFrom(rhs)`. */
  function MoveAssign<V, Tag>(a: Any<V, Tag>, rhs: Any<V, Tag>, aliased: bool): (s: Step2<V, Tag>)
    requires aliased ==> a == rhs
  {
    if aliased then Step2(a, rhs, 0, 0)
    else
      var r := Reset(a);
      var m := MoveFrom(r.a, rhs);
      Step2(m.a, m.rhs, 0, r.frees)
  }

  /** Copy assignment leaves the target with the source's value and type
      (or empty, when the source is), deleting what the target held, and
      is a no-op on itself. */
  lemma CopyAssignSpec<V, Tag>(a: Any<V, Tag>, rhs: Any<V, Tag>, aliased: bool)
    requires aliased ==> a == rhs
    ensures var s := CopyAssign(a, rhs, aliased);
      && (aliased ==> s == Step(a, 0, 0))
      && (!aliased ==>
            && s.a.data == rhs.data
            && (HasValue(rhs) ==> s.a.typeFn == rhs.typeFn)
            && s.allocs == Live(rhs) && s.frees == Live(a))
  {
  }

  /** Move assignment hands the source's value to the target, deleting the
      target's old value, and leaves the source empty; on itself it does
      nothing. */
  lemma MoveAssignSpec<V, Tag>(a: Any<V, Tag>, rhs: Any<V, Tag>, aliased: bool)
    requires aliased ==> a == rhs
    ensures var s := MoveAssign(a, rhs, aliased);
      && (aliased ==> s.a == a && s.rhs == rhs && s.frees == 0)
      && (!aliased ==>
            && s.a.data == rhs.data && !HasValue(s.rhs)
            && (HasValue(rhs) ==> s.a.typeFn == rhs.typeFn)
            && s.allocs == 0 && s.frees == Live(a)
            && Live(s.a) + Live(s.rhs) == Live(rhs))
  {
  }

  /** Copying or moving an empty `Any`: as written the new box's `Type_` is
      never initialised, so `Type()` on it is undefined; with the pointers
      initialised to null it reports `void` like `Any()`. */
  lemma CtorsFromEmptyAsWritten<V, Tag>(rhs: Any<V, Tag>)
    requires !HasValue(rhs)
    ensures CopyCtorAsWritten(rhs).a.typeFn.Uninit?
    ensures MoveCtorAsWritten(rhs).a.typeFn.Uninit?
    ensures !CopyCtor(rhs).a.typeFn.Uninit? && Type(CopyCtor(rhs).a) == None
    ensures !MoveCtor(rhs).a.typeFn.Uninit? && Type(MoveCtor(rhs).a) == None
  {
  }

  // ---------------------------------------------------------------------------
  // Get, AnyCast

  /** `Get<T>() const&` and `AnyCast<T>(const Any&)`: a copy of the value.
      Reading an empty box, or as the wrong type, is undefined behaviour. */
  function Get<V, Tag>(a: Any<V, Tag>): V
    requires HasValue(a)
  {
    a.data.value
  }

  datatype Taken<V, Tag> = Taken(value: V, step: Step<V, Tag>)

  /** `Get<T>() &&` and `AnyCast<T>(Any&&)` as written: move the value out
      and null `data_`, without deleting the heap object. */
  function TakeAsWritten<V, Tag>(a: Any<V, Tag>): (r: Taken<V, Tag>)
    requires HasValue(a)
  {
    Taken(a.data.value, Step(Any(None, a.typeFn), 0, 0))
  }

  /** `Get<T>() &&` deleting the moved-from object through `Delete_`. */
  function Take<V, Tag>(a: Any<V, Tag>): (r: Taken<V, Tag>)
    requires HasValue(a)
  {
    Taken(a.data.value, Step(Any(None, a.typeFn), 0, 1))
  }

  /** Taking the value out returns it and leaves the box empty; corrected,
      the heap object it lived in is deleted. */
  lemma TakeSpec<V, Tag>(a: Any<V, Tag>)
    requires HasValue(a)
    ensures var r := Take(a);
      && r.value == Get(a) && !HasValue(r.step.a)
      && r.step.frees == Live(a) && Live(r.step.a) == 0
    ensures TakeAsWritten(a).value == Get(a) && !HasValue(TakeAsWritten(a).step.a)
  {
  }

  // ---------------------------------------------------------------------------
  // Lifetimes

  /** What a client does with one box. */
  datatype Op<V, Tag> = AssignOp(x: V, tag: Tag) | ResetOp | CopyAssignOp(rhs: Any<V, Tag>) | TakeOp

  /** Allocations and deletions over a run of operations ending with the
      destructor (`~Any` calls `Reset`), with the corrected rvalue `Get`.
      Taking from an empty box dereferences a null `data_` in the source;
      here it changes nothing. */
  function Run<V, Tag>(a: Any<V, Tag>, ops: seq<Op<V, Tag>>): (s: Step<V, Tag>)
    decreases |ops|
  {
    if ops == [] then Reset(a)
    else
      var s := match ops[0]
        case AssignOp(x, tag) => Assign(a, x, tag)
        case ResetOp => Reset(a)
        case CopyAssignOp(rhs) => CopyAssign(a, rhs, false)
        case TakeOp => if a.data.Some? then Take(a).step else Step(a, 0, 0);
      var rest := Run(s.a, ops[1..]);
      Step(rest.a, s.allocs + rest.allocs, s.frees + rest.frees)
  }

  /** The same run with the rvalue `Get` as written. */
  function RunAsWritten<V, Tag>(a: Any<V, Tag>, ops: seq<Op<V, Tag>>): (s: Step<V, Tag>)
    decreases |ops|
  {
    if ops == [] then Reset(a)
    else
      var s := match ops[0]
        case AssignOp(x, tag) => Assign(a, x, tag)
        case ResetOp => Reset(a)
        case CopyAssignOp(rhs) => CopyAssign(a, rhs, false)
        case TakeOp => if a.data.Some? then TakeAsWritten(a).step else Step(a, 0, 0);
      var rest := RunAsWritten(s.a, ops[1..]);
      Step(rest.a, s.allocs + rest.allocs, s.frees + rest.frees)
  }

  /** Whatever is done to a box, by the end of its life every heap object
      it allocated, and the one it started with, has been deleted. */
  lemma {:induction false} RunBalanced<V, Tag>(a: Any<V, Tag>, ops: seq<Op<V, Tag>>)
    ensures !HasValue(Run(a, ops).a)
    ensures Run(a, ops).allocs + Live(a) == Run(a, ops).frees
    decreases |ops|
  {
    if ops != [] {
      var s := match ops[0]
        case AssignOp(x, tag) => Assign(a, x, tag)
        case ResetOp => Reset(a)
        case CopyAssignOp(rhs) => CopyAssign(a, rhs, false)
        case TakeOp => if a.data.Some? then Take(a).step else Step(a, 0, 0);
      RunBalanced(s.a, ops[1..]);
    }
  }

  /** `Any a = x; AnyCast<T>(std::move(a));` then `a` goes out of scope:
      as written one object is allocated and none deleted. */
  lemma TakeAsWrittenLeaks<V, Tag>(x: V, tag: Tag)
    ensures var a := FromValue(x, tag);
      var r := RunAsWritten(a.a, [TakeOp]);
      a.allocs + r.allocs == 1 && r.frees == 0
  {
  }
}

=== FILE: digits.dfy ===
/**
  Decimal digits as the readers and the job report see them: a C `char` is a
  byte, a digit is one of '0'..'9', a number is the left-to-right fold
  `ret * 10 + digit` over a run of digits, and `std::to_string` of a
  non-negative integer is its shortest decimal spelling.
 */
module Digits {

  /** A C `char`, seen through its unsigned byte value. */
  type Char8 = c: char | c as int < 256

  const NUL: Char8 := 0 as char

  /** `IsDigit` of the readers: `static_cast<unsigned char>(c - '0') < 10`.
      The cast keeps the difference modulo 256. */
  predicate IsDigit(c: Char8) {
    (c as int - '0' as int) % 256 < 10
  }

  /** The unsigned-byte test above accepts exactly '0'..'9'. */
  lemma IsDigitIsDecimal(c: Char8)
    ensures IsDigit(c) <==> '0' <= c <= '9'
  {
  }

  function DigitValue(c: Char8): (d: nat)
    requires IsDigit(c)
    ensures d < 10
    ensures c == ('0' as int + d) as char
  {
    c as int - '0' as int
  }

  function DigitChar(d: nat): (c: Char8)
    requires d < 10
    ensures IsDigit(c) && DigitValue(c) == d
  {
    ('0' as int + d) as char
  }

  predicate AllDigits(s: seq<Char8>) {
    forall i :: 0 <= i < |s| ==> IsDigit(s[i])
  }

  /** The reader loop `ret = ret * 10 + digit` run over `s` from `acc`. */
  function Fold(acc: nat, s: seq<Char8>): nat
    requires AllDigits(s)
    decreases |s|
  {
    if s == [] then acc else Fold(acc * 10 + DigitValue(s[0]), s[1..])
  }

  /** The value of a run of digits, most significant first. */
  function Value(s: seq<Char8>): nat
    requires AllDigits(s)
  {
    Fold(0, s)
  }

  /** Length of the maximal run of digits at the front of `s`. */
  function DigitRun(s: seq<Char8>): (k: nat)
    ensures k <= |s|
    ensures AllDigits(s[..k])
    ensures k < |s| ==> !IsDigit(s[k])
  {
    if s != [] && IsDigit(s[0]) then
      var k := 1 + DigitRun(s[1..]);
      assert s[..k] == [s[0]] + s[1..][..k - 1];
      k
    else 0
  }

  /** Any digit prefix ends no later than the maximal run. */
  lemma {:induction false} DigitRunMaximal(s: seq<Char8>, k: nat)
    requires k <= |s| && AllDigits(s[..k])
    ensures k <= DigitRun(s)
  {
    var d := DigitRun(s);
    if d < k {
      assert false;
    }
  }

  /** Folding a concatenation is folding its parts in turn. */
  lemma {:induction false} FoldAppend(acc: nat, a: seq<Char8>, b: seq<Char8>)
    requires AllDigits(a) && AllDigits(b)
    ensures AllDigits(a + b)
    ensures Fold(acc, a + b) == Fold(Fold(acc, a), b)
    decreases |a|
  {
    if a == [] {
      assert a + b == b;
    } else {
      assert (a + b)[1..] == a[1..] + b;
      FoldAppend(acc * 10 + DigitValue(a[0]), a[1..], b);
    }
  }

  /** `std::to_string` of a non-negative integer. */
  function ToDecimal(n: nat): (s: seq<Char8>)
    ensures |s| >= 1 && AllDigits(s)
    ensures Value(s) == n
    ensures |s| > 1 ==> s[0] != '0'
    ensures n < 10 <==> |s| == 1
  {
    if n < 10 then
      var c := DigitChar(n);
      assert [c][1..] == [];
      assert Fold(0, [c]) == Fold(n, []);
      [c]
    else
      var p := ToDecimal(n / 10);
      FoldAppend(0, p, [DigitChar(n % 10)]);
      assert (p + [DigitChar(n % 10)])[0] == p[0];
      p + [DigitChar(n % 10)]
  }

  /** Decimal spelling is injective, so it can be parsed back. */
  lemma ToDecimalInjective(m: nat, n: nat)
    requires ToDecimal(m) == ToDecimal(n)
    ensures m == n
  {
  }
  // ---------------------------------------------------------------------------
  // Readers over a stream of chars. The unread input is a sequence; the
  // buffer refills of each reader are modelled in that reader's module.

  datatype Read = Read(value: nat, rest: seq<Char8>)

  /** `NextChar` of the readers that return a NUL once the input is
      exhausted (hermes/io/fastio.h and the CSV reader of the job manager). */
  function NextChar(s: seq<Char8>): (r: (Char8, seq<Char8>))
    ensures s != [] ==> r.0 == s[0] && r.1 == s[1..]
    ensures s == [] ==> r.0 == NUL && r.1 == []
  {
    if s == [] then (NUL, []) else (s[0], s[1..])
  }

  /** The loop `while (IsDigit(c = NextChar())) ret = ret * 10 + (c - '0')`,
      entered with `acc` accumulated and `s` unread. It consumes at least
      one char of a non-empty input. */
  function ReadFrom(acc: nat, s: seq<Char8>): (r: Read)
    ensures |r.rest| <= |s| && (s != [] ==> |r.rest| < |s|)
    decreases |s|
  {
    var (c, s') := NextChar(s);
    if IsDigit(c) then ReadFrom(acc * 10 + DigitValue(c), s') else Read(acc, s')
  }

  /** The loop folds the maximal run of digits into `acc` and consumes it
      together with the char after it. */
  lemma {:induction false} ReadFromSpec(acc: nat, s: seq<Char8>)
    ensures var k := DigitRun(s);
      && ReadFrom(acc, s).value == Fold(acc, s[..k])
      && ReadFrom(acc, s).rest == (if k < |s| then s[k + 1..] else [])
    decreases |s|
  {
    if s != [] && IsDigit(s[0]) {
      ReadFromSpec(acc * 10 + DigitValue(s[0]), s[1..]);
      assert s[..DigitRun(s)][1..] == s[1..][..DigitRun(s[1..])];
    }
  }

  /** Where `ReadFrom` goes on once `c` has been taken off the input. */
  function Resume(acc: nat, c: Char8, s: seq<Char8>): Read {
    if IsDigit(c) then ReadFrom(acc * 10 + DigitValue(c), s) else Read(acc, s)
  }

  lemma ResumeUnfold(acc: nat, s: seq<Char8>)
    ensures ReadFrom(acc, s) == Resume(acc, NextChar(s).0, NextChar(s).1)
  {
  }

  /** A terminated number, as `NextInt` and hermes/io/fastio.h's `ReadOne`
      read it. */
  function ReadNumber(s: seq<Char8>): (r: Read)
    ensures |r.rest| <= |s| && (s != [] ==> |r.rest| < |s|)
  {
    ReadFrom(0, s)
  }

  /** The value of the maximal run of digits at the cursor, with the run
      and the one char after it consumed. */
  lemma ReadNumberSpec(s: seq<Char8>)
    ensures var k := DigitRun(s);
      && ReadNumber(s).value == Value(s[..k])
      && ReadNumber(s).rest == (if k < |s| then s[k + 1..] else [])
  {
    ReadFromSpec(0, s);
  }

  /** At a non-digit the reader returns 0 and consumes exactly that char. */
  lemma ReadNumberAtNonDigit(s: seq<Char8>)
    requires s != [] && !IsDigit(s[0])
    ensures ReadNumber(s) == Read(0, s[1..])
  {
    ReadNumberSpec(s);
    assert s[..0] == [];
  }

  /** The separators of the formats read here are not digits. */
  lemma SeparatorsNotDigits()
    ensures !IsDigit(',') && !IsDigit(':') && !IsDigit('\n')
  {
  }

  /** Inverse of `std::to_string`: a number written in decimal and followed
      by a separator is read back, and the separator is consumed. */
  lemma ReadNumberRoundTrip(n: nat, sep: Char8, tail: seq<Char8>)
    requires !IsDigit(sep)
    ensures ReadNumber(ToDecimal(n) + [sep] + tail) == Read(n, tail)
  {
    var d := ToDecimal(n);
    var s := d + [sep] + tail;
    ReadNumberSpec(s);
    assert s[..|d|] == d;
    assert s[|d|] == sep;
    DigitRunMaximal(s, |d|);
    assert DigitRun(s) == |d|;
    assert s[|d| + 1..] == tail;
  }

  /** At the end of the input the number is still read: the NUL ends it. */
  lemma ReadNumberRoundTripAtEnd(n: nat)
    ensures ReadNumber(ToDecimal(n)) == Read(n, [])
  {
    var d := ToDecimal(n);
    ReadNumberSpec(d);
    assert d[..|d|] == d;
    DigitRunMaximal(d, |d|);
  }

  predicate NoDigits(s: seq<Char8>) {
    forall i :: 0 <= i < |s| ==> !IsDigit(s[i])
  }

  /** The "skip whitespace" loop: drop every char before the first digit. */
  function SkipNonDigits(s: seq<Char8>): (t: seq<Char8>)
    ensures |t| <= |s| && t == s[|s| - |t|..]
    ensures NoDigits(s[..|s| - |t|])
    ensures t != [] ==> IsDigit(t[0])
  {
    if s != [] && !IsDigit(s[0]) then
      var t := SkipNonDigits(s[1..]);
      assert s[..|s| - |t|] == [s[0]] + s[1..][..|s| - 1 - |t|];
      t
    else
      s
  }

  /** Skipping stops at the first digit and consumes nothing else. */
  lemma SkipNonDigitsPrefix(junk: seq<Char8>, s: seq<Char8>)
    requires NoDigits(junk)
    requires s == [] || IsDigit(s[0])
    ensures SkipNonDigits(junk + s) == s
  {
    if junk != [] {
      assert (junk + s)[1..] == junk[1..] + s;
      SkipNonDigitsPrefix(junk[1..], s);
    }
  }

  /** The parse loop of the readers that stop at the first non-digit
      without consuming it, entered with `acc` accumulated. */
  function ParseRun(acc: nat, s: seq<Char8>): Read
    decreases |s|
  {
    if s != [] && IsDigit(s[0]) then ParseRun(acc * 10 + DigitValue(s[0]), s[1..])
    else Read(acc, s)
  }

  /** The loop folds exactly the maximal run of digits and stops in front
      of the char after it. */
  lemma {:induction false} ParseRunValue(acc: nat, s: seq<Char8>)
    ensures var k := DigitRun(s);
      ParseRun(acc, s).value == Fold(acc, s[..k]) && ParseRun(acc, s).rest == s[k..]
    decreases |s|
  {
    if s != [] && IsDigit(s[0]) {
      ParseRunValue(acc * 10 + DigitValue(s[0]), s[1..]);
      assert s[..DigitRun(s)][1..] == s[1..][..DigitRun(s[1..])];
    }
  }

  lemma SkipStep(s: seq<Char8>)
    requires s != [] && !IsDigit(s[0])
    ensures SkipNonDigits(s) == SkipNonDigits(s[1..])
  {
  }

  lemma ParseStep(acc: nat, s: seq<Char8>)
    requires s != [] && IsDigit(s[0])
    ensures ParseRun(acc, s) == ParseRun(acc * 10 + DigitValue(s[0]), s[1..])
  {
  }

  lemma ParseStop(acc: nat, s: seq<Char8>)
    requires s == [] || !IsDigit(s[0])
    ensures ParseRun(acc, s) == Read(acc, s)
  {
  }

  /** A number written in decimal and followed by a non-digit is parsed
      back, and the non-digit is left unread. */
  lemma ParseRunRoundTrip(n: nat, tail: seq<Char8>)
    requires tail == [] || !IsDigit(tail[0])
    ensures ParseRun(0, ToDecimal(n) + tail) == Read(n, tail)
  {
    var d := ToDecimal(n);
    var s := d + tail;
    ParseRunValue(0, s);
    assert s[..|d|] == d;
    DigitRunMaximal(s, |d|);
    assert DigitRun(s) == |d|;
    assert s[|d|..] == tail;
  }
}

=== FILE: fastio_fast_io.dfy ===
/**
  `hermes::fastio::IntegralFastIO` of hermes/fastio/fast_io.h: a reader over
  a `FILE*` that parses the run of digits at the cursor and then skips ahead
  to the next digit, so that between calls the cursor always rests on a
  digit or at the end of the file. The constructor is meant to establish
  that by skipping the file's leading non-digits.

  The buffer is refilled by `fread` of at most `MAX_BUFFER_SIZE` bytes, which
  on a regular file yields the same chunks as the mapped refill of
  hermes/fastio/fastio.h, so the buffer level reuses that module's reader.
 */
module FastStream {
  import opened Digits
  import FastIO

  /** `MAX_BUFFER_SIZE` (`1 << 12`). */
  const MaxBufferSize: nat := 4096

  /** Between calls the cursor is on a digit or at the end of the input. */
  predicate AtDigit(s: seq<Char8>) {
    s == [] || IsDigit(s[0])
  }

  // ---------------------------------------------------------------------------
  // Constructor

  /** The constructor's loop: drop chars until `stop` holds for the one at
      the cursor. */
  function SkipUntil(stop: Char8 -> bool, s: seq<Char8>): seq<Char8>
    decreases |s|
  {
    if s != [] && !stop(s[0]) then SkipUntil(stop, s[1..]) else s
  }

  /** The constructor's stop test as written: `c >= '0' || c <= '9'`. */
  predicate StopAsWritten(c: Char8) {
    c >= '0' || c <= '9'
  }

  /** The constructor as written. */
  function OpenAsWritten(file: seq<Char8>): seq<Char8> {
    SkipUntil(StopAsWritten, file)
  }

  /** Every char passes the stop test as written, so the constructor skips
      nothing and a leading non-digit stays under the cursor. */
  lemma OpenAsWrittenSkipsNothing(file: seq<Char8>)
    ensures OpenAsWritten(file) == file
  {
    if file != [] {
      assert StopAsWritten(file[0]);
    }
  }

  /** The constructor with the stop test `c >= '0' && c <= '9'` of the
      skip loop in `ReadOne`. */
  function Open(file: seq<Char8>): seq<Char8> {
    SkipUntil(IsDigit, file)
  }

  /** The corrected constructor skips exactly the leading non-digits and
      leaves the cursor on a digit or at the end. */
  lemma {:induction false} OpenSkipsNonDigits(file: seq<Char8>)
    ensures Open(file) == SkipNonDigits(file)
    ensures AtDigit(Open(file))
    decreases |file|
  {
    if file != [] && !IsDigit(file[0]) {
      OpenSkipsNonDigits(file[1..]);
    }
  }

  // ---------------------------------------------------------------------------
  // Stream level

  /** `ReadOne`: fail when the input is exhausted; otherwise parse the run
      of digits at the cursor, then skip to the next digit. */
  function ReadOne(s: seq<Char8>, ret: int): FastIO.Outcome {
    if s == [] then FastIO.Outcome(false, ret, [])
    else
      var p := ParseRun(0, s);
      FastIO.Outcome(true, p.value, SkipNonDigits(p.rest))
  }

  /** What `ReadOne` reads. It fails exactly at the end of the input, and
      then leaves `ret` alone. Otherwise it yields the value of the run of
      digits at the cursor (0 when there is none) and leaves the cursor on
      the next digit, consuming at least one char. */
  lemma ReadOneSpec(s: seq<Char8>, ret: int)
    ensures var o := ReadOne(s, ret);
      var k := DigitRun(s);
      && (o.ok <==> s != [])
      && (!o.ok ==> o.ret == ret && o.rest == [])
      && (o.ok ==> o.ret == Value(s[..k]) && o.rest == SkipNonDigits(s[k..]))
      && AtDigit(o.rest)
      && (o.ok ==> |o.rest| < |s|)
  {
    ParseRunValue(0, s);
    if s != [] && !IsDigit(s[0]) {
      SkipStep(s);
    }
  }

  /** Reading numbers until `ReadOne` fails. */
  function ReadAll(s: seq<Char8>): seq<nat>
    decreases |s|
  {
    var o := ReadOne(s, 0);
    ReadOneSpec(s, 0);
    if o.ok then [o.ret as nat] + ReadAll(o.rest) else []
  }

  /** From a cursor on a digit this reader and the one of
      hermes/fastio/fastio.h read the same number; this one has already
      skipped the non-digits that the other skips on its next call. */
  lemma ReadOneMatchesFastIO(s: seq<Char8>, ret: int)
    requires AtDigit(s)
    ensures var o := ReadOne(s, ret);
      var p := FastIO.ReadOne(s, ret);
      o.ok == p.ok && o.ret == p.ret && o.rest == SkipNonDigits(p.rest)
  {
    ReadOneSpec(s, ret);
    FastIO.ReadOneSpec(s, ret);
    if s != [] {
      SkipNonDigitsPrefix([], s);
    }
  }

  /** The reader of hermes/fastio/fastio.h skips non-digits itself, so
      skipping them first changes nothing it reads. */
  lemma FastIOReadAllSkip(s: seq<Char8>)
    ensures FastIO.ReadAll(SkipNonDigits(s)) == FastIO.ReadAll(s)
  {
    var t := SkipNonDigits(s);
    SkipNonDigitsPrefix([], t);
    assert [] + t == t;
    FastIO.ReadOneSpec(s, 0);
    FastIO.ReadOneSpec(t, 0);
  }

  /** From a cursor on a digit both readers read the same numbers. */
  lemma {:induction false} ReadAllMatchesFastIO(s: seq<Char8>)
    requires AtDigit(s)
    ensures ReadAll(s) == FastIO.ReadAll(s)
    decreases |s|
  {
    ReadOneMatchesFastIO(s, 0);
    ReadOneSpec(s, 0);
    FastIO.ReadOneSpec(s, 0);
    if s != [] {
      var r := FastIO.ReadOne(s, 0).rest;
      FastIOReadAllSkip(r);
      ReadAllMatchesFastIO(SkipNonDigits(r));
    }
  }

  /** With the corrected constructor a file written one number per line
      reads back as exactly those numbers. */
  lemma OpenReadAllLines(ns: seq<nat>)
    ensures ReadAll(Open(FastIO.Lines(ns))) == ns
  {
    var file := FastIO.Lines(ns);
    OpenSkipsNonDigits(file);
    ReadAllMatchesFastIO(Open(file));
    FastIO.ReadAllLines(ns);
    FastIOReadAllSkip(file);
  }

  /** With the constructor as written a file that starts with a blank
      yields a spurious 0 before its first number. */
  lemma OpenAsWrittenSpuriousZero()
    ensures ReadAll(OpenAsWritten([' ', '7'])) == [0, 7]
    ensures ReadAll(Open([' ', '7'])) == [7]
  {
    var file: seq<Char8> := [' ', '7'];
    BlankSevenAsWritten(file);
    BlankSevenCorrected(file);
  }

  /** The number 7 alone reads back as itself. */
  lemma ReadAllSeven(seven: seq<Char8>)
    requires |seven| == 1 && seven[0] == '7'
    ensures ReadAll(seven) == [7]
  {
    assert seven[1..] == [];
    ParseStep(0, seven);
    ParseStop(7, []);
    assert ReadOne(seven, 0) == FastIO.Outcome(true, 7, []);
  }

  /** As written, a leading blank is not skipped and reads as a 0. */
  lemma BlankSevenAsWritten(file: seq<Char8>)
    requires |file| == 2 && file[0] == ' ' && file[1] == '7'
    ensures ReadAll(OpenAsWritten(file)) == [0, 7]
  {
    var seven := file[1..];
    OpenAsWrittenSkipsNothing(file);
    ParseStop(0, file);
    SkipNonDigitsPrefix([], seven);
    assert [] + seven == seven;
    assert ReadOne(file, 0) == FastIO.Outcome(true, 0, seven);
    ReadAllSeven(seven);
  }

  /** Corrected, a leading blank is skipped. */
  lemma BlankSevenCorrected(file: seq<Char8>)
    requires |file| == 2 && file[0] == ' ' && file[1] == '7'
    ensures ReadAll(Open(file)) == [7]
  {
    var seven := file[1..];
    OpenSkipsNonDigits(file);
    SkipStep(file);
    SkipNonDigitsPrefix([], seven);
    assert [] + seven == seven;
    ReadAllSeven(seven);
  }

  // ---------------------------------------------------------------------------
  // Buffer level

  /** The constructor, corrected, over the buffer: the first `fread`, then
      the skip loop. */
  method Construct(file: seq<Char8>) returns (r: FastIO.Reader)
    ensures FastIO.Valid(r) && r.file == file
    ensures FastIO.Rest(r) == Open(file)
  {
    r := FastIO.Init(file, MaxBufferSize);
    r := FastIO.SkipBuffered(r);
    OpenSkipsNonDigits(file);
  }

  /** `ReadOne` as the source runs it over the buffer. */
  method ReadOneBuffered(r: FastIO.Reader, ret: int) returns (ok: bool, ret': int, r': FastIO.Reader)
    requires FastIO.Valid(r)
    ensures FastIO.Valid(r') && r'.file == r.file
    ensures FastIO.Outcome(ok, ret', FastIO.Rest(r')) == ReadOne(FastIO.Rest(r), ret)
  {
    if r.begin == r.end {
      return false, ret, r;
    }
    var value;
    value, r' := FastIO.ParseBuffered(r);
    r' := FastIO.SkipBuffered(r');
    return true, value, r';
  }
}

=== FILE: fastio_fastio.dfy ===
/**
  `hermes::fastio::IntegralFastIO` of hermes/fastio/fastio.h: a reader that
  skips everything up to the next digit, reports failure when the file ends
  first, and otherwise parses the run of digits, leaving the char after it
  unread. The file is mapped in chunks of at most `MAX_BUFFER_SIZE` bytes.
 */
module FastIO {
  import opened Digits

  /** Default of the template parameter `MAX_BUFFER_SIZE` (`1 << 13`). */
  const DefaultMaxBufferSize: nat := 8192

  /** Result of `ReadOne(T &ret)`: the returned flag, the value left in
      `ret`, and the unread input. */
  datatype Outcome = Outcome(ok: bool, ret: int, rest: seq<Char8>)

  // ---------------------------------------------------------------------------
  // Stream level

  /** `ReadOne` over the unread input. */
  function ReadOne(s: seq<Char8>, ret: int): Outcome {
    var t := SkipNonDigits(s);
    if t == [] then Outcome(false, ret, [])
    else Outcome(true, ParseRun(0, t).value, ParseRun(0, t).rest)
  }

  /** What `ReadOne` reads: skip to the first digit; fail, leaving `ret` as
      it was, when there is none; otherwise parse the maximal run of digits
      there and stop in front of the char after it. */
  lemma ReadOneSpec(s: seq<Char8>, ret: int)
    ensures var o := ReadOne(s, ret);
      var t := SkipNonDigits(s);
      var k := DigitRun(t);
      && (o.ok <==> t != [])
      && (!o.ok ==> o.ret == ret && o.rest == [])
      && (o.ok ==> k >= 1 && o.ret == Value(t[..k]) && o.rest == t[k..])
  {
    ParseRunValue(0, SkipNonDigits(s));
  }

  /** `ReadOne` fails exactly when no digit is left in the input. */
  lemma ReadOneFailsIffNoDigits(s: seq<Char8>, ret: int)
    ensures !ReadOne(s, ret).ok <==> NoDigits(s)
  {
    var t := SkipNonDigits(s);
    ReadOneSpec(s, ret);
    if t == [] {
      assert s[..|s|] == s;
    } else {
      assert s[|s| - |t|] == t[0];
    }
  }

  /** Reading numbers until `ReadOne` fails, as the source's callers do with
      `while (input.ReadOne(value))`. */
  function ReadAll(s: seq<Char8>): seq<nat>
    decreases |s|
  {
    var o := ReadOne(s, 0);
    ReadOneSpec(s, 0);
    if o.ok then [o.ret as nat] + ReadAll(o.rest) else []
  }

  /** A file of numbers, one per line. */
  function Lines(ns: seq<nat>): seq<Char8> {
    if ns == [] then [] else ToDecimal(ns[0]) + ['\n'] + Lines(ns[1..])
  }

  /** Non-digits before a number are skipped, and the number is read. */
  lemma {:induction false} ReadOneAfterJunk(junk: seq<Char8>, n: nat, tail: seq<Char8>, ret: int)
    requires NoDigits(junk)
    requires tail == [] || !IsDigit(tail[0])
    ensures ReadOne(junk + ToDecimal(n) + tail, ret) == Outcome(true, n, tail)
  {
    var d := ToDecimal(n);
    assert junk + d + tail == junk + (d + tail);
    SkipNonDigitsPrefix(junk, d + tail);
    ParseRunRoundTrip(n, tail);
  }

  /** Successive calls yield successive numbers: a file written one number
      per line reads back as exactly those numbers. */
  lemma {:induction false} ReadAllLines(ns: seq<nat>)
    ensures ReadAll(Lines(ns)) == ns
    decreases |ns|
  {
    if ns == [] {
      assert !ReadOne([], 0).ok;
    } else {
      var s := Lines(ns);
      var tail := ['\n'] + Lines(ns[1..]);
      assert s == [] + ToDecimal(ns[0]) + tail;
      ReadOneAfterJunk([], ns[0], tail, 0);
      ReadAllStep(s, ns[0], tail);
      ReadAllAfterNewline(ns[1..]);
      ReadAllLines(ns[1..]);
      assert ReadAll(tail) == ns[1..];
      assert ReadAll(s) == [ns[0]] + ns[1..] == ns;
    }
  }

  lemma ReadAllStep(s: seq<Char8>, n: nat, tail: seq<Char8>)
    requires ReadOne(s, 0) == Outcome(true, n, tail)
    ensures ReadAll(s) == [n] + ReadAll(tail)
  {
  }

  /** A leading newline changes nothing: it is skipped with the junk. */
  lemma ReadAllAfterNewline(ns: seq<nat>)
    ensures ReadAll(['\n'] + Lines(ns)) == ReadAll(Lines(ns))
  {
    var s := Lines(ns);
    if ns == [] {
      assert !ReadOne(['\n'], 0).ok;
    } else {
      SkipNonDigitsPrefix(['\n'], s);
      assert ToDecimal(ns[0])[0] == s[0];
      assert SkipNonDigits(['\n'] + s) == SkipNonDigits(s);
    }
  }

  // ---------------------------------------------------------------------------
  // Buffer level

  /** The reader's state: the current chunk is `file[offset .. offset + end]`
      and `begin` is the cursor in it. */
  datatype Reader = Reader(file: seq<Char8>, maxBuffer: nat, offset: nat, begin: nat, end: nat)

  /** The chunk is empty only once the whole file has been mapped, because
      the loops refill the moment the cursor reaches `end_`. */
  ghost predicate Valid(r: Reader) {
    && r.maxBuffer > 0
    && r.offset + r.end <= |r.file|
    && (r.begin < r.end || (r.begin == 0 && r.end == 0 && r.offset == |r.file|))
  }

  function Min(a: int, b: int): int { if a < b then a else b }

  /** The unread part of the file. */
  function Rest(r: Reader): seq<Char8>
    requires Valid(r)
  {
    r.file[r.offset + r.begin..]
  }

  /** `ReadToBuffer`: advance the file offset by the length of the previous
      chunk and map the next `min(file_size_ - file_offset_,
      MAX_BUFFER_SIZE)` bytes; mapping zero bytes fails and leaves the chunk
      empty. */
  function ReadToBuffer(r: Reader): (r': Reader)
    requires r.maxBuffer > 0 && r.offset + r.end <= |r.file|
    ensures Valid(r') && r'.file == r.file && r'.maxBuffer == r.maxBuffer
    ensures r'.offset == r.offset + r.end && r'.begin == 0
    ensures r'.end == Min(|r.file| - r'.offset, r.maxBuffer)
  {
    var offset := r.offset + r.end;
    var readSize := Min(|r.file| - offset, r.maxBuffer);
    Reader(r.file, r.maxBuffer, offset, 0, if readSize > 0 then readSize else 0)
  }

  /** `Init`: offset 0 and the first chunk mapped. */
  function Init(file: seq<Char8>, maxBuffer: nat): (r: Reader)
    requires maxBuffer > 0
    ensures Valid(r) && Rest(r) == file
  {
    ReadToBuffer(Reader(file, maxBuffer, 0, 0, 0))
  }

  /** `begin_ += 1; if (begin_ == end_) ReadToBuffer();` */
  function Advance(r: Reader): (r': Reader)
    requires Valid(r) && r.begin < r.end
    ensures Valid(r') && r'.file == r.file && Rest(r') == Rest(r)[1..]
  {
    var r1 := r.(begin := r.begin + 1);
    if r1.begin == r1.end then ReadToBuffer(r1) else r1
  }

  /** The "skip whitespace" loop of `ReadOne` over the buffer. */
  method SkipBuffered(r: Reader) returns (r': Reader)
    requires Valid(r)
    ensures Valid(r') && r'.file == r.file
    ensures Rest(r') == SkipNonDigits(Rest(r))
  {
    r' := r;
    while r'.begin != r'.end
      invariant Valid(r') && r'.file == r.file
      invariant SkipNonDigits(Rest(r')) == SkipNonDigits(Rest(r))
      decreases |Rest(r')|
    {
      var c := r'.file[r'.offset + r'.begin];
      assert c == Rest(r')[0];
      if IsDigit(c) {
        break;
      }
      SkipStep(Rest(r'));
      r' := Advance(r');
    }
  }

  /** The parse loop of `ReadOne` over the buffer, from `ret = 0`. */
  method ParseBuffered(r: Reader) returns (ret: nat, r': Reader)
    requires Valid(r)
    ensures Valid(r') && r'.file == r.file
    ensures Read(ret, Rest(r')) == ParseRun(0, Rest(r))
  {
    r' := r;
    var acc: int := 0;
    while r'.begin != r'.end
      invariant Valid(r') && r'.file == r.file
      invariant acc >= 0
      invariant ParseRun(acc, Rest(r')) == ParseRun(0, Rest(r))
      decreases |Rest(r')|
    {
      var c := r'.file[r'.offset + r'.begin];
      assert c == Rest(r')[0];
      if !IsDigit(c) {
        break;
      }
      ParseStep(acc, Rest(r'));
      acc := acc * 10 + DigitValue(c);
      r' := Advance(r');
    }
    ParseStop(acc, Rest(r'));
    ret := acc;
  }

  /** `ReadOne` as the source runs it over the buffer. */
  method ReadOneBuffered(r: Reader, ret: int) returns (ok: bool, ret': int, r': Reader)
    requires Valid(r)
    ensures Valid(r') && r'.file == r.file
    ensures Outcome(ok, ret', Rest(r')) == ReadOne(Rest(r), ret)
  {
    r' := SkipBuffered(r);
    if r'.begin == r'.end {
      return false, ret, r';
    }
    var value;
    value, r' := ParseBuffered(r');
    return true, value, r';
  }
}

=== FILE: handle_counts.dfy ===
/** Counting the handles that point at a control block, for the reference
    counts of the shared pointers. A handle is the block it points at, or
    `None` for an empty handle. */
module HandleCounts {
  import opened Options

  /** The number of handles pointing at block `b`. */
  function Count(hs: seq<Option<nat>>, b: nat): nat
    decreases |hs|
  {
    if hs == [] then 0
    else Count(hs[..|hs| - 1], b) + (if hs[|hs| - 1] == Some(b) then 1 else 0)
  }

  /** One more handle. */
  lemma CountAppend(hs: seq<Option<nat>>, x: Option<nat>, b: nat)
    ensures Count(hs + [x], b) == Count(hs, b) + (if x == Some(b) then 1 else 0)
  {
    assert (hs + [x])[..|hs|] == hs;
  }

  /** A handle repointed. */
  lemma {:induction false} CountUpdate(hs: seq<Option<nat>>, i: nat, x: Option<nat>, b: nat)
    requires i < |hs|
    ensures Count(hs[i := x], b) + (if hs[i] == Some(b) then 1 else 0)
         == Count(hs, b) + (if x == Some(b) then 1 else 0)
    decreases |hs|
  {
    var n := |hs| - 1;
    if i < n {
      CountUpdate(hs[..n], i, x, b);
      assert hs[i := x][..n] == hs[..n][i := x];
    } else {
      assert hs[i := x][..n] == hs[..n];
    }
  }

  /** A block some handle points at is counted. */
  lemma {:induction false} CountPositive(hs: seq<Option<nat>>, i: nat)
    requires i < |hs| && hs[i].Some?
    ensures Count(hs, hs[i].value) >= 1
    decreases |hs|
  {
    if i < |hs| - 1 {
      CountPositive(hs[..|hs| - 1], i);
    }
  }

  /** A block counted zero times has no handle pointing at it. */
  lemma CountZero(hs: seq<Option<nat>>, b: nat)
    requires Count(hs, b) == 0
    ensures forall i :: 0 <= i < |hs| ==> hs[i] != Some(b)
  {
    forall i | 0 <= i < |hs|
      ensures hs[i] != Some(b)
    {
      if hs[i] == Some(b) {
        CountPositive(hs, i);
      }
    }
  }

  /** A handle pointing at a counted block. */
  lemma {:induction false} FindHandle(hs: seq<Option<nat>>, b: nat) returns (k: nat)
    requires Count(hs, b) > 0
    ensures k < |hs| && hs[k] == Some(b)
    decreases |hs|
  {
    if hs[|hs| - 1] == Some(b) {
      k := |hs| - 1;
    } else {
      k := FindHandle(hs[..|hs| - 1], b);
    }
  }
}

=== FILE: hash_map_nodes.dfy ===
/**
  The node list of `hermes::container::HashMap` (hermes/container/
  stl_hash_map.h, namespace `detail`). All nodes of a map hang in one
  circular doubly-linked list through the header `head_`; the model is the
  sequence of nodes from `head_->next` to `head_->prev`. A node is known by
  its `id` (its address in the source), so that bucket heads and iterators
  can point at it.

  `Hook(pos)` inserts a node in front of the node at a position (or at the
  end when `pos` is the header) and `UnHook` removes one; on the sequence
  they are insertion and removal at an index.
 */
module HashMapNodes {
  import opened Options

  datatype Node<K, V> = Node(id: nat, key: K, value: V, bucket: nat)

  predicate UniqueKeys<K(==), V>(list: seq<Node<K, V>>) {
    forall i, j :: 0 <= i < j < |list| ==> list[i].key != list[j].key
  }

  predicate UniqueIds<K(==), V>(list: seq<Node<K, V>>) {
    forall i, j :: 0 <= i < j < |list| ==> list[i].id != list[j].id
  }

  predicate HasId<K(==), V>(list: seq<Node<K, V>>, id: nat) {
    exists i :: 0 <= i < |list| && list[i].id == id
  }

  /** The nodes are in ascending bucket order, so each bucket's nodes are
      contiguous. */
  predicate Sorted<K(==), V>(list: seq<Node<K, V>>) {
    forall i, j :: 0 <= i < j < |list| ==> list[i].bucket <= list[j].bucket
  }

  /** Position of the node with key `k`, if any (the first one). */
  function KeyIndex<K(==), V>(list: seq<Node<K, V>>, k: K): (r: Option<nat>)
    ensures r.Some? ==> r.value < |list| && list[r.value].key == k
    ensures r.Some? ==> forall j :: 0 <= j < r.value ==> list[j].key != k
    ensures r.None? ==> forall j :: 0 <= j < |list| ==> list[j].key != k
  {
    if list == [] then None
    else if list[0].key == k then Some(0)
    else match KeyIndex(list[1..], k)
      case None => None
      case Some(i) => Some(i + 1)
  }

  /** With unique keys a node's position is the position of its key. */
  lemma KeyIndexAt<K, V>(list: seq<Node<K, V>>, i: nat)
    requires UniqueKeys(list) && i < |list|
    ensures KeyIndex(list, list[i].key) == Some(i)
  {
  }

  /** The node holding `k`, as its id and value, if any. */
  function Entry<K(==), V>(list: seq<Node<K, V>>, k: K): Option<(nat, V)> {
    match KeyIndex(list, k)
    case None => None
    case Some(i) => Some((list[i].id, list[i].value))
  }

  /** The value stored under `k`: the map the list represents. */
  function Lookup<K(==), V>(list: seq<Node<K, V>>, k: K): Option<V> {
    match Entry(list, k)
    case None => None
    case Some(e) => Some(e.1)
  }

  /** The id of the node holding `k`, if any. */
  function NodeOf<K(==), V>(list: seq<Node<K, V>>, k: K): Option<nat> {
    match Entry(list, k)
    case None => None
    case Some(e) => Some(e.0)
  }

  /** Position of the node `id`. */
  function IndexOf<K(==), V>(list: seq<Node<K, V>>, id: nat): (i: nat)
    requires HasId(list, id)
    ensures i < |list| && list[i].id == id
  {
    if list[0].id == id then 0
    else
      assert HasId(list[1..], id) by {
        var j :| 0 <= j < |list| && list[j].id == id;
        assert list[1..][j - 1].id == id;
      }
      1 + IndexOf(list[1..], id)
  }

  /** With unique ids a node's position is the position of its id. */
  lemma IndexOfAt<K, V>(list: seq<Node<K, V>>, i: nat)
    requires UniqueIds(list) && i < |list|
    ensures HasId(list, list[i].id) && IndexOf(list, list[i].id) == i
  {
  }

  /** Position of the first node whose bucket is `b` or later. */
  function FirstAtLeast<K(==), V>(list: seq<Node<K, V>>, b: nat): (i: nat)
    ensures i <= |list|
    ensures forall j :: 0 <= j < i ==> list[j].bucket < b
    ensures i < |list| ==> list[i].bucket >= b
  {
    if list == [] || list[0].bucket >= b then 0 else 1 + FirstAtLeast(list[1..], b)
  }

  /** The two ensures of `FirstAtLeast` pin it down. */
  lemma FirstAtLeastIs<K, V>(list: seq<Node<K, V>>, b: nat, i: nat)
    requires i <= |list|
    requires forall j :: 0 <= j < i ==> list[j].bucket < b
    requires i < |list| ==> list[i].bucket >= b
    ensures FirstAtLeast(list, b) == i
  {
  }

  /** A higher bucket is first reached no earlier. */
  lemma FirstAtLeastMono<K, V>(list: seq<Node<K, V>>, b1: nat, b2: nat)
    requires b1 <= b2
    ensures FirstAtLeast(list, b1) <= FirstAtLeast(list, b2)
  {
    var i := FirstAtLeast(list, b2);
    if i < |list| {
      assert list[i].bucket >= b1;
    }
  }

  /** The first node of bucket `b`, or none: what `buckets_[b]` holds. */
  function Head<K(==), V>(list: seq<Node<K, V>>, b: nat): Option<nat> {
    var i := FirstAtLeast(list, b);
    if i < |list| && list[i].bucket == b then Some(list[i].id) else None
  }

  /** Overwriting a node's value moves no bucket head and no key. */
  lemma SetValueKeeps<K, V>(list: seq<Node<K, V>>, p: nat, v: V)
    requires UniqueKeys(list) && p < |list|
    ensures var l' := list[p := list[p].(value := v)];
      && (forall b: nat :: Head(l', b) == Head(list, b))
      && (forall k :: KeyIndex(l', k) == KeyIndex(list, k))
  {
    var l' := list[p := list[p].(value := v)];
    forall b: nat
      ensures Head(l', b) == Head(list, b)
    {
      FirstAtLeastIs(l', b, FirstAtLeast(list, b));
    }
    forall k
      ensures KeyIndex(l', k) == KeyIndex(list, k)
    {
      match KeyIndex(list, k)
      case None =>
      case Some(i) => KeyIndexAt(l', i);
    }
  }

  /** In a sorted list a bucket without a head has no node at all. */
  lemma NoHeadNoNode<K, V>(list: seq<Node<K, V>>, b: nat, t: nat)
    requires Sorted(list) && Head(list, b).None? && t < |list|
    ensures list[t].bucket != b
  {
    var i := FirstAtLeast(list, b);
    if t >= i {
      assert list[i].bucket <= list[t].bucket;
    }
  }

  /** In a sorted list the nodes of bucket `b` are contiguous from the
      bucket's head on. */
  lemma BucketRun<K, V>(list: seq<Node<K, V>>, b: nat, t: nat, u: nat)
    requires Sorted(list) && t < |list| && list[t].bucket == b
    requires FirstAtLeast(list, b) <= u <= t
    ensures list[u].bucket == b
  {
  }

  /** `Hook` in front of position `p`. */
  function InsertAt<K(==), V>(list: seq<Node<K, V>>, p: nat, n: Node<K, V>): (r: seq<Node<K, V>>)
    requires p <= |list|
    ensures |r| == |list| + 1 && r[p] == n
    ensures forall j :: 0 <= j < p ==> r[j] == list[j]
    ensures forall j :: p < j < |r| ==> r[j] == list[j - 1]
  {
    list[..p] + [n] + list[p..]
  }

  /** `UnHook` of the node at position `p`. */
  function RemoveAt<K(==), V>(list: seq<Node<K, V>>, p: nat): (r: seq<Node<K, V>>)
    requires p < |list|
    ensures |r| == |list| - 1
    ensures forall j :: 0 <= j < p ==> r[j] == list[j]
    ensures forall j :: p <= j < |r| ==> r[j] == list[j + 1]
  {
    list[..p] + list[p + 1..]
  }

  /** Inserting a node in front of the first node of its bucket or later
      keeps the list sorted, makes the node its bucket's head and leaves
      every other bucket's head alone. */
  lemma InsertHeads<K, V>(list: seq<Node<K, V>>, n: Node<K, V>)
    requires Sorted(list)
    ensures var l' := InsertAt(list, FirstAtLeast(list, n.bucket), n);
      && Sorted(l')
      && forall b: nat :: Head(l', b) == if b == n.bucket then Some(n.id) else Head(list, b)
  {
    forall b: nat
      ensures Head(InsertAt(list, FirstAtLeast(list, n.bucket), n), b)
              == if b == n.bucket then Some(n.id) else Head(list, b)
    {
      InsertHead(list, n, b);
    }
  }

  lemma InsertHead<K, V>(list: seq<Node<K, V>>, n: Node<K, V>, b: nat)
    ensures Head(InsertAt(list, FirstAtLeast(list, n.bucket), n), b)
            == if b == n.bucket then Some(n.id) else Head(list, b)
  {
    if b <= n.bucket {
      InsertHeadAtOrBelow(list, n, b);
    } else {
      InsertHeadAbove(list, n, b);
    }
  }

  /** Bucket `b` at or below the node's: its first position is unchanged. */
  lemma InsertHeadAtOrBelow<K, V>(list: seq<Node<K, V>>, n: Node<K, V>, b: nat)
    requires b <= n.bucket
    ensures Head(InsertAt(list, FirstAtLeast(list, n.bucket), n), b)
            == if b == n.bucket then Some(n.id) else Head(list, b)
  {
    var p := FirstAtLeast(list, n.bucket);
    var l' := InsertAt(list, p, n);
    var i := FirstAtLeast(list, b);
    FirstAtLeastMono(list, b, n.bucket);
    forall j | 0 <= j < i
      ensures l'[j].bucket < b
    {
      assert l'[j] == list[j];
    }
    if i < p {
      assert l'[i] == list[i];
    }
    FirstAtLeastIs(l', b, i);
  }

  /** Bucket `b` above the node's: its first position moves up by one. */
  lemma InsertHeadAbove<K, V>(list: seq<Node<K, V>>, n: Node<K, V>, b: nat)
    requires b > n.bucket
    ensures Head(InsertAt(list, FirstAtLeast(list, n.bucket), n), b) == Head(list, b)
  {
    var p := FirstAtLeast(list, n.bucket);
    var l' := InsertAt(list, p, n);
    var i := FirstAtLeast(list, b);
    FirstAtLeastAbove(list, p, n, b);
    if i < |list| {
      assert l'[i + 1] == list[i];
    }
  }

  lemma FirstAtLeastAbove<K, V>(list: seq<Node<K, V>>, p: nat, n: Node<K, V>, b: nat)
    requires p == FirstAtLeast(list, n.bucket) && b > n.bucket
    ensures FirstAtLeast(InsertAt(list, p, n), b) == FirstAtLeast(list, b) + 1
  {
    FirstAtLeastMono(list, n.bucket, b);
    FirstAtLeastShifted(list, InsertAt(list, p, n), p, b);
  }

  /** `r` is `list` with one node of a lower bucket put in at `p`, no later
      than the first node of bucket `b` or above. */
  lemma FirstAtLeastShifted<K, V>(list: seq<Node<K, V>>, r: seq<Node<K, V>>, p: nat, b: nat)
    requires p <= FirstAtLeast(list, b) && |r| == |list| + 1 && r[p].bucket < b
    requires forall j :: 0 <= j < p ==> r[j] == list[j]
    requires forall j :: p < j < |r| ==> r[j] == list[j - 1]
    ensures FirstAtLeast(r, b) == FirstAtLeast(list, b) + 1
  {
    var i := FirstAtLeast(list, b);
    forall j | 0 <= j < i + 1
      ensures r[j].bucket < b
    {
      if j < p {
        assert r[j] == list[j];
      } else if p < j {
        assert r[j] == list[j - 1];
      }
    }
    if i < |list| {
      assert r[i + 1] == list[i];
    }
    FirstAtLeastIs(r, b, i + 1);
  }

  /** Removing the node at `p` keeps the list sorted. Only the head of the
      node's own bucket can change, and only when the node was that head:
      then the next node takes over if it is in the same bucket, and
      otherwise the bucket is left empty. */
  lemma RemoveHeads<K, V>(list: seq<Node<K, V>>, p: nat)
    requires Sorted(list) && p < |list|
    ensures var l' := RemoveAt(list, p);
      var b0 := list[p].bucket;
      var wasHead := FirstAtLeast(list, b0) == p;
      && Sorted(l')
      && Head(l', b0) == (if !wasHead then Head(list, b0)
                          else if p + 1 < |list| && list[p + 1].bucket == b0 then Some(list[p + 1].id)
                          else None)
      && forall b: nat :: b != b0 ==> Head(l', b) == Head(list, b)
  {
    forall b: nat
      ensures Head(RemoveAt(list, p), b) == RemovedHead(list, p, b)
    {
      RemoveHead(list, p, b);
    }
  }

  /** The head of bucket `b` once the node at `p` is gone. */
  function RemovedHead<K(==), V>(list: seq<Node<K, V>>, p: nat, b: nat): Option<nat>
    requires p < |list|
  {
    if b == list[p].bucket && FirstAtLeast(list, b) == p then
      (if p + 1 < |list| && list[p + 1].bucket == b then Some(list[p + 1].id) else None)
    else Head(list, b)
  }

  lemma RemoveHead<K, V>(list: seq<Node<K, V>>, p: nat, b: nat)
    requires Sorted(list) && p < |list|
    ensures Head(RemoveAt(list, p), b) == RemovedHead(list, p, b)
  {
    var l' := RemoveAt(list, p);
    var i := FirstAtLeast(list, b);
    if i <= p {
      FirstAtLeastIs(l', b, i);
    } else {
      FirstAtLeastIs(l', b, i - 1);
    }
  }

  /** No node of `a` shares a key or an id with a node of `b`. */
  predicate Apart<K(==), V>(a: seq<Node<K, V>>, b: seq<Node<K, V>>) {
    forall i, j :: 0 <= i < |a| && 0 <= j < |b| ==> a[i].key != b[j].key && a[i].id != b[j].id
  }

  /** Hooking a node whose key and id are new keeps keys and ids distinct,
      and adds exactly its entry. */
  lemma InsertAtSpec<K, V>(list: seq<Node<K, V>>, p: nat, n: Node<K, V>)
    requires p <= |list| && UniqueKeys(list) && UniqueIds(list) && Apart(list, [n])
    ensures var l' := InsertAt(list, p, n);
      && UniqueKeys(l') && UniqueIds(l')
      && (forall k :: Entry(l', k) == if k == n.key then Some((n.id, n.value)) else Entry(list, k))
  {
    var l' := InsertAt(list, p, n);
    forall i | 0 <= i < |list|
      ensures list[i].key != n.key && list[i].id != n.id
    {
      assert [n][0] == n;
    }
    forall k
      ensures Entry(l', k) == if k == n.key then Some((n.id, n.value)) else Entry(list, k)
    {
      if k == n.key {
        KeyIndexAt(l', p);
      } else if KeyIndex(list, k).Some? {
        var i := KeyIndex(list, k).value;
        if i < p {
          KeyIndexAt(l', i);
        } else {
          KeyIndexAt(l', i + 1);
        }
      }
    }
  }

  /** Unhooking a node keeps keys and ids distinct and removes exactly its
      entry and its id. */
  lemma RemoveAtSpec<K, V>(list: seq<Node<K, V>>, p: nat)
    requires p < |list| && UniqueKeys(list) && UniqueIds(list)
    ensures var l' := RemoveAt(list, p);
      && UniqueKeys(l') && UniqueIds(l')
      && (forall k :: Entry(l', k) == if k == list[p].key then None else Entry(list, k))
      && (forall x :: HasId(l', x) <==> HasId(list, x) && x != list[p].id)
  {
    var l' := RemoveAt(list, p);
    forall k
      ensures Entry(l', k) == if k == list[p].key then None else Entry(list, k)
    {
      if KeyIndex(l', k).Some? {
        var t := KeyIndex(l', k).value;
        if t < p {
          KeyIndexAt(list, t);
        } else {
          KeyIndexAt(list, t + 1);
        }
      } else if k != list[p].key && KeyIndex(list, k).Some? {
        RemoveKeepsKey(list, p, k);
      }
    }
    forall x
      ensures HasId(l', x) <==> HasId(list, x) && x != list[p].id
    {
      if HasId(list, x) && x != list[p].id {
        var i :| 0 <= i < |list| && list[i].id == x;
        if i < p { assert l'[i].id == x; } else { assert l'[i - 1].id == x; }
      }
      if HasId(l', x) {
        var i :| 0 <= i < |l'| && l'[i].id == x;
        if i < p { assert list[i].id == x; } else { assert list[i + 1].id == x; }
      }
    }
  }

  /** Nodes apart from both the list and the hooked node are apart from the
      result. */
  lemma ApartInsert<K, V>(list: seq<Node<K, V>>, p: nat, n: Node<K, V>, rest: seq<Node<K, V>>)
    requires p <= |list| && Apart(list, rest) && Apart([n], rest)
    ensures Apart(InsertAt(list, p, n), rest)
  {
    var l' := InsertAt(list, p, n);
    forall i, j | 0 <= i < |l'| && 0 <= j < |rest|
      ensures l'[i].key != rest[j].key && l'[i].id != rest[j].id
    {
      if i == p { assert [n][0] == n; }
    }
  }

  /** Splitting a run of nodes with distinct keys and ids at its first. */
  lemma UniqueUncons<K, V>(nodes: seq<Node<K, V>>)
    requires nodes != [] && UniqueKeys(nodes) && UniqueIds(nodes)
    ensures UniqueKeys(nodes[1..]) && UniqueIds(nodes[1..]) && Apart([nodes[0]], nodes[1..])
  {
  }

  lemma ApartUncons<K, V>(list: seq<Node<K, V>>, nodes: seq<Node<K, V>>)
    requires nodes != [] && Apart(list, nodes)
    ensures Apart(list, [nodes[0]]) && Apart(list, nodes[1..])
  {
    forall i, j | 0 <= i < |list| && 0 <= j < |nodes[1..]|
      ensures list[i].key != nodes[1..][j].key && list[i].id != nodes[1..][j].id
    {
      assert nodes[1..][j] == nodes[j + 1];
    }
  }

  /** The map of a run of nodes, looked at from its first node. */
  lemma EntryCons<K, V>(nodes: seq<Node<K, V>>, k: K)
    requires nodes != []
    ensures Entry(nodes, k) == if nodes[0].key == k then Some((nodes[0].id, nodes[0].value)) else Entry(nodes[1..], k)
  {
  }

  lemma RemoveKeepsKey<K, V>(list: seq<Node<K, V>>, p: nat, k: K)
    requires p < |list| && k != list[p].key && KeyIndex(list, k).Some?
    ensures KeyIndex(RemoveAt(list, p), k).Some?
  {
    var i := KeyIndex(list, k).value;
    var l' := RemoveAt(list, p);
    if i < p {
      assert l'[i].key == k;
    } else {
      assert l'[i - 1].key == k;
    }
  }

  /** A key of `a` is not among the keys of nodes apart from `a`. */
  lemma ApartAbsent<K, V>(a: seq<Node<K, V>>, b: seq<Node<K, V>>, i: nat)
    requires Apart(a, b) && i < |a|
    ensures Entry(b, a[i].key).None?
  {
  }
}

=== FILE: io_fastio.dfy ===
/**
  `hermes::io::IntegralFastIO` (hermes/io/fastio.h): a reader of unsigned
  decimal integers over a file mapped in chunks of at most `MAX_BUFFER_SIZE`
  bytes.

  At the stream level `ReadOne` is `Digits.ReadNumber`: the unread part of
  the file is a sequence of chars, `NextChar` yields its first char or, once
  the file is exhausted, the NUL the reader writes into its empty buffer.
  This module keeps the reader's own cursors (`file_offset_`, `begin_`,
  `end_`, `is_good_`) over the whole file, refills exactly as `ReadToBuffer`
  does, and proves that `ReadOneBuffered`, the source's loop over that
  state, reads what the stream level reads.
 */
module IoFastIO {
  import opened Digits

  /** Default of the template parameter `MAX_BUFFER_SIZE` (`1 << 13`). */
  const DefaultMaxBufferSize: nat := 8192

  // ---------------------------------------------------------------------------
  // Buffer level

  /** The reader's state. `file` is the whole mapped file; the current chunk
      is `file[offset .. offset + end]`, and `begin` is the cursor in it. */
  datatype Reader = Reader(
    file: seq<Char8>,
    maxBuffer: nat,
    offset: nat,
    begin: nat,
    end: nat,
    good: bool)

  /** What `ReadToBuffer` keeps true. The cursor passes `end` by one only
      after reading the NUL of an empty buffer, and an empty buffer means
      the whole file has been mapped already. */
  ghost predicate Valid(r: Reader) {
    && r.maxBuffer > 0
    && r.offset + r.end <= |r.file|
    && (r.end == 0 ==> r.offset == |r.file|)
    && (r.begin <= r.end || (r.begin == 1 && r.end == 0))
    && (r.good <==> r.end > 0)
  }

  /** Where the loop of `ReadOne` stops: the number and the reader after
      it. */
  datatype Stop = Stop(value: nat, reader: Reader)

  function Min(a: int, b: int): int { if a < b then a else b }

  /** The unread part of the file. */
  function Rest(r: Reader): seq<Char8>
    requires Valid(r)
  {
    r.file[r.offset + Min(r.begin, r.end)..]
  }

  /** `ReadToBuffer`: unmap the old chunk, advance the file offset past it,
      and map the next `min(file_size_ - file_offset_, MAX_BUFFER_SIZE)`
      bytes. Mapping zero bytes fails, which leaves `end_` at 0 and the
      buffer holding the single NUL written before the mapping. */
  function ReadToBuffer(r: Reader): (r': Reader)
    requires r.maxBuffer > 0
    requires r.offset + r.end <= |r.file|
    ensures Valid(r')
    ensures r'.offset == r.offset + r.end && r'.begin == 0
    ensures r'.end == Min(|r.file| - r'.offset, r.maxBuffer)
    ensures r'.good <==> r'.end > 0
    ensures r'.file == r.file && r'.maxBuffer == r.maxBuffer
  {
    var offset := r.offset + r.end;
    var readSize := Min(|r.file| - offset, r.maxBuffer);
    var end := if readSize > 0 then readSize else 0;
    Reader(r.file, r.maxBuffer, offset, 0, end, end != 0)
  }

  /** `Init`: the file offset starts at 0 and the first chunk is mapped;
      `is_good_` says whether it holds any byte. */
  function Init(file: seq<Char8>, maxBuffer: nat): (r: Reader)
    requires maxBuffer > 0
    ensures Valid(r) && Rest(r) == file
    ensures r.good <==> file != []
  {
    ReadToBuffer(Reader(file, maxBuffer, 0, 0, 0, false))
  }

  /** `NextChar` over the buffer: refill when the cursor is at or past the
      end of the chunk, then read the byte under the cursor and advance. */
  function NextCharBuffered(r: Reader): (p: (Char8, Reader))
    requires Valid(r)
    ensures Valid(p.1) && p.1.file == r.file
    ensures (p.0, Rest(p.1)) == NextChar(Rest(r))
  {
    var r1 := if r.begin >= r.end then ReadToBuffer(r) else r;
    assert Rest(r1) == Rest(r);
    var c := if r1.begin < r1.end then r1.file[r1.offset + r1.begin] else NUL;
    (c, r1.(begin := r1.begin + 1))
  }

  /** `ReadOne` exactly as the source loops over the buffer. */
  method ReadOneBuffered(r: Reader) returns (value: nat, r': Reader)
    requires Valid(r)
    ensures Valid(r') && r'.file == r.file
    ensures Read(value, Rest(r')) == ReadNumber(Rest(r))
  {
    value := 0;
    var c;
    c, r' := NextCharBuffered(r).0, NextCharBuffered(r).1;
    ResumeUnfold(0, Rest(r));
    ghost var goal := DigitsBuffered(0, c, r');
    DigitsBufferedReads(0, c, r');
    while IsDigit(c)
      invariant Valid(r') && r'.file == r.file
      invariant DigitsBuffered(value, c, r') == goal
      decreases |Rest(r')| + (if IsDigit(c) then 1 else 0)
    {
      var value', c', r'' := value * 10 + DigitValue(c), NextCharBuffered(r').0, NextCharBuffered(r').1;
      BufferedShrinks(r');
      value, c, r' := value', c', r'';
    }
  }

  /** The rest of `ReadOneBuffered`'s loop once `c` has been read with
      `value` accumulated: the value and the reader it stops with. */
  function DigitsBuffered(value: nat, c: Char8, r: Reader): (p: Stop)
    requires Valid(r)
    ensures Valid(p.reader) && p.reader.file == r.file
    decreases |Rest(r)| + (if IsDigit(c) then 1 else 0)
  {
    if IsDigit(c) then
      var n := NextCharBuffered(r);
      DigitsBuffered(value * 10 + DigitValue(c), n.0, n.1)
    else
      Stop(value, r)
  }

  /** The loop over the buffer reads what `ReadFrom` reads from the unread
      input. */
  lemma {:induction false} DigitsBufferedReads(value: nat, c: Char8, r: Reader)
    requires Valid(r)
    ensures var p := DigitsBuffered(value, c, r);
      Read(p.value, Rest(p.reader)) == Resume(value, c, Rest(r))
    decreases |Rest(r)| + (if IsDigit(c) then 1 else 0)
  {
    if IsDigit(c) {
      var n := NextCharBuffered(r);
      BufferedShrinks(r);
      DigitsBufferedReads(value * 10 + DigitValue(c), n.0, n.1);
      ReadsOneMore(value, c, r);
    } else {
      assert DigitsBuffered(value, c, r) == Stop(value, r);
    }
  }

  /** The inductive step of `DigitsBufferedReads`. */
  lemma ReadsOneMore(value: nat, c: Char8, r: Reader)
    requires Valid(r) && IsDigit(c)
    requires var n := NextCharBuffered(r);
      var p := DigitsBuffered(value * 10 + DigitValue(c), n.0, n.1);
      Read(p.value, Rest(p.reader)) == Resume(value * 10 + DigitValue(c), n.0, Rest(n.1))
    ensures var p := DigitsBuffered(value, c, r);
      Read(p.value, Rest(p.reader)) == Resume(value, c, Rest(r))
  {
    DigitsBufferedUnfold(value, c, r);
    BufferedStep(value, c, r);
  }

  /** A digit is folded into the value and the loop goes on. */
  lemma DigitsBufferedUnfold(value: nat, c: Char8, r: Reader)
    requires Valid(r) && IsDigit(c)
    ensures var n := NextCharBuffered(r);
      DigitsBuffered(value, c, r) == DigitsBuffered(value * 10 + DigitValue(c), n.0, n.1)
  {
  }

  /** One turn of `ReadOneBuffered`'s loop: reading the next digit from the
      buffer continues the same number. */
  lemma BufferedStep(value: nat, c: Char8, r: Reader)
    requires Valid(r) && IsDigit(c)
    ensures var n := NextCharBuffered(r);
      Resume(value, c, Rest(r)) == Resume(value * 10 + DigitValue(c), n.0, Rest(n.1))
  {
    ResumeUnfold(value * 10 + DigitValue(c), Rest(r));
  }

  /** Taking a char off the buffer leaves less to read, and once the input
      is exhausted the char is not a digit. */
  lemma BufferedShrinks(r: Reader)
    requires Valid(r)
    ensures var n := NextCharBuffered(r);
      |Rest(n.1)| + (if IsDigit(n.0) then 1 else 0) < |Rest(r)| + 1
  {
  }

  /** `IsGood` is true exactly when the latest refill mapped some bytes,
      which is not the same as "bytes remain": after a chunk is consumed to
      its last byte the flag stays true until the next refill. */
  lemma GoodIsNotMoreInput()
    ensures var r := Init(['5', ' '], 8192);
      var (_, r') := NextCharBuffered(r);
      var (_, r'') := NextCharBuffered(r');
      r''.good && Rest(r'') == []
  {
  }
}

=== FILE: job_csv.dfy ===
/**
  The input side of test/perf/temp/job_manager.h: the `Job` record and its
  validity test, and `CsvReader`, which skips a header line and then reads
  jobs as three unsigned decimal fields (id, runtime in seconds, next id)
  separated by any single non-digit.

  At the stream level the unread input is a sequence of chars and
  `NextInt` is `Digits.ReadNumber`. The buffer level keeps the reader's
  cursors and its `is_good_` flag; unlike hermes/io/fastio.h this reader
  refills right after consuming the last byte of a chunk, so `IsGood` means
  exactly that some input is left.
 */
module JobCsv {
  import opened Digits
  import opened Options
  import FastIO

  /** `Job`. The `visited` mark of the chain walk is kept by the walk
      itself (see `JobManager`). */
  datatype Job = Job(id: int, nextId: int, prevId: int, runtimeSec: int)
  {
    /** `IsValid`: a positive id, a runtime within one day, and a
        non-negative next id (0 meaning "no next job"). */
    predicate IsValid() {
      id > 0 && runtimeSec >= 0 && runtimeSec <= 86400 && nextId >= 0
    }
  }

  /** One record of the file as a writer would produce it. */
  datatype Row = Row(id: nat, runtimeSec: nat, nextId: nat)

  /** The job a row describes, not yet linked to a previous job. */
  function ToJob(r: Row): Job {
    Job(r.id, r.nextId, -1, r.runtimeSec)
  }

  /** A row as a line of the file: `id,runtime,next_id`. */
  function RowText(r: Row): seq<Char8> {
    ToDecimal(r.id) + [','] + ToDecimal(r.runtimeSec) + [','] + ToDecimal(r.nextId) + ['\n']
  }

  /** Rows one per line. */
  function Text(rows: seq<Row>): seq<Char8> {
    if rows == [] then [] else RowText(rows[0]) + Text(rows[1..])
  }

  // ---------------------------------------------------------------------------
  // Stream level

  /** `Init`'s header skip: consume through the first newline, or
      everything when there is none. */
  function SkipLine(s: seq<Char8>): seq<Char8> {
    if s == [] then []
    else if s[0] == '\n' then s[1..]
    else SkipLine(s[1..])
  }

  /** The header line is dropped with its newline and nothing else. */
  lemma SkipLineRoundTrip(header: seq<Char8>, rest: seq<Char8>)
    requires forall i :: 0 <= i < |header| ==> header[i] != '\n'
    ensures SkipLine(header + ['\n'] + rest) == rest
  {
    if header != [] {
      assert (header + ['\n'] + rest)[1..] == header[1..] + ['\n'] + rest;
      SkipLineRoundTrip(header[1..], rest);
    } else {
      assert ([] + ['\n'] + rest)[1..] == rest;
    }
  }

  /** Without a newline the whole input is header and nothing is left. */
  lemma SkipLineWithoutNewline(s: seq<Char8>)
    requires forall i :: 0 <= i < |s| ==> s[i] != '\n'
    ensures SkipLine(s) == []
  {
    if s != [] {
      SkipLineWithoutNewline(s[1..]);
    }
  }

  datatype Parsed = Parsed(job: Job, rest: seq<Char8>)

  /** `ReadOne`: three calls of `NextInt`, in the order id, runtime,
      next id. Every field is a decimal numeral, so none is negative, and
      some input is consumed whenever any is left. */
  function ReadJob(s: seq<Char8>): (p: Parsed)
    ensures p.job.prevId == -1
    ensures p.job.id >= 0 && p.job.runtimeSec >= 0 && p.job.nextId >= 0
    ensures |p.rest| <= |s| && (s != [] ==> |p.rest| < |s|)
  {
    var id := ReadNumber(s);
    var runtime := ReadNumber(id.rest);
    var next := ReadNumber(runtime.rest);
    Parsed(Job(id.value, next.value, -1, runtime.value), next.rest)
  }

  /** A line written from a row is read back as that row's job, and the
      line's newline is consumed. */
  lemma ReadJobRoundTrip(r: Row, tail: seq<Char8>)
    ensures ReadJob(RowText(r) + tail) == Parsed(ToJob(r), tail)
  {
    var a := ToDecimal(r.id);
    var b := ToDecimal(r.runtimeSec);
    var c := ToDecimal(r.nextId);
    var t2 := c + ['\n'] + tail;
    var t1 := b + [','] + t2;
    assert RowText(r) + tail == a + [','] + t1;
    SeparatorsNotDigits();
    ReadNumberRoundTrip(r.id, ',', t1);
    assert b + [','] + t2 == t1;
    ReadNumberRoundTrip(r.runtimeSec, ',', t2);
    ReadNumberRoundTrip(r.nextId, '\n', tail);
  }

  /** `job_mp_.emplace(job.id, job)`: the first job with an id stays. */
  function Emplace(m: map<int, Job>, job: Job): map<int, Job> {
    if job.id in m then m else m[job.id := job]
  }

  /** Every entry is filed under its own id, is valid, and is not linked
      yet. */
  predicate Fresh(m: map<int, Job>) {
    forall k :: k in m ==> m[k].id == k && m[k].IsValid() && m[k].prevId == -1
  }

  /** The read loop of `InitImpl`: while input is left, read a job, give
      up on an invalid one, and file a valid one. */
  function ReadJobs(s: seq<Char8>, m: map<int, Job>): (r: Option<map<int, Job>>)
    requires Fresh(m)
    ensures r.Some? ==> Fresh(r.value) && m.Keys <= r.value.Keys
    ensures r.Some? ==> forall k :: k in m ==> r.value[k] == m[k]
    decreases |s|
  {
    if s == [] then Some(m)
    else
      var p := ReadJob(s);
      if !p.job.IsValid() then None
      else ReadJobs(p.rest, Emplace(m, p.job))
  }

  /** One turn of the read loop on input that is left. */
  lemma ReadJobsStep(s: seq<Char8>, m: map<int, Job>)
    requires Fresh(m) && s != []
    ensures var p := ReadJob(s);
      && (!p.job.IsValid() ==> ReadJobs(s, m) == None)
      && (p.job.IsValid() ==> Fresh(Emplace(m, p.job)) && ReadJobs(s, m) == ReadJobs(p.rest, Emplace(m, p.job)))
  {
  }

  /** What a successful read leaves in `job_mp_`: the jobs of the file,
      each filed under its id, valid, and unlinked. A file whose header is
      its only line is rejected. */
  function Parse(s: seq<Char8>): (r: Option<map<int, Job>>)
    ensures r.Some? ==> Fresh(r.value)
    ensures SkipLine(s) == [] ==> r == None
  {
    var t := SkipLine(s);
    if t == [] then None else ReadJobs(t, map[])
  }

  /** The map `emplace` builds from rows in file order. */
  function EmplaceRows(m: map<int, Job>, rows: seq<Row>): map<int, Job>
    decreases |rows|
  {
    if rows == [] then m else EmplaceRows(Emplace(m, ToJob(rows[0])), rows[1..])
  }

  predicate AllValid(rows: seq<Row>) {
    forall i :: 0 <= i < |rows| ==> ToJob(rows[i]).IsValid()
  }

  lemma AllValidCons(rows: seq<Row>)
    requires rows != []
    ensures AllValid(rows) <==> ToJob(rows[0]).IsValid() && AllValid(rows[1..])
  {
    if ToJob(rows[0]).IsValid() && AllValid(rows[1..]) {
      forall i | 0 <= i < |rows|
        ensures ToJob(rows[i]).IsValid()
      {
        if i > 0 {
          assert rows[i] == rows[1..][i - 1];
        }
      }
    }
  }

  /** Reading rows written one per line yields the map `emplace` builds
      from them, and fails exactly when some row is invalid. */
  lemma {:induction false} ReadJobsText(rows: seq<Row>, m: map<int, Job>)
    requires Fresh(m)
    ensures ReadJobs(Text(rows), m).Some? <==> AllValid(rows)
    ensures AllValid(rows) ==> ReadJobs(Text(rows), m) == Some(EmplaceRows(m, rows))
    decreases |rows|
  {
    if rows != [] {
      var t := Text(rows[1..]);
      ReadJobRoundTrip(rows[0], t);
      assert |RowText(rows[0])| > 0;
      ReadJobsStep(RowText(rows[0]) + t, m);
      AllValidCons(rows);
      var job := ToJob(rows[0]);
      if job.IsValid() {
        ReadJobsText(rows[1..], Emplace(m, job));
      }
    }
  }

  /** A file with a header line and at least one row reads back as the
      first job with each id, and is rejected iff some row is invalid. */
  lemma ParseRoundTrip(header: seq<Char8>, rows: seq<Row>)
    requires forall i :: 0 <= i < |header| ==> header[i] != '\n'
    requires rows != []
    ensures Parse(header + ['\n'] + Text(rows)).Some? <==> AllValid(rows)
    ensures AllValid(rows) ==> Parse(header + ['\n'] + Text(rows)) == Some(EmplaceRows(map[], rows))
  {
    SkipLineRoundTrip(header, Text(rows));
    assert Text(rows) != [] by {
      assert |RowText(rows[0])| > 0;
    }
    ReadJobsText(rows, map[]);
  }

  /** `emplace` keeps the first job with each id: the map holds exactly the
      ids of the rows, and each id maps to the earliest row that has it. */
  lemma {:induction false} EmplaceRowsFirst(m: map<int, Job>, rows: seq<Row>)
    ensures var r := EmplaceRows(m, rows);
      && (forall k :: k in r <==> k in m || exists i :: 0 <= i < |rows| && rows[i].id == k)
      && (forall k :: k in m ==> r[k] == m[k])
      && (forall i :: 0 <= i < |rows| && rows[i].id !in m
            && (forall j :: 0 <= j < i ==> rows[j].id != rows[i].id)
            ==> r[rows[i].id] == ToJob(rows[i]))
    decreases |rows|
  {
    if rows != [] {
      var m' := Emplace(m, ToJob(rows[0]));
      EmplaceRowsFirst(m', rows[1..]);
      var r := EmplaceRows(m, rows);
      forall k | k in r
        ensures k in m || exists i :: 0 <= i < |rows| && rows[i].id == k
      {
        if k !in m' {
          var i :| 0 <= i < |rows[1..]| && rows[1..][i].id == k;
          assert rows[i + 1].id == k;
        } else if k !in m {
          assert rows[0].id == k;
        }
      }
      forall k | k in m || exists i :: 0 <= i < |rows| && rows[i].id == k
        ensures k in r
      {
        if k !in m && k !in m' {
          var i :| 0 <= i < |rows| && rows[i].id == k;
          assert i != 0;
          assert rows[1..][i - 1].id == k;
        }
      }
      forall i | 0 <= i < |rows| && rows[i].id !in m
          && (forall j :: 0 <= j < i ==> rows[j].id != rows[i].id)
        ensures r[rows[i].id] == ToJob(rows[i])
      {
        if i > 0 {
          assert rows[i] == rows[1..][i - 1];
          forall j | 0 <= j < i - 1
            ensures rows[1..][j].id != rows[1..][i - 1].id
          {
            assert rows[1..][j] == rows[j + 1];
          }
        }
      }
    }
  }

  // ---------------------------------------------------------------------------
  // Buffer level

  /** The reader's state: the chunk and cursor, as in `FastIO.Reader`, and
      the `is_good_` flag. */
  datatype Csv = Csv(buf: FastIO.Reader, good: bool)

  /** `is_good_` was computed by the latest refill as "some bytes read",
      and between refills the cursor stays inside the chunk. */
  ghost predicate Valid(c: Csv) {
    FastIO.Valid(c.buf) && (c.good <==> c.buf.end > 0)
  }

  function Rest(c: Csv): seq<Char8>
    requires Valid(c)
  {
    FastIO.Rest(c.buf)
  }

  /** `ReadToBuffer`: the next chunk, and `is_good_ = (begin_ != end_)`. */
  function ReadToBuffer(b: FastIO.Reader): (c: Csv)
    requires b.maxBuffer > 0 && b.offset + b.end <= |b.file|
    ensures Valid(c) && c.buf.file == b.file && c.buf.maxBuffer == b.maxBuffer
    ensures c.buf.offset == b.offset + b.end
  {
    var b' := FastIO.ReadToBuffer(b);
    Csv(b', b'.begin != b'.end)
  }

  /** `NextChar`: take the byte under the cursor (the NUL written into an
      empty buffer once the input is exhausted) and refill as soon as the
      cursor reaches the end of the chunk. Afterwards `IsGood` says exactly
      whether input is left. */
  function NextCharBuffered(c: Csv): (p: (Char8, Csv))
    requires Valid(c)
    ensures Valid(p.1) && p.1.buf.file == c.buf.file
    ensures (p.0, Rest(p.1)) == NextChar(Rest(c))
    ensures p.1.good <==> Rest(p.1) != []
  {
    var ch := if c.buf.begin < c.buf.end then c.buf.file[c.buf.offset + c.buf.begin] else NUL;
    var b := c.buf.(begin := c.buf.begin + 1);
    if b.begin >= b.end then (ch, ReadToBuffer(b)) else (ch, Csv(b, c.good))
  }

  /** `Init`: the first refill, then `while (IsGood() && NextChar() != '\n')`;
      the result is `is_good_`. */
  method InitBuffered(file: seq<Char8>, maxBuffer: nat) returns (ok: bool, c: Csv)
    requires maxBuffer > 0
    ensures Valid(c) && c.buf.file == file
    ensures Rest(c) == SkipLine(file)
    ensures ok <==> SkipLine(file) != []
  {
    c := ReadToBuffer(FastIO.Reader(file, maxBuffer, 0, 0, 0));
    var done := false;
    while c.good && !done
      invariant Valid(c) && c.buf.file == file
      invariant done ==> Rest(c) == SkipLine(file)
      invariant !done ==> SkipLine(Rest(c)) == SkipLine(file)
      invariant !done && !c.good ==> Rest(c) == []
      decreases |Rest(c)|, !done
    {
      var step := NextCharBuffered(c);
      c := step.1;
      done := step.0 == '\n';
    }
    ok := c.good;
  }

  /** `NextInt`, over the buffer. */
  method NextIntBuffered(c: Csv) returns (value: nat, c': Csv)
    requires Valid(c)
    ensures Valid(c') && c'.buf.file == c.buf.file
    ensures Read(value, Rest(c')) == ReadNumber(Rest(c))
  {
    value := 0;
    var step := NextCharBuffered(c);
    var ch := step.0;
    c' := step.1;
    while IsDigit(ch)
      invariant Valid(c') && c'.buf.file == c.buf.file
      invariant Resume(value, ch, Rest(c')) == ReadNumber(Rest(c))
      decreases |Rest(c')| + (if IsDigit(ch) then 1 else 0)
    {
      ghost var before := Rest(c');
      value := value * 10 + DigitValue(ch);
      step := NextCharBuffered(c');
      ch, c' := step.0, step.1;
      ResumeUnfold(value, before);
    }
  }

  /** `ReadOne`, over the buffer. */
  method ReadJobBuffered(c: Csv) returns (job: Job, c': Csv)
    requires Valid(c)
    ensures Valid(c') && c'.buf.file == c.buf.file
    ensures Parsed(job, Rest(c')) == ReadJob(Rest(c))
  {
    var id, runtime, next;
    id, c' := NextIntBuffered(c);
    runtime, c' := NextIntBuffered(c');
    next, c' := NextIntBuffered(c');
    job := Job(id, next, -1, runtime);
  }

  /** The read phase of `InitImpl` over the buffer: `Init`, then read and
      file jobs while `IsGood`. */
  method ParseBuffered(file: seq<Char8>, maxBuffer: nat) returns (r: Option<map<int, Job>>)
    requires maxBuffer > 0
    ensures r == Parse(file)
  {
    var ok, c := InitBuffered(file, maxBuffer);
    if !ok {
      return None;
    }
    var m: map<int, Job> := map[];
    while c.good
      invariant Valid(c) && c.buf.file == file && Fresh(m)
      invariant ReadJobs(Rest(c), m) == Parse(file)
      decreases |Rest(c)|
    {
      var job;
      ghost var before := Rest(c);
      job, c := ReadJobBuffered(c);
      ReadJobsStep(before, m);
      if !job.IsValid() {
        return None;
      }
      m := Emplace(m, job);
    }
    assert Rest(c) == [];
    r := Some(m);
  }
}

=== FILE: job_manager.dfy ===
/**
  `JobManager::InitImpl` and `JobChain`'s `TimeFormat` of
  test/perf/temp/job_manager.h.

  `InitImpl` reads the jobs (module `JobCsv`), then makes two passes over
  `job_mp_`. The first links every job to the job that names it as next,
  failing on a missing next job or on a job named by two others. The second
  starts a chain at every job without a next job and walks the `prev_id`
  links back to the chain's first job, counting the jobs and summing their
  runtimes.

  `job_mp_` is a `std::unordered_map`, whose iteration order is not
  specified: it is the parameter `order`, any listing of the map's keys.
 */
module JobManager {
  import opened Digits
  import opened Options
  import opened JobCsv

  // ---------------------------------------------------------------------------
  // Linking pass

  /** A listing of the keys of `m`, each once, as the map's iteration
      yields them. */
  predicate IsOrder(order: seq<int>, m: map<int, Job>) {
    && (forall i :: 0 <= i < |order| ==> order[i] in m)
    && (forall k :: k in m ==> k in order)
    && (forall i, j :: 0 <= i < j < |order| ==> order[i] != order[j])
  }

  /** Every job is filed under its own id. */
  predicate Keyed(m: map<int, Job>) {
    forall k :: k in m ==> m[k].id == k
  }

  /** Job ids are positive, so neither 0 ("no next job") nor -1 ("no
      previous job") is one. */
  predicate PositiveIds(m: map<int, Job>) {
    forall k :: k in m ==> k > 0
  }

  /** The first pass over `job_mp_`, from `order[0]` on: skip a job without
      a next job, fail when the next job is missing or already has a
      previous one, and otherwise record the job as its next job's
      previous. */
  function Link(m: map<int, Job>, order: seq<int>): (r: Option<map<int, Job>>)
    requires forall i :: 0 <= i < |order| ==> order[i] in m
    ensures r.Some? ==> r.value.Keys == m.Keys
    ensures r.Some? && Keyed(m) && PrevsClosed(m) ==> Keyed(r.value) && PrevsClosed(r.value)
    decreases |order|
  {
    if order == [] then Some(m)
    else
      var job := m[order[0]];
      if job.nextId == 0 then Link(m, order[1..])
      else if job.nextId !in m then None
      else if m[job.nextId].prevId != -1 then None
      else
        var m' := m[job.nextId := m[job.nextId].(prevId := job.id)];
        assert Keyed(m) ==> job.id == order[0] && Keyed(m') && (PrevsClosed(m) ==> PrevsClosed(m'));
        Link(m', order[1..])
  }

  /** Every job of `S` names an existing next job, or none. */
  predicate NextsExist(m: map<int, Job>, S: set<int>)
    requires S <= m.Keys
  {
    forall j :: j in S ==> m[j].nextId == 0 || m[j].nextId in m
  }

  /** No two jobs of `S` name the same next job. */
  predicate NextsDistinct(m: map<int, Job>, S: set<int>)
    requires S <= m.Keys
  {
    forall a, b :: a in S && b in S && a != b && m[a].nextId != 0 ==> m[a].nextId != m[b].nextId
  }

  /** `cur` is `m` after the jobs of `done` have been linked: only the
      `prevId` fields differ, each set `prevId` names a job of `done` whose
      next job it is, and each job of `done` is recorded as its next job's
      previous one. */
  predicate LinkedUpTo(m: map<int, Job>, cur: map<int, Job>, done: set<int>)
    requires done <= m.Keys
  {
    && cur.Keys == m.Keys
    && (forall k :: k in cur ==> cur[k] == m[k].(prevId := cur[k].prevId))
    && (forall k :: k in cur && cur[k].prevId != -1 ==> cur[k].prevId in done && m[cur[k].prevId].nextId == k)
    && (forall j :: j in done && m[j].nextId != 0 ==> m[j].nextId in m && cur[m[j].nextId].prevId == j)
  }

  /** The jobs of `rest` are its first one and those of the tail. */
  lemma ElementsSplit(done: set<int>, rest: seq<int>)
    requires rest != []
    ensures done + (set i | 0 <= i < |rest| :: rest[i])
         == (done + {rest[0]}) + (set i | 0 <= i < |rest[1..]| :: rest[1..][i])
  {
    var S := done + (set i | 0 <= i < |rest| :: rest[i]);
    forall x | x in S ensures x in (done + {rest[0]}) + (set i | 0 <= i < |rest[1..]| :: rest[1..][i]) {
      if x !in done && x != rest[0] {
        var i :| 0 <= i < |rest| && rest[i] == x;
        assert rest[1..][i - 1] == x;
      }
    }
  }

  /** The linking pass, from a partly linked map: it succeeds iff the jobs
      linked so far and the jobs still to link name existing and distinct
      next jobs, and then it has linked all of them. */
  lemma {:induction false} LinkInvariant(m: map<int, Job>, cur: map<int, Job>, done: set<int>, rest: seq<int>)
    requires Keyed(m) && PositiveIds(m) && done <= m.Keys && LinkedUpTo(m, cur, done)
    requires forall i :: 0 <= i < |rest| ==> rest[i] in m && rest[i] !in done
    requires forall i, j :: 0 <= i < j < |rest| ==> rest[i] != rest[j]
    ensures var S := done + (set i | 0 <= i < |rest| :: rest[i]);
      && (Link(cur, rest).Some? <==> NextsExist(m, S) && NextsDistinct(m, S))
      && (Link(cur, rest).Some? ==> LinkedUpTo(m, Link(cur, rest).value, S))
    decreases |rest|
  {
    var S := done + (set i | 0 <= i < |rest| :: rest[i]);
    if rest == [] {
      assert S == done;
    } else {
      var j := rest[0];
      var n := m[j].nextId;
      var done' := done + {j};
      ElementsSplit(done, rest);
      if n == 0 {
        LinkInvariant(m, cur, done', rest[1..]);
      } else if n !in m {
        assert !NextsExist(m, S);
      } else if cur[n].prevId != -1 {
        var a := cur[n].prevId;
        assert a in S && a != j && m[a].nextId == n;
        assert !NextsDistinct(m, S);
      } else {
        var cur' := cur[n := cur[n].(prevId := j)];
        assert Link(cur, rest) == Link(cur', rest[1..]);
        forall j' | j' in done' && m[j'].nextId != 0
          ensures m[j'].nextId in m && cur'[m[j'].nextId].prevId == j'
        {
          if j' != j {
            assert j' in done && cur[m[j'].nextId].prevId == j';
          }
        }
        assert LinkedUpTo(m, cur', done');
        LinkInvariant(m, cur', done', rest[1..]);
      }
    }
  }

  /** No job is linked before the pass. */
  predicate Unlinked(m: map<int, Job>) {
    forall k :: k in m ==> m[k].prevId == -1
  }

  /** The linking pass succeeds iff every next job exists and no job is
      named twice, whatever the iteration order; on success each job's
      `prevId` is the job naming it, or -1 when none does, and nothing else
      changed. */
  lemma LinkSpec(m: map<int, Job>, order: seq<int>)
    requires IsOrder(order, m) && Keyed(m) && PositiveIds(m) && Unlinked(m)
    ensures Link(m, order).Some? <==> NextsExist(m, m.Keys) && NextsDistinct(m, m.Keys)
    ensures Link(m, order).Some? ==> LinkedUpTo(m, Link(m, order).value, m.Keys)
  {
    assert LinkedUpTo(m, m, {});
    LinkInvariant(m, m, {}, order);
    forall k | k in m ensures k in (set i | 0 <= i < |order| :: order[i]) {
      var i :| 0 <= i < |order| && order[i] == k;
    }
    assert {} + (set i | 0 <= i < |order| :: order[i]) == m.Keys;
  }

  // ---------------------------------------------------------------------------
  // Chain pass

  datatype JobChain = JobChain(startId: int, endId: int, jobCnt: int, totRuntimeSec: int)

  /** Every set `prevId` names a job of the map. */
  predicate PrevsClosed(m: map<int, Job>) {
    forall k :: k in m ==> m[k].prevId == -1 || m[k].prevId in m
  }

  /** The state of a walk: the chain so far, the jobs marked visited, and
      the jobs of this chain from its last job backwards. */
  datatype Walk = Walk(chain: JobChain, visited: set<int>, path: seq<int>)

  /** The `prev_id` walk from the job `cur`: stop at a job without a
      previous one, fail on a job already visited, and otherwise step to
      the previous job, marking it and adding it to the chain. */
  function WalkPrev(m: map<int, Job>, cur: int, w: Walk): (r: Option<Walk>)
    requires PrevsClosed(m) && cur in m && w.visited <= m.Keys
    ensures r.Some? ==> w.visited <= r.value.visited <= m.Keys && w.path <= r.value.path
    decreases |m.Keys - w.visited|
  {
    var p := m[cur].prevId;
    if p == -1 then Some(w)
    else if p in w.visited then None
    else
      VisitShrinks(m.Keys, w.visited, p);
      WalkPrev(m, p, StepTo(m, w, p))
  }

  /** Marking the previous job `p` and adding it to the chain. */
  function StepTo(m: map<int, Job>, w: Walk, p: int): Walk
    requires p in m
  {
    var c := w.chain;
    Walk(JobChain(p, c.endId, c.jobCnt + 1, c.totRuntimeSec + m[p].runtimeSec), w.visited + {p}, w.path + [p])
  }

  /** Marking a job not yet visited leaves fewer jobs unvisited. */
  lemma VisitShrinks(keys: set<int>, visited: set<int>, p: int)
    requires p in keys && p !in visited
    ensures |keys - (visited + {p})| < |keys - visited|
  {
    assert keys - visited == (keys - (visited + {p})) + {p};
  }

  /** The second pass over `job_mp_`, from `order[0]` on: every unvisited
      job without a next job starts a chain of one job, which the walk
      extends; a failed walk fails the pass. */
  function BuildChains(m: map<int, Job>, order: seq<int>, visited: set<int>, chains: seq<JobChain>)
    : (r: Option<seq<JobChain>>)
    requires PrevsClosed(m) && visited <= m.Keys
    requires forall i :: 0 <= i < |order| ==> order[i] in m
    ensures r.Some? ==> |chains| <= |r.value| && r.value[..|chains|] == chains
    decreases |order|
  {
    if order == [] then Some(chains)
    else
      var k := order[0];
      var job := m[k];
      if job.nextId != 0 || k in visited then BuildChains(m, order[1..], visited, chains)
      else
        match WalkPrev(m, k, Walk(JobChain(k, k, 1, job.runtimeSec), visited + {k}, [k]))
        case None => None
        case Some(w) =>
          var r := BuildChains(m, order[1..], w.visited, chains + [w.chain]);
          assert r.Some? ==> r.value[..|chains|] == (chains + [w.chain])[..|chains|];
          r
  }

  /** `path` follows `prevId` links from its first job. */
  predicate PrevPath(m: map<int, Job>, path: seq<int>) {
    && (forall i :: 0 <= i < |path| ==> path[i] in m)
    && (forall i :: 0 <= i < |path| - 1 ==> path[i + 1] == m[path[i]].prevId)
  }

  /** Sum of the runtimes of the jobs of `path`. */
  function SumRuntime(m: map<int, Job>, path: seq<int>): int
    requires forall i :: 0 <= i < |path| ==> path[i] in m
  {
    if path == [] then 0 else SumRuntime(m, path[..|path| - 1]) + m[path[|path| - 1]].runtimeSec
  }

  /** The chain a path of jobs forms: it starts at the path's last job and
      ends at its first. */
  function Summary(m: map<int, Job>, path: seq<int>): JobChain
    requires path != [] && forall i :: 0 <= i < |path| ==> path[i] in m
  {
    JobChain(path[|path| - 1], path[0], |path|, SumRuntime(m, path))
  }

  /** A finished chain: the prev path of a job without a next job, walked
      back until a job without a previous job. */
  predicate IsChain(m: map<int, Job>, path: seq<int>, c: JobChain) {
    && path != [] && PrevPath(m, path)
    && m[path[0]].nextId == 0 && m[path[|path| - 1]].prevId == -1
    && c == Summary(m, path)
  }

  /** One step of the walk keeps the chain the summary of its path. */
  lemma WalkStep(m: map<int, Job>, cur: int, w: Walk, p: int)
    requires cur in m && p in m && p == m[cur].prevId
    requires w.path != [] && PrevPath(m, w.path) && w.path[|w.path| - 1] == cur
    requires w.chain == Summary(m, w.path)
    ensures var w' := StepTo(m, w, p);
      && w'.path != [] && PrevPath(m, w'.path) && w'.path[|w'.path| - 1] == p
      && w'.chain == Summary(m, w'.path)
  {
    var path' := w.path + [p];
    assert path'[..|path'| - 1] == w.path;
  }

  /** `c` is the chain of some prev path. */
  ghost predicate IsSomeChain(m: map<int, Job>, c: JobChain) {
    exists path :: IsChain(m, path, c)
  }

  /** The walk counts exactly the jobs of its path and sums exactly their
      runtimes, and it ends at a job without a previous one. */
  lemma {:induction false} WalkPrevSummary(m: map<int, Job>, cur: int, w: Walk)
    requires PrevsClosed(m) && cur in m && w.visited <= m.Keys
    requires w.path != [] && PrevPath(m, w.path) && w.path[|w.path| - 1] == cur
    requires w.chain == Summary(m, w.path)
    ensures var r := WalkPrev(m, cur, w);
      r.Some? ==> && r.value.path != [] && PrevPath(m, r.value.path)
                  && r.value.chain == Summary(m, r.value.path)
                  && m[r.value.path[|r.value.path| - 1]].prevId == -1
    decreases |m.Keys - w.visited|
  {
    var p := m[cur].prevId;
    if p == -1 {
      assert WalkPrev(m, cur, w) == Some(w);
    } else if p in w.visited {
      assert WalkPrev(m, cur, w) == None;
    } else {
      VisitShrinks(m.Keys, w.visited, p);
      WalkStep(m, cur, w, p);
      assert WalkPrev(m, cur, w) == WalkPrev(m, p, StepTo(m, w, p));
      WalkPrevSummary(m, p, StepTo(m, w, p));
    }
  }

  /** What a successful linking pass guarantees: ids are positive, and a
      set `prevId` names the job whose next job this is. */
  predicate Linked(m: map<int, Job>) {
    && PositiveIds(m)
    && (forall k :: k in m && m[k].prevId != -1 ==> m[k].prevId in m && m[m[k].prevId].nextId == k)
  }

  /** Every visited job is the last of its chain or its next job is
      visited too, and is not `cur`, the job the walk stands on. */
  predicate NextsVisited(m: map<int, Job>, visited: set<int>, cur: int)
    requires visited <= m.Keys
  {
    forall v :: v in visited ==> m[v].nextId == 0 || (m[v].nextId in visited && m[v].nextId != cur)
  }

  /** After a successful linking pass no walk meets a visited job: the
      circular-chain failure cannot happen. */
  lemma {:induction false} WalkPrevSucceeds(m: map<int, Job>, cur: int, w: Walk)
    requires PrevsClosed(m) && Linked(m) && cur in m && w.visited <= m.Keys
    requires cur in w.visited && NextsVisited(m, w.visited, cur)
    ensures var r := WalkPrev(m, cur, w);
      r.Some? && NextsVisited(m, r.value.visited, 0)
    decreases |m.Keys - w.visited|
  {
    var p := m[cur].prevId;
    if p != -1 {
      assert m[p].nextId == cur;
      assert p !in w.visited;
      VisitShrinks(m.Keys, w.visited, p);
      WalkPrevSucceeds(m, p, StepTo(m, w, p));
    }
  }

  /** The chain pass fails only through a failed walk, so after a
      successful linking pass it succeeds, and every chain it lists is the
      prev path of a job without a next job. */
  lemma {:induction false} BuildChainsSpec(m: map<int, Job>, order: seq<int>, visited: set<int>, chains: seq<JobChain>)
    requires PrevsClosed(m) && Linked(m) && visited <= m.Keys
    requires forall i :: 0 <= i < |order| ==> order[i] in m
    requires NextsVisited(m, visited, 0)
    requires forall i :: 0 <= i < |chains| ==> IsSomeChain(m, chains[i])
    ensures var r := BuildChains(m, order, visited, chains);
      r.Some? && forall i :: 0 <= i < |r.value| ==> IsSomeChain(m, r.value[i])
    decreases |order|
  {
    if order != [] {
      var k := order[0];
      var job := m[k];
      if job.nextId != 0 || k in visited {
        BuildChainsSpec(m, order[1..], visited, chains);
      } else {
        var w := Walk(JobChain(k, k, 1, job.runtimeSec), visited + {k}, [k]);
        assert NextsVisited(m, visited + {k}, k);
        WalkPrevSucceeds(m, k, w);
        assert SumRuntime(m, [k]) == job.runtimeSec by {
          assert [k][..0] == [];
        }
        WalkPrevSummary(m, k, w);
        var w' := WalkPrev(m, k, w).value;
        assert [k] <= w'.path;
        assert IsChain(m, w'.path, w'.chain);
        var chains' := chains + [w'.chain];
        forall i | 0 <= i < |chains'|
          ensures IsSomeChain(m, chains'[i])
        {
          if i < |chains| {
            assert chains'[i] == chains[i];
          } else {
            assert IsChain(m, w'.path, chains'[i]);
          }
        }
        BuildChainsSpec(m, order[1..], w'.visited, chains');
      }
    }
  }

  // ---------------------------------------------------------------------------
  // One chain per root

  /** The jobs of `order` without a next job, in order: the roots at which
      the chain pass starts its chains. */
  function Roots(m: map<int, Job>, order: seq<int>): (rs: seq<int>)
    requires forall i :: 0 <= i < |order| ==> order[i] in m
    ensures forall x :: x in rs <==> x in order && x in m && m[x].nextId == 0
    decreases |order|
  {
    if order == [] then []
    else if m[order[0]].nextId == 0 then [order[0]] + Roots(m, order[1..])
    else Roots(m, order[1..])
  }

  /** The last job of each chain, in list order. */
  function Ends(cs: seq<JobChain>): (es: seq<int>)
    ensures |es| == |cs| && forall i :: 0 <= i < |cs| ==> es[i] == cs[i].endId
  {
    seq(|cs|, i requires 0 <= i < |cs| => cs[i].endId)
  }

  /** No entry of `s` occurs twice. */
  predicate Distinct(s: seq<int>) {
    forall i, j :: 0 <= i < j < |s| ==> s[i] != s[j]
  }

  /** A listing without repeats has as many entries as it lists elements. */
  lemma {:induction false} DistinctCard(s: seq<int>)
    requires Distinct(s)
    ensures |set x | x in s| == |s|
    decreases |s|
  {
    if s != [] {
      assert Distinct(s[1..]) by {
        forall i, j | 0 <= i < j < |s[1..]| ensures s[1..][i] != s[1..][j] {
          assert s[1..][i] == s[i + 1] && s[1..][j] == s[j + 1];
        }
      }
      DistinctCard(s[1..]);
      assert s[0] !in s[1..] by {
        forall i | 0 <= i < |s[1..]| ensures s[1..][i] != s[0] {
          assert s[1..][i] == s[i + 1];
        }
      }
      assert (set x | x in s) == {s[0]} + (set x | x in s[1..]);
    }
  }

  /** Filtering a listing without repeats leaves none. */
  lemma {:induction false} RootsDistinct(m: map<int, Job>, order: seq<int>)
    requires forall i :: 0 <= i < |order| ==> order[i] in m
    requires Distinct(order)
    ensures Distinct(Roots(m, order))
    decreases |order|
  {
    if order != [] {
      assert Distinct(order[1..]) by {
        forall i, j | 0 <= i < j < |order[1..]| ensures order[1..][i] != order[1..][j] {
          assert order[1..][i] == order[i + 1] && order[1..][j] == order[j + 1];
        }
      }
      RootsDistinct(m, order[1..]);
      assert order[0] !in order[1..] by {
        forall i | 0 <= i < |order[1..]| ensures order[1..][i] != order[0] {
          assert order[1..][i] == order[i + 1];
        }
      }
      var rest := Roots(m, order[1..]);
      if m[order[0]].nextId == 0 {
        assert order[0] !in rest;
        var rs := [order[0]] + rest;
        forall i, j | 0 <= i < j < |rs| ensures rs[i] != rs[j] {
          if i == 0 {
            assert rs[j] == rest[j - 1] && rest[j - 1] in rest;
          } else {
            assert rs[i] == rest[i - 1] && rs[j] == rest[j - 1];
          }
        }
      }
    }
  }

  /** A walk back from a job keeps the chain's last job, and the jobs it
      marks all have a next job, so no root is marked by another root's
      walk. */
  lemma {:induction false} WalkPrevKeepsRoots(m: map<int, Job>, cur: int, w: Walk)
    requires PrevsClosed(m) && Linked(m) && cur in m && w.visited <= m.Keys
    ensures var r := WalkPrev(m, cur, w);
      r.Some? ==> && r.value.chain.endId == w.chain.endId
                  && forall v :: v in r.value.visited && v !in w.visited ==> m[v].nextId != 0
    decreases |m.Keys - w.visited|
  {
    var p := m[cur].prevId;
    if p != -1 && p !in w.visited {
      VisitShrinks(m.Keys, w.visited, p);
      assert m[p].nextId == cur && cur > 0;
      WalkPrevKeepsRoots(m, p, StepTo(m, w, p));
    }
  }

  /** The chain pass from a state in which no root still to come is
      visited: the chains it appends end, one each, at the roots still to
      come, in iteration order. */
  lemma {:induction false} BuildChainsEnds(m: map<int, Job>, order: seq<int>, visited: set<int>, chains: seq<JobChain>)
    requires PrevsClosed(m) && Linked(m) && visited <= m.Keys
    requires forall i :: 0 <= i < |order| ==> order[i] in m
    requires Distinct(order) && NextsVisited(m, visited, 0)
    requires forall i :: 0 <= i < |order| && m[order[i]].nextId == 0 ==> order[i] !in visited
    ensures var r := BuildChains(m, order, visited, chains);
      r.Some? ==> Ends(r.value) == Ends(chains) + Roots(m, order)
    decreases |order|
  {
    if order != [] {
      var k := order[0];
      var job := m[k];
      assert Distinct(order[1..]) by {
        forall i, j | 0 <= i < j < |order[1..]| ensures order[1..][i] != order[1..][j] {
          assert order[1..][i] == order[i + 1] && order[1..][j] == order[j + 1];
        }
      }
      if job.nextId != 0 {
        BuildChainsEnds(m, order[1..], visited, chains);
      } else {
        var w := Walk(JobChain(k, k, 1, job.runtimeSec), visited + {k}, [k]);
        assert NextsVisited(m, visited + {k}, k);
        WalkPrevSucceeds(m, k, w);
        WalkPrevKeepsRoots(m, k, w);
        var w' := WalkPrev(m, k, w).value;
        var chains' := chains + [w'.chain];
        assert BuildChains(m, order, visited, chains) == BuildChains(m, order[1..], w'.visited, chains');
        forall i | 0 <= i < |order[1..]| && m[order[1..][i]].nextId == 0
          ensures order[1..][i] !in w'.visited
        {
          assert order[1..][i] == order[i + 1] && order[i + 1] != k;
        }
        BuildChainsEnds(m, order[1..], w'.visited, chains');
        assert Ends(chains') == Ends(chains) + [k];
        assert Roots(m, order) == [k] + Roots(m, order[1..]);
      }
    }
  }

  /** The whole chain pass after a successful linking pass: the chains
      end at the roots, in iteration order, each root once. */
  lemma ChainPassEnds(m: map<int, Job>, order: seq<int>)
    requires IsOrder(order, m) && PrevsClosed(m) && Linked(m)
    ensures var r := BuildChains(m, order, {}, []);
      r.Some? && Ends(r.value) == Roots(m, order) && Distinct(Roots(m, order))
  {
    BuildChainsSpec(m, order, {}, []);
    BuildChainsEnds(m, order, {}, []);
    RootsDistinct(m, order);
  }

  /** Chains ending, each once, at the roots of a listing of the whole map
      are one per job without a next job. */
  lemma OneChainPerRoot(m: map<int, Job>, order: seq<int>, cs: seq<JobChain>)
    requires IsOrder(order, m)
    requires Ends(cs) == Roots(m, order) && Distinct(Roots(m, order))
    ensures forall k :: k in m && m[k].nextId == 0 ==> exists i :: 0 <= i < |cs| && cs[i].endId == k
    ensures forall i, j :: 0 <= i < j < |cs| ==> cs[i].endId != cs[j].endId
    ensures |cs| == |set k | k in m && m[k].nextId == 0|
  {
    var rs := Roots(m, order);
    DistinctCard(rs);
    assert (set k | k in m && m[k].nextId == 0) == (set x | x in rs);
    forall k | k in m && m[k].nextId == 0
      ensures exists i :: 0 <= i < |cs| && cs[i].endId == k
    {
      assert k in rs;
      var i :| 0 <= i < |rs| && rs[i] == k;
      assert Ends(cs)[i] == k;
    }
    forall i, j | 0 <= i < j < |cs| ensures cs[i].endId != cs[j].endId {
      assert Ends(cs)[i] == rs[i] && Ends(cs)[j] == rs[j];
    }
  }

  /** `InitImpl`'s chains, when it succeeds, are one per job of the file
      without a next job. */
  lemma InitImplRoots(file: seq<Char8>, order: seq<int>)
    requires Parse(file).Some? ==> IsOrder(order, Parse(file).value)
    ensures InitImpl(file, order).Some? ==>
      var m := Parse(file).value;
      var cs := InitImpl(file, order).value;
      && (forall k :: k in m && m[k].nextId == 0 ==> exists i :: 0 <= i < |cs| && cs[i].endId == k)
      && (forall i, j :: 0 <= i < j < |cs| ==> cs[i].endId != cs[j].endId)
      && |cs| == |set k | k in m && m[k].nextId == 0|
  {
    if InitImpl(file, order).Some? {
      var m := Parse(file).value;
      LinkSpec(m, order);
      var linked := Link(m, order).value;
      assert PrevsClosed(linked) && Linked(linked);
      ChainPassEnds(linked, order);
      var cs := BuildChains(linked, order, {}, []).value;
      assert IsOrder(order, linked);
      OneChainPerRoot(linked, order, cs);
      assert forall k :: k in m ==> linked[k].nextId == m[k].nextId;
      assert (set k | k in m && m[k].nextId == 0) == (set k | k in linked && linked[k].nextId == 0);
    }
  }

  // ---------------------------------------------------------------------------
  // InitImpl

  /** `InitImpl`: read, link, then build the chains; `None` is the
      `false` result ("Input Malformed"). */
  function InitImpl(file: seq<Char8>, order: seq<int>): Option<seq<JobChain>>
    requires Parse(file).Some? ==> IsOrder(order, Parse(file).value)
  {
    match Parse(file)
    case None => None
    case Some(m) =>
      match Link(m, order)
      case None => None
      case Some(linked) => BuildChains(linked, order, {}, [])
  }

  /** `InitImpl` fails iff the file is malformed (no job line after the
      header, or an invalid job), some job names a missing next job, or
      two jobs name the same next job; none of this depends on the
      iteration order. On success every chain is a prev path ending at a
      job without a next job, so it holds at least one job and its total
      runtime is the sum over its jobs. */
  lemma InitImplSpec(file: seq<Char8>, order: seq<int>)
    requires Parse(file).Some? ==> IsOrder(order, Parse(file).value)
    ensures InitImpl(file, order).Some? <==>
      Parse(file).Some? && NextsExist(Parse(file).value, Parse(file).value.Keys)
                        && NextsDistinct(Parse(file).value, Parse(file).value.Keys)
    ensures InitImpl(file, order).Some? ==>
      var m := Link(Parse(file).value, order).value;
      forall i :: 0 <= i < |InitImpl(file, order).value| ==>
        IsSomeChain(m, InitImpl(file, order).value[i])
    ensures InitImpl(file, order).Some? ==>
      var m := Parse(file).value;
      var cs := InitImpl(file, order).value;
      && (forall k :: k in m && m[k].nextId == 0 ==> exists i :: 0 <= i < |cs| && cs[i].endId == k)
      && (forall i, j :: 0 <= i < j < |cs| ==> cs[i].endId != cs[j].endId)
      && |cs| == |set k | k in m && m[k].nextId == 0|
  {
    InitImplRoots(file, order);
    if Parse(file).Some? {
      var m := Parse(file).value;
      LinkSpec(m, order);
      if Link(m, order).Some? {
        var linked := Link(m, order).value;
        assert PrevsClosed(linked);
        assert Linked(linked);
        BuildChainsSpec(linked, order, {}, []);
      }
    }
  }

  /** A chain holds at least one job and its total is the sum of its
      jobs' runtimes, each within one day, so the average that the report
      divides out is defined and within one day too. */
  lemma ChainAverage(m: map<int, Job>, path: seq<int>, c: JobChain)
    requires IsChain(m, path, c)
    requires forall k :: k in m ==> m[k].IsValid()
    ensures c.jobCnt >= 1
    ensures 0 <= c.totRuntimeSec <= 86400 * c.jobCnt
    ensures 0 <= c.totRuntimeSec / c.jobCnt <= 86400
  {
    SumRuntimeBound(m, path);
  }

  lemma {:induction false} SumRuntimeBound(m: map<int, Job>, path: seq<int>)
    requires forall i :: 0 <= i < |path| ==> path[i] in m
    requires forall k :: k in m ==> m[k].IsValid()
    ensures 0 <= SumRuntime(m, path) <= 86400 * |path|
    decreases |path|
  {
    if path != [] {
      SumRuntimeBound(m, path[..|path| - 1]);
    }
  }

  // ---------------------------------------------------------------------------
  // TimeFormat

  /** C++ `/` on `int`: the quotient truncated toward zero. */
  function CDiv(a: int, b: int): int
    requires b != 0
  {
    var q := (if a < 0 then -a else a) / (if b < 0 then -b else b);
    if (a < 0) != (b < 0) then -q else q
  }

  /** C++ `%` on `int`: the remainder takes the sign of the dividend. */
  function CRem(a: int, b: int): int
    requires b != 0
  {
    a - b * CDiv(a, b)
  }

  /** `std::to_string` of an `int`. */
  function ToString(i: int): seq<Char8> {
    if i < 0 then ['-'] + ToDecimal(-i) else ToDecimal(i)
  }

  /** A field of at least two chars: `"0"` is prepended to a single one. */
  function Pad(s: seq<Char8>): seq<Char8> {
    if |s| > 1 then s else ['0'] + s
  }

  /** `TimeFormat`: hours, minutes and seconds, each zero-padded to at
      least two chars and joined by ':'. */
  function TimeFormat(sec: int): (t: seq<Char8>)
    ensures |t| >= 8
  {
    Pad(ToString(CDiv(sec, 3600))) + [':'] + Pad(ToString(CDiv(CRem(sec, 3600), 60))) + [':']
      + Pad(ToString(CRem(sec, 60)))
  }

  /** A padding zero does not change the number read. */
  lemma ReadNumberLeadingZero(s: seq<Char8>)
    ensures ReadNumber(['0'] + s) == ReadNumber(s)
  {
    assert (['0'] + s)[1..] == s;
    ResumeUnfold(0, ['0'] + s);
  }

  /** A padded field is read back as its value. */
  lemma ReadPaddedRoundTrip(n: nat, sep: Char8, tail: seq<Char8>)
    requires !IsDigit(sep)
    ensures ReadNumber(Pad(ToDecimal(n)) + [sep] + tail) == Read(n, tail)
  {
    var d := ToDecimal(n);
    ReadNumberRoundTrip(n, sep, tail);
    if |d| <= 1 {
      assert ['0'] + d + [sep] + tail == ['0'] + (d + [sep] + tail);
      ReadNumberLeadingZero(d + [sep] + tail);
    }
  }

  lemma ReadPaddedRoundTripAtEnd(n: nat)
    ensures ReadNumber(Pad(ToDecimal(n))) == Read(n, [])
  {
    ReadNumberRoundTripAtEnd(n);
    if |ToDecimal(n)| <= 1 {
      ReadNumberLeadingZero(ToDecimal(n));
    }
  }

  /** For a non-negative time, C++ division is Euclidean division, and the
      fields are the hours, the minutes below 60 and the seconds below 60. */
  lemma TimeFormatFields(sec: nat)
    ensures TimeFormat(sec) == Pad(ToDecimal(sec / 3600)) + [':'] + Pad(ToDecimal((sec % 3600) / 60))
                               + [':'] + Pad(ToDecimal(sec % 60))
  {
    assert CDiv(sec, 3600) == sec / 3600;
    assert CRem(sec, 3600) == sec % 3600;
    assert CDiv(sec % 3600, 60) == (sec % 3600) / 60;
    assert CRem(sec, 60) == sec % 60;
  }

  /** For a non-negative time the three fields read back as hours,
      minutes below 60 and seconds below 60 that add up to `sec`. */
  lemma TimeFormatRoundTrip(sec: nat)
    ensures var h := ReadNumber(TimeFormat(sec));
      var mi := ReadNumber(h.rest);
      var s := ReadNumber(mi.rest);
      && h.value * 3600 + mi.value * 60 + s.value == sec
      && mi.value < 60 && s.value < 60 && s.rest == []
  {
    var mm, ss := (sec % 3600) / 60, sec % 60;
    TimeFormatFields(sec);
    ReadFirstField(sec / 3600, Pad(ToDecimal(mm)), Pad(ToDecimal(ss)));
    SeparatorsNotDigits();
    ReadPaddedRoundTrip(mm, ':', Pad(ToDecimal(ss)));
    ReadPaddedRoundTripAtEnd(ss);
    TimeSplit(sec);
  }

  /** The first of three ':'-joined fields is read back as its value. */
  lemma ReadFirstField(n: nat, a: seq<Char8>, b: seq<Char8>)
    ensures ReadNumber(Pad(ToDecimal(n)) + [':'] + a + [':'] + b) == Read(n, a + [':'] + b)
  {
    SeparatorsNotDigits();
    ReadPaddedRoundTrip(n, ':', a + [':'] + b);
    assert Pad(ToDecimal(n)) + [':'] + a + [':'] + b == Pad(ToDecimal(n)) + [':'] + (a + [':'] + b);
  }

  lemma TimeSplit(sec: nat)
    ensures (sec / 3600) * 3600 + ((sec % 3600) / 60) * 60 + sec % 60 == sec
    ensures (sec % 3600) / 60 < 60
  {
    var r := sec % 3600;
    assert (r / 60) * 60 + r % 60 == r;
    assert r % 60 == sec % 60 by {
      assert sec == (sec / 3600) * 3600 + r;
      assert (sec / 3600) * 3600 == ((sec / 3600) * 60) * 60;
    }
  }
}

=== FILE: optional.dfy ===
/**
  `hermes::container::Optional<T>` (hermes/container/optional.h): a flag
  `has_value_` and inline storage in which a `T` is constructed with
  placement new and destroyed by `Reset`.

  Besides the value held, the model counts the `T` objects each operation
  constructs in and destroys from the storage, so that the balance the
  source relies on (every object constructed is destroyed exactly once) can
  be stated.
 */
module Optionals {
  datatype Optional<T> = Nullopt | Holding(value: T)

  /** The result of an operation: the new state, and how many `T` objects
      it constructed in and destroyed from the storage. */
  datatype Step<T> = Step(o: Optional<T>, made: nat, destroyed: nat)

  /** The number of `T` objects alive in the storage. */
  function Live<T>(o: Optional<T>): nat {
    if o.Holding? then 1 else 0
  }

  /** A step accounts for its objects: the live count changes by what it
      constructed minus what it destroyed, and it destroyed only what was
      alive before it. */
  predicate Balanced<T>(before: Optional<T>, s: Step<T>) {
    s.destroyed <= Live(before) && Live(before) + s.made == Live(s.o) + s.destroyed
  }

  /** `HasValue()`. */
  function HasValue<T>(o: Optional<T>): bool {
    o.Holding?
  }

  /** `Optional()` and `Optional(nullopt)`. */
  function Default<T>(): (o: Optional<T>)
    ensures !HasValue(o)
  {
    Nullopt
  }

  /** `Optional(U&& value)` and `Optional(Args... params)`: construct the
      value in place. */
  function FromValue<T>(x: T): (s: Step<T>)
    ensures Balanced(Default(), s) && HasValue(s.o) && s.o.value == x
  {
    Step(Holding(x), 1, 0)
  }

  /** `Value()`; undefined behaviour on an empty optional. */
  function Value<T>(o: Optional<T>): T
    requires HasValue(o)
  {
    o.value
  }

  /** `Reset()`: destroy the value if there is one. */
  function Reset<T>(o: Optional<T>): (s: Step<T>)
    ensures !HasValue(s.o) && s.made == 0 && s.destroyed == Live(o)
  {
    Step(Nullopt, 0, if o.Holding? then 1 else 0)
  }

  /** `Optional<T>(const Optional<U>&)` and `Optional<T>(Optional<U>&&)`:
      construct a `T` from the other's value when it has one; `conv` is the
      conversion from `U` to `T`. */
  function Convert<U, T>(rhs: Optional<U>, conv: U -> T): (s: Step<T>)
    ensures Balanced(Default(), s)
  {
    match rhs
    case Nullopt => Step(Nullopt, 0, 0)
    case Holding(u) => Step(Holding(conv(u)), 1, 0)
  }

  /** `operator=(const Optional<U>&)` and `operator=(Optional<U>&&)`:
      `Reset()`, then construct from the other's value if any. */
  function ConvertAssign<U, T>(o: Optional<T>, rhs: Optional<U>, conv: U -> T): (s: Step<T>)
    ensures Balanced(o, s)
  {
    var r := Reset(o);
    var c := Convert(rhs, conv);
    Step(c.o, c.made, r.destroyed)
  }

  /** `operator=(U&& value)`: `Reset()`, then construct the value. */
  function Assign<T>(o: Optional<T>, x: T): (s: Step<T>)
    ensures Balanced(o, s)
  {
    Step(Holding(x), 1, Reset(o).destroyed)
  }

  /** `opt == nullopt` and `nullopt == opt`. */
  function EqualsNullopt<T>(o: Optional<T>): bool {
    !HasValue(o)
  }

  /** `opt != nullopt` and `nullopt != opt`. */
  function NotEqualsNullopt<T>(o: Optional<T>): bool {
    HasValue(o)
  }

  /** Comparing with `nullopt`: `==` holds exactly for an empty optional
      and `!=` is its negation. */
  lemma NulloptComparisons<T>(o: Optional<T>)
    ensures EqualsNullopt(o) <==> o == Nullopt
    ensures NotEqualsNullopt(o) <==> !EqualsNullopt(o)
    ensures EqualsNullopt(Default<T>())
  {
  }

  /** Assigning a value leaves that value, destroying the old one if any. */
  lemma AssignSpec<T>(o: Optional<T>, x: T)
    ensures var s := Assign(o, x);
      && HasValue(s.o) && Value(s.o) == x && !EqualsNullopt(s.o)
      && s.made == 1 && s.destroyed == Live(o)
  {
  }

  /** A converting copy or move keeps presence and maps the value. */
  lemma ConvertSpec<U, T>(rhs: Optional<U>, conv: U -> T, o: Optional<T>)
    ensures HasValue(Convert(rhs, conv).o) == HasValue(rhs)
    ensures HasValue(rhs) ==> Value(Convert(rhs, conv).o) == conv(Value(rhs))
    ensures ConvertAssign(o, rhs, conv).o == Convert(rhs, conv).o
    ensures ConvertAssign(o, rhs, conv).destroyed == Live(o)
  {
  }

  /** `Reset` destroys the value once: a second `Reset` destroys nothing. */
  lemma ResetOnce<T>(o: Optional<T>)
    ensures Balanced(o, Reset(o)) && EqualsNullopt(Reset(o).o)
    ensures Reset(Reset(o).o).destroyed == 0
    ensures Reset(o).destroyed + Reset(Reset(o).o).destroyed == Live(o)
  {
  }

  // ---------------------------------------------------------------------------
  // Copying an Optional of the same type

  /** `Optional<T> b(a)` for an lvalue `a` of the same type, as written:
      the converting constructor at :20-29 is a template and so never a
      copy constructor, and the implicit one copies `has_value_` and the
      bytes of `data_` without constructing a `T`. */
  function CopyAsWritten<T>(o: Optional<T>): (s: Step<T>)
  {
    Step(o, 0, 0)
  }

  /** The copy constructor delegating to the converting one with `U = T`. */
  function Copy<T>(o: Optional<T>): (s: Step<T>)
    ensures Balanced(Default(), s)
  {
    Convert(o, (x: T) => x)
  }

  /** A copy holds what its source holds, and, corrected, constructs its
      own object. */
  lemma CopySpec<T>(o: Optional<T>)
    ensures Copy(o).o == o && Copy(o).made == Live(o)
    ensures CopyAsWritten(o).o == o
  {
  }

  // ---------------------------------------------------------------------------
  // Assigning an Optional of the same type

  /** `a = b` for an lvalue `b` of the same type, as written: the template
      at :60-73 is never a copy assignment operator, and an implicit one
      taking `const Optional&` beats it on a tie, so `has_value_` and the
      bytes of `data_` are copied member by member. The old value is not
      destroyed and no `T` is constructed. */
  function CopyAssignAsWritten<T>(o: Optional<T>, rhs: Optional<T>): (s: Step<T>)
  {
    Step(rhs, 0, 0)
  }

  /** The copy assignment delegating to the converting one with `U = T`. */
  function CopyAssign<T>(o: Optional<T>, rhs: Optional<T>): (s: Step<T>)
    ensures Balanced(o, s) && s.o == rhs
    ensures s.made == Live(rhs) && s.destroyed == Live(o)
  {
    ConvertAssign(o, rhs, (x: T) => x)
  }

  /** Assign one holding optional to another, then let both go out of
      scope: as written the old value is never destroyed and the assigned
      one is destroyed by both destructors; assigning an empty optional
      loses the old value outright. The corrected assignment destroys the
      old value and constructs a copy of the new one. */
  lemma CopyAssignAsWrittenMiscounts<T>(x: T, y: T)
    ensures var a := FromValue(x).o;
      var b := FromValue(y).o;
      var s := CopyAssignAsWritten(a, b);
      && s.destroyed == 0 && s.made == 0 && s.o == b
      && Reset(s.o).destroyed + Reset(b).destroyed == 2
    ensures !Balanced(FromValue(x).o, CopyAssignAsWritten(FromValue(x).o, Nullopt))
    ensures var a := FromValue(x).o;
      var b := FromValue(y).o;
      var s := CopyAssign(a, b);
      && s.destroyed == 1 && s.made == 1 && s.o == b
      && Reset(s.o).destroyed + Reset(b).destroyed == s.made + FromValue(y).made
  {
  }

  // ---------------------------------------------------------------------------
  // Lifetimes

  /** What a client does with an optional. */
  datatype Op<T> = AssignOp(x: T) | ResetOp | CopyAssignOp(rhs: Optional<T>)

  /** Construct and destroy counts of a run of operations, ending with the
      destructor (`~Optional` calls `Reset`); a same-type assignment is the
      corrected `CopyAssign`. */
  function Run<T>(o: Optional<T>, ops: seq<Op<T>>): (s: Step<T>)
    decreases |ops|
  {
    if ops == [] then Reset(o)
    else
      var s := match ops[0]
        case AssignOp(x) => Assign(o, x)
        case ResetOp => Reset(o)
        case CopyAssignOp(rhs) => CopyAssign(o, rhs);
      var rest := Run(s.o, ops[1..]);
      Step(rest.o, s.made + rest.made, s.destroyed + rest.destroyed)
  }

  /** Whatever is done to an optional, by the end of its life every object
      constructed in it has been destroyed exactly once, given the corrected
      same-type assignment. */
  lemma {:induction false} RunBalanced<T>(o: Optional<T>, ops: seq<Op<T>>)
    ensures !HasValue(Run(o, ops).o)
    ensures Run(o, ops).made + Live(o) == Run(o, ops).destroyed
    decreases |ops|
  {
    if ops != [] {
      var s := match ops[0]
        case AssignOp(x) => Assign(o, x)
        case ResetOp => Reset(o)
        case CopyAssignOp(rhs) => CopyAssign(o, rhs);
      RunBalanced(s.o, ops[1..]);
    }
  }

  /** Copy an optional holding an object, then let both go out of scope:
      as written the one object is destroyed twice; with a real copy
      constructor two objects are made and two destroyed. */
  lemma CopyAsWrittenDestroysTwice<T>(x: T)
    ensures var a := FromValue(x);
      var b := CopyAsWritten(a.o);
      && a.made + b.made == 1
      && Reset(a.o).destroyed + Reset(b.o).destroyed == 2
    ensures var a := FromValue(x);
      var b := Copy(a.o);
      a.made + b.made == Reset(a.o).destroyed + Reset(b.o).destroyed
  {
  }
}

=== FILE: options.dfy ===
/** The optional results of the model: an operation that can fail yields
    `None`, or `Some` of what it produced. */
module Options {
  datatype Option<T> = None | Some(value: T)
}

=== FILE: pow2.dfy ===
/** Powers of two, for the capacities of `Vector` and `String` and for
    `std::bit_ceil`. */
module Pow2 {
  /** `n` is 1, 2, 4, 8, ... */
  predicate IsPow2(n: nat)
    decreases n
  {
    n == 1 || (n > 1 && n % 2 == 0 && IsPow2(n / 2))
  }

  /** Doubling a power of two gives one. */
  lemma DoublePow2(n: nat)
    requires IsPow2(n)
    ensures IsPow2(2 * n)
  {
    assert (2 * n) / 2 == n;
  }

  /** Of two different powers of two, the larger is at least twice the
      smaller. */
  lemma {:induction false} Pow2Gap(a: nat, b: nat)
    requires IsPow2(a) && IsPow2(b) && a < b
    ensures 2 * a <= b
    decreases b
  {
    if a > 1 {
      Pow2Gap(a / 2, b / 2);
    }
  }

  /** Double `p` until it reaches `n`. */
  function BitCeilFrom(p: nat, n: nat): (r: nat)
    requires IsPow2(p) && (p == 1 || p / 2 < n)
    ensures IsPow2(r) && n <= r && (r == 1 || r / 2 < n)
    decreases n - p
  {
    if p >= n then p
    else
      DoublePow2(p);
      BitCeilFrom(2 * p, n)
  }

  /** `std::bit_ceil(n)`: the least power of two not below `n` (1 for 0). */
  function BitCeil(n: nat): (r: nat)
    ensures IsPow2(r) && n <= r && (r == 1 || r / 2 < n)
  {
    BitCeilFrom(1, n)
  }

  /** `BitCeil(n)` is the only power of two `c` with `c / 2 < n <= c`, and
      no power of two at least `n` is smaller. */
  lemma BitCeilLeast(n: nat, c: nat)
    requires IsPow2(c) && n <= c
    ensures BitCeil(n) <= c
    ensures (c == 1 || c / 2 < n) ==> c == BitCeil(n)
  {
    var r := BitCeil(n);
    if c < r {
      Pow2Gap(c, r);
    }
    if (c == 1 || c / 2 < n) && r < c {
      Pow2Gap(r, c);
    }
  }
}

=== FILE: smart_pointer.dfy ===
/**
  `SharedPtr` and `WeakPtr` of hermes/container/smart_pointer.h: a handle
  holds the object pointer and a pointer to an `SpControlBlock` with a
  strong count (`ref_cnt`) and a weak count (`weak_ref_cnt`). The last
  strong handle deletes the object; the block is deleted by whichever of
  the last strong or last weak handle goes second.

  The model is a whole system of handles over a heap of control blocks.
  Block `b` is made together with the `b`-th object, so `b` names both; a
  handle is the block it points at, `None` when empty. The heap counts,
  per object and per block, how many times each was deleted.
 */
module SmartPointers {
  import opened Options
  import opened HandleCounts

  datatype Block = Block(strong: nat, weak: nat)

  datatype Heap = Heap(
    blocks: map<nat, Block>,
    next: nat,
    objectsDeleted: multiset<nat>,
    blocksDeleted: multiset<nat>)

  datatype System = System(heap: Heap, shared: seq<Option<nat>>, weak: seq<Option<nat>>)

  /** Every live block counts exactly the strong and the weak handles on
      it, and is live only while one of them is positive; every handle
      points at a live block; and the deletions are counted. */
  ghost predicate Counted(s: System) {
    && (forall b :: b in s.heap.blocks ==>
          && b < s.heap.next
          && s.heap.blocks[b].strong == Count(s.shared, b)
          && s.heap.blocks[b].weak == Count(s.weak, b)
          && (s.heap.blocks[b].strong > 0 || s.heap.blocks[b].weak > 0))
    && (forall i :: 0 <= i < |s.shared| && s.shared[i].Some? ==> s.shared[i].value in s.heap.blocks)
    && (forall i :: 0 <= i < |s.weak| && s.weak[i].Some? ==> s.weak[i].value in s.heap.blocks)
    && DeletesCounted(s.heap)
  }

  /** An object is deleted once when its strong count has reached 0 and
      never before, and a block once when it is gone and never before. */
  ghost predicate DeletesCounted(h: Heap) {
    && (forall b: nat :: h.objectsDeleted[b] ==
          if b < h.next && (b !in h.blocks || h.blocks[b].strong == 0) then 1 else 0)
    && (forall b: nat :: h.blocksDeleted[b] == if b < h.next && b !in h.blocks then 1 else 0)
  }

  /** No handles, no objects. */
  function Empty(): (s: System)
    ensures Counted(s)
  {
    System(Heap(map[], 0, multiset{}, multiset{}), [], [])
  }

  /** `SpControlBlock(bool is_weak)`: one count set, according to the
      kind of handle that creates the block. */
  function NewBlock(isWeak: bool): (k: Block)
    ensures k.strong + k.weak == 1 && (k.weak == 1 <==> isWeak)
  {
    Block(if isWeak then 0 else 1, if isWeak then 1 else 0)
  }

  /** The strong count going down by one: on the last strong handle the
      object is deleted, and the block too when there is no weak handle. */
  function DropStrong(h: Heap, b: nat): (r: Heap)
    requires b in h.blocks && h.blocks[b].strong > 0
  {
    var k := h.blocks[b];
    if k.strong > 1 then h.(blocks := h.blocks[b := k.(strong := k.strong - 1)])
    else if k.weak == 0 then
      Heap(h.blocks - {b}, h.next, h.objectsDeleted + multiset{b}, h.blocksDeleted + multiset{b})
    else h.(blocks := h.blocks[b := k.(strong := 0)], objectsDeleted := h.objectsDeleted + multiset{b})
  }

  /** The weak count going down by one: the last weak handle deletes the
      block when the strong count is 0. */
  function DropWeak(h: Heap, b: nat): (r: Heap)
    requires b in h.blocks && h.blocks[b].weak > 0
  {
    var k := h.blocks[b];
    if k.weak == 1 && k.strong == 0 then h.(blocks := h.blocks - {b}, blocksDeleted := h.blocksDeleted + multiset{b})
    else h.(blocks := h.blocks[b := k.(weak := k.weak - 1)])
  }

  /** The count of the handle kind chosen going up by one. */
  function Raise(h: Heap, b: nat, strong: bool): (r: Heap)
    requires b in h.blocks
  {
    var k := h.blocks[b];
    h.(blocks := h.blocks[b := if strong then k.(strong := k.strong + 1) else k.(weak := k.weak + 1)])
  }

  lemma DropStrongDeletes(h: Heap, b: nat)
    requires DeletesCounted(h) && b in h.blocks && b < h.next && h.blocks[b].strong > 0
    ensures DeletesCounted(DropStrong(h, b))
  {
  }

  lemma DropWeakDeletes(h: Heap, b: nat)
    requires DeletesCounted(h) && b in h.blocks && b < h.next && h.blocks[b].weak > 0
    ensures DeletesCounted(DropWeak(h, b))
  {
  }

  lemma RaiseDeletes(h: Heap, b: nat, strong: bool)
    requires DeletesCounted(h) && b in h.blocks && (strong ==> h.blocks[b].strong > 0)
    ensures DeletesCounted(Raise(h, b, strong))
  {
  }

  /** A new object and block, numbered `next`. */
  function Fresh(h: Heap): Heap {
    h.(blocks := h.blocks[h.next := NewBlock(false)], next := h.next + 1)
  }

  lemma FreshDeletes(h: Heap)
    requires DeletesCounted(h) && h.next !in h.blocks
    ensures DeletesCounted(Fresh(h))
  {
  }

  // ---------------------------------------------------------------------------
  // SharedPtr

  /** `SharedPtr(T*)` and `MakeShared`: a new object and a new block with
      strong count 1 and weak count 0. */
  function MakeShared(s: System): (r: System)
    requires Counted(s)
    ensures Counted(r) && r.shared == s.shared + [Some(s.heap.next)] && r.weak == s.weak
    ensures s.heap.next in r.heap.blocks && r.heap.blocks[s.heap.next] == Block(1, 0)
    ensures r.heap.next == s.heap.next + 1
  {
    MakeSharedSpec(s);
    var h := s.heap;
    System(Fresh(h), s.shared + [Some(h.next)], s.weak)
  }

  /** `SharedPtr()`: an empty handle. */
  function DefaultShared(s: System): (r: System)
    requires Counted(s)
    ensures Counted(r) && r.shared == s.shared + [None] && r.weak == s.weak && r.heap == s.heap
  {
    DefaultSharedSpec(s);
    System(s.heap, s.shared + [None], s.weak)
  }

  /** `SharedPtr(const SharedPtr&)` and, identically, `SharedPtr(SharedPtr&&)`:
      share the source's block, raising its strong count, and leave the
      source as it was; an empty source gives an empty handle. */
  function CopyShared(s: System, i: nat): (r: System)
    requires Counted(s) && i < |s.shared|
    ensures Counted(r) && r.shared == s.shared + [s.shared[i]] && r.weak == s.weak
    ensures r.heap.next == s.heap.next
  {
    CopySharedSpec(s, i);
    match s.shared[i]
    case None => System(s.heap, s.shared + [None], s.weak)
    case Some(b) => System(Raise(s.heap, b, true), s.shared + [Some(b)], s.weak)
  }

  /** `SharedPtr::Reset()`, which `~SharedPtr` calls: nothing on an empty
      handle, else `DropStrong` and empty the handle. */
  function ResetShared(s: System, i: nat): (r: System)
    requires Counted(s) && i < |s.shared|
    ensures Counted(r) && r.shared == s.shared[i := None] && r.weak == s.weak
    ensures r.heap.next == s.heap.next
  {
    ResetSharedSpec(s, i);
    match s.shared[i]
    case None => s
    case Some(b) => System(DropStrong(s.heap, b), s.shared[i := None], s.weak)
  }

  /** `SharedPtr::Reset(T*)`: `Reset()`, then a new object and a new block
      with strong count 1. */
  function ResetSharedTo(s: System, i: nat): (r: System)
    requires Counted(s) && i < |s.shared|
    ensures Counted(r) && r.shared == s.shared[i := Some(s.heap.next)] && r.weak == s.weak
    ensures s.heap.next in r.heap.blocks && r.heap.blocks[s.heap.next] == Block(1, 0)
    ensures r.heap.next == s.heap.next + 1
  {
    var t := ResetShared(s, i);
    AdoptSpec(t, i);
    var h := t.heap;
    System(Fresh(h), t.shared[i := Some(h.next)], t.weak)
  }

  /** `SharedPtr::IsUnique()`: no block, or a strong count of 1. */
  function IsUnique(s: System, i: nat): bool
    requires Counted(s) && i < |s.shared|
  {
    s.shared[i].None? || s.heap.blocks[s.shared[i].value].strong == 1
  }

  // ---------------------------------------------------------------------------
  // WeakPtr

  /** `WeakPtr()`: an empty handle. */
  function DefaultWeak(s: System): (r: System)
    requires Counted(s)
    ensures Counted(r) && r.weak == s.weak + [None] && r.shared == s.shared && r.heap == s.heap
  {
    DefaultWeakSpec(s);
    System(s.heap, s.shared, s.weak + [None])
  }

  /** A new weak handle on block `x` (if any), raising its weak count: the
      body of `WeakPtr(const SharedPtr&)` and `WeakPtr(const WeakPtr&)`. */
  function AddWeak(s: System, x: Option<nat>): (r: System)
    requires Counted(s) && (x.Some? ==> x.value in s.heap.blocks)
    ensures Counted(r) && r.weak == s.weak + [x] && r.shared == s.shared
    ensures r.heap.next == s.heap.next
  {
    AddWeakSpec(s, x);
    match x
    case None => System(s.heap, s.shared, s.weak + [None])
    case Some(b) => System(Raise(s.heap, b, false), s.shared, s.weak + [Some(b)])
  }

  /** `WeakPtr(const SharedPtr&)`. */
  function WeakFromShared(s: System, i: nat): (r: System)
    requires Counted(s) && i < |s.shared|
    ensures Counted(r) && r.weak == s.weak + [s.shared[i]] && r.shared == s.shared
    ensures r.heap.next == s.heap.next
  {
    AddWeak(s, s.shared[i])
  }

  /** `WeakPtr(const WeakPtr&)`. */
  function CopyWeak(s: System, k: nat): (r: System)
    requires Counted(s) && k < |s.weak|
    ensures Counted(r) && r.weak == s.weak + [s.weak[k]] && r.shared == s.shared
    ensures r.heap.next == s.heap.next
  {
    AddWeak(s, s.weak[k])
  }

  /** `WeakPtr::Reset()`: nothing on an empty handle, else `DropWeak` and
      empty the handle. */
  function ResetWeak(s: System, k: nat): (r: System)
    requires Counted(s) && k < |s.weak|
    ensures Counted(r) && r.weak == s.weak[k := None] && r.shared == s.shared
    ensures r.heap.next == s.heap.next
  {
    ResetWeakSpec(s, k);
    match s.weak[k]
    case None => s
    case Some(b) => System(DropWeak(s.heap, b), s.shared, s.weak[k := None])
  }

  /** `WeakPtr::operator=(const SharedPtr&)`: `Reset()`, then point at the
      shared handle's block, raising its weak count. */
  function AssignWeak(s: System, k: nat, i: nat): (r: System)
    requires Counted(s) && k < |s.weak| && i < |s.shared|
    ensures Counted(r) && r.weak == s.weak[k := s.shared[i]] && r.shared == s.shared
  {
    var t := ResetWeak(s, k);
    PointWeakSpec(t, k, s.shared[i]);
    match s.shared[i]
    case None => t
    case Some(b) => System(Raise(t.heap, b, false), t.shared, t.weak[k := Some(b)])
  }

  /** `WeakPtr::IsExpired()`: no block, or a strong count of 0. */
  function IsExpired(s: System, k: nat): bool
    requires Counted(s) && k < |s.weak|
  {
    s.weak[k].None? || s.heap.blocks[s.weak[k].value].strong == 0
  }

  /** `WeakPtr::Lock()`: an empty shared handle when there is no block or
      the strong count was 0 (the increment is undone); otherwise a shared
      handle on the block, whose strong count the increment raised. */
  function Lock(s: System, k: nat): (r: System)
    requires Counted(s) && k < |s.weak|
    ensures Counted(r) && r.weak == s.weak && r.heap.next == s.heap.next
    ensures |r.shared| == |s.shared| + 1 && r.shared[..|s.shared|] == s.shared
  {
    LockSpec(s, k);
    match s.weak[k]
    case None => System(s.heap, s.shared + [None], s.weak)
    case Some(b) =>
      if s.heap.blocks[b].strong == 0 then System(s.heap, s.shared + [None], s.weak)
      else System(Raise(s.heap, b, true), s.shared + [Some(b)], s.weak)
  }

  // ---------------------------------------------------------------------------
  // The counting invariant

  /** A block no handle points at has counts of zero. */
  lemma Unpointed(s: System, c: nat)
    requires Counted(s) && c !in s.heap.blocks
    ensures Count(s.shared, c) == 0 && Count(s.weak, c) == 0
  {
    if Count(s.shared, c) > 0 {
      var k := FindHandle(s.shared, c);
    }
    if Count(s.weak, c) > 0 {
      var k := FindHandle(s.weak, c);
    }
  }

  lemma MakeSharedSpec(s: System)
    requires Counted(s)
    ensures var h := s.heap;
      Counted(System(Fresh(h), s.shared + [Some(h.next)], s.weak))
  {
    var h := s.heap;
    var r := System(Fresh(h), s.shared + [Some(h.next)], s.weak);
    Unpointed(s, h.next);
    FreshDeletes(h);
    forall c | c in r.heap.blocks
      ensures r.heap.blocks[c].strong == Count(r.shared, c)
    {
      CountAppend(s.shared, Some(h.next), c);
    }
  }

  lemma DefaultSharedSpec(s: System)
    requires Counted(s)
    ensures Counted(System(s.heap, s.shared + [None], s.weak))
  {
    forall c | c in s.heap.blocks
      ensures s.heap.blocks[c].strong == Count(s.shared + [None], c)
    {
      CountAppend(s.shared, None, c);
    }
  }

  lemma DefaultWeakSpec(s: System)
    requires Counted(s)
    ensures Counted(System(s.heap, s.shared, s.weak + [None]))
  {
    forall c | c in s.heap.blocks
      ensures s.heap.blocks[c].weak == Count(s.weak + [None], c)
    {
      CountAppend(s.weak, None, c);
    }
  }

  lemma CopySharedSpec(s: System, i: nat)
    requires Counted(s) && i < |s.shared|
    ensures s.shared[i].None? ==> Counted(System(s.heap, s.shared + [None], s.weak))
    ensures s.shared[i].Some? ==> var b := s.shared[i].value;
      b in s.heap.blocks && Counted(System(Raise(s.heap, b, true), s.shared + [Some(b)], s.weak))
  {
    if s.shared[i].None? {
      DefaultSharedSpec(s);
    } else {
      var b := s.shared[i].value;
      CountPositive(s.shared, i);
      RaiseDeletes(s.heap, b, true);
      var r := System(Raise(s.heap, b, true), s.shared + [Some(b)], s.weak);
      forall c | c in r.heap.blocks
        ensures r.heap.blocks[c].strong == Count(r.shared, c)
      {
        CountAppend(s.shared, Some(b), c);
      }
    }
  }

  lemma AddWeakSpec(s: System, x: Option<nat>)
    requires Counted(s) && (x.Some? ==> x.value in s.heap.blocks)
    ensures x.None? ==> Counted(System(s.heap, s.shared, s.weak + [None]))
    ensures x.Some? ==> Counted(System(Raise(s.heap, x.value, false), s.shared, s.weak + [x]))
  {
    if x.None? {
      DefaultWeakSpec(s);
    } else {
      RaiseDeletes(s.heap, x.value, false);
      var r := System(Raise(s.heap, x.value, false), s.shared, s.weak + [x]);
      forall c | c in r.heap.blocks
        ensures r.heap.blocks[c].weak == Count(r.weak, c)
      {
        CountAppend(s.weak, x, c);
      }
    }
  }

  lemma ResetSharedSpec(s: System, i: nat)
    requires Counted(s) && i < |s.shared|
    ensures s.shared[i].None? ==> s.shared[i := None] == s.shared
    ensures s.shared[i].Some? ==> var b := s.shared[i].value;
      && b in s.heap.blocks && s.heap.blocks[b].strong > 0
      && Counted(System(DropStrong(s.heap, b), s.shared[i := None], s.weak))
  {
    if s.shared[i].Some? {
      var b := s.shared[i].value;
      CountPositive(s.shared, i);
      DropStrongDeletes(s.heap, b);
      var r := System(DropStrong(s.heap, b), s.shared[i := None], s.weak);
      forall c | c in r.heap.blocks
        ensures r.heap.blocks[c].strong == Count(r.shared, c)
      {
        CountUpdate(s.shared, i, None, c);
      }
      forall k | 0 <= k < |r.shared| && r.shared[k].Some?
        ensures r.shared[k].value in r.heap.blocks
      {
        if r.shared[k] == Some(b) {
          CountUpdate(s.shared, i, None, b);
          CountPositive(r.shared, k);
        }
      }
      forall k | 0 <= k < |r.weak| && r.weak[k].Some?
        ensures r.weak[k].value in r.heap.blocks
      {
        if r.weak[k] == Some(b) {
          CountPositive(r.weak, k);
        }
      }
    }
  }

  lemma ResetWeakSpec(s: System, k: nat)
    requires Counted(s) && k < |s.weak|
    ensures s.weak[k].None? ==> s.weak[k := None] == s.weak
    ensures s.weak[k].Some? ==> var b := s.weak[k].value;
      && b in s.heap.blocks && s.heap.blocks[b].weak > 0
      && Counted(System(DropWeak(s.heap, b), s.shared, s.weak[k := None]))
  {
    if s.weak[k].Some? {
      var b := s.weak[k].value;
      CountPositive(s.weak, k);
      DropWeakDeletes(s.heap, b);
      var r := System(DropWeak(s.heap, b), s.shared, s.weak[k := None]);
      forall c | c in r.heap.blocks
        ensures r.heap.blocks[c].weak == Count(r.weak, c)
      {
        CountUpdate(s.weak, k, None, c);
      }
      forall j | 0 <= j < |r.weak| && r.weak[j].Some?
        ensures r.weak[j].value in r.heap.blocks
      {
        if r.weak[j] == Some(b) {
          CountUpdate(s.weak, k, None, b);
          CountPositive(r.weak, j);
        }
      }
      forall j | 0 <= j < |r.shared| && r.shared[j].Some?
        ensures r.shared[j].value in r.heap.blocks
      {
        if r.shared[j] == Some(b) {
          CountPositive(r.shared, j);
        }
      }
    }
  }

  /** An empty shared handle given a new object and block. */
  lemma AdoptSpec(s: System, i: nat)
    requires Counted(s) && i < |s.shared| && s.shared[i].None?
    ensures var h := s.heap;
      Counted(System(Fresh(h), s.shared[i := Some(h.next)], s.weak))
  {
    var h := s.heap;
    var r := System(Fresh(h), s.shared[i := Some(h.next)], s.weak);
    Unpointed(s, h.next);
    FreshDeletes(h);
    forall c | c in r.heap.blocks
      ensures r.heap.blocks[c].strong == Count(r.shared, c)
    {
      CountUpdate(s.shared, i, Some(h.next), c);
    }
  }

  /** An empty weak handle pointed at block `x` (if any). */
  lemma PointWeakSpec(s: System, k: nat, x: Option<nat>)
    requires Counted(s) && k < |s.weak| && s.weak[k].None?
    requires x.Some? ==> x.value in s.heap.blocks
    ensures x.None? ==> s.weak[k := x] == s.weak
    ensures x.Some? ==> Counted(System(Raise(s.heap, x.value, false), s.shared, s.weak[k := x]))
  {
    if x.Some? {
      RaiseDeletes(s.heap, x.value, false);
      var r := System(Raise(s.heap, x.value, false), s.shared, s.weak[k := x]);
      forall c | c in r.heap.blocks
        ensures r.heap.blocks[c].weak == Count(r.weak, c)
      {
        CountUpdate(s.weak, k, x, c);
      }
    }
  }

  lemma LockSpec(s: System, k: nat)
    requires Counted(s) && k < |s.weak|
    ensures s.weak[k].Some? ==> s.weak[k].value in s.heap.blocks
    ensures var x := if IsExpired(s, k) then None else s.weak[k];
      && (x.None? ==> Counted(System(s.heap, s.shared + [None], s.weak)))
      && (x.Some? ==> Counted(System(Raise(s.heap, x.value, true), s.shared + [x], s.weak)))
  {
    DefaultSharedSpec(s);
    if !IsExpired(s, k) {
      var b := s.weak[k].value;
      RaiseDeletes(s.heap, b, true);
      var r := System(Raise(s.heap, b, true), s.shared + [Some(b)], s.weak);
      forall c | c in r.heap.blocks
        ensures r.heap.blocks[c].strong == Count(r.shared, c)
      {
        CountAppend(s.shared, Some(b), c);
      }
    }
  }

  // ---------------------------------------------------------------------------
  // What each operation does to the counts

  /** A handle that points somewhere points at a live object. */
  lemma PointedAlive(s: System, i: nat)
    requires Counted(s) && i < |s.shared| && s.shared[i].Some?
    ensures s.shared[i].value in s.heap.blocks && s.heap.blocks[s.shared[i].value].strong > 0
    ensures s.heap.objectsDeleted[s.shared[i].value] == 0
  {
    CountPositive(s.shared, i);
  }

  /** A new shared handle is unique, on a block with strong count 1 and
      weak count 0. */
  lemma MakeSharedUnique(s: System)
    requires Counted(s)
    ensures var r := MakeShared(s); var b := s.heap.next;
      && IsUnique(r, |s.shared|) && r.heap.blocks[b] == Block(1, 0)
      && r.heap.objectsDeleted[b] == 0 && r.heap.blocksDeleted[b] == 0
  {
  }

  /** Copying or moving a shared handle raises only the strong count and
      leaves the source pointing where it did. */
  lemma CopySharedCounts(s: System, i: nat)
    requires Counted(s) && i < |s.shared| && s.shared[i].Some?
    ensures var r := CopyShared(s, i); var b := s.shared[i].value;
      && r.shared[i] == s.shared[i] && r.shared[|s.shared|] == s.shared[i]
      && r.heap.blocks[b] == Block(s.heap.blocks[b].strong + 1, s.heap.blocks[b].weak)
      && !IsUnique(r, i)
      && r.heap.objectsDeleted == s.heap.objectsDeleted && r.heap.blocksDeleted == s.heap.blocksDeleted
  {
    PointedAlive(s, i);
  }

  /** `IsUnique` holds exactly when no other shared handle shares the
      block. */
  lemma IsUniqueSpec(s: System, i: nat)
    requires Counted(s) && i < |s.shared|
    ensures IsUnique(s, i) <==> s.shared[i].None? || forall k :: 0 <= k < |s.shared| && k != i ==> s.shared[k] != s.shared[i]
  {
    if s.shared[i].Some? {
      var b := s.shared[i].value;
      var others := s.shared[i := None];
      CountUpdate(s.shared, i, None, b);
      if IsUnique(s, i) {
        CountZero(others, b);
        forall k | 0 <= k < |s.shared| && k != i
          ensures s.shared[k] != s.shared[i]
        {
          assert others[k] == s.shared[k];
        }
      } else if Count(others, b) > 0 {
        var k := FindHandle(others, b);
        assert k != i && s.shared[k] == s.shared[i];
      }
    }
  }

  /** Resetting a shared handle deletes its object exactly when it was
      unique, and the block too exactly when, besides, no weak handle is
      left; an empty handle changes nothing. */
  lemma ResetSharedCounts(s: System, i: nat)
    requires Counted(s) && i < |s.shared|
    ensures s.shared[i].None? ==> ResetShared(s, i) == s
    ensures s.shared[i].Some? ==>
      var b := s.shared[i].value; var r := ResetShared(s, i);
      && r.heap.objectsDeleted[b] == (if IsUnique(s, i) then 1 else 0)
      && r.heap.blocksDeleted[b] == (if IsUnique(s, i) && s.heap.blocks[b].weak == 0 then 1 else 0)
      && (b in r.heap.blocks ==> r.heap.blocks[b].weak == s.heap.blocks[b].weak)
  {
    if s.shared[i].Some? {
      PointedAlive(s, i);
    }
  }

  /** A weak handle made from a shared or a weak handle raises only the
      weak count. */
  lemma AddWeakCounts(s: System, x: Option<nat>)
    requires Counted(s) && (x.Some? ==> x.value in s.heap.blocks)
    ensures var r := AddWeak(s, x);
      && (x.None? ==> r.heap == s.heap)
      && (x.Some? ==> r.heap.blocks[x.value] == Block(s.heap.blocks[x.value].strong, s.heap.blocks[x.value].weak + 1))
      && (forall c :: c in s.heap.blocks && Some(c) != x ==> c in r.heap.blocks && r.heap.blocks[c] == s.heap.blocks[c])
  {
  }

  /** A weak handle has expired exactly when its object has been deleted,
      which is when no shared handle points at it. */
  lemma IsExpiredSpec(s: System, k: nat)
    requires Counted(s) && k < |s.weak| && s.weak[k].Some?
    ensures var b := s.weak[k].value;
      && (IsExpired(s, k) <==> s.heap.objectsDeleted[b] == 1)
      && (IsExpired(s, k) <==> forall i :: 0 <= i < |s.shared| ==> s.shared[i] != Some(b))
  {
    var b := s.weak[k].value;
    if IsExpired(s, k) {
      CountZero(s.shared, b);
    } else {
      var i := FindHandle(s.shared, b);
    }
  }

  /** `Lock` gives a shared handle on the block exactly when the weak
      handle has not expired, raising the strong count; otherwise an empty
      handle and the counts as they were. */
  lemma LockCounts(s: System, k: nat)
    requires Counted(s) && k < |s.weak|
    ensures var r := Lock(s, k);
      && r.shared[|s.shared|] == (if IsExpired(s, k) then None else s.weak[k])
      && (IsExpired(s, k) ==> r.heap == s.heap)
      && (!IsExpired(s, k) ==> var b := s.weak[k].value;
            r.heap.blocks[b] == Block(s.heap.blocks[b].strong + 1, s.heap.blocks[b].weak))
  {
  }

  /** Resetting a weak handle deletes the block exactly when it was the
      last weak handle and the strong count is 0; the object is not
      touched. */
  lemma ResetWeakCounts(s: System, k: nat)
    requires Counted(s) && k < |s.weak| && s.weak[k].Some?
    ensures var b := s.weak[k].value; var r := ResetWeak(s, k);
      && (b !in r.heap.blocks <==> s.heap.blocks[b].weak == 1 && s.heap.blocks[b].strong == 0)
      && r.heap.blocksDeleted[b] == (if b in r.heap.blocks then 0 else 1)
      && r.heap.objectsDeleted == s.heap.objectsDeleted
  {
    var b := s.weak[k].value;
    ResetWeakSpec(s, k);
  }

  /** Once every handle is empty, every object and every block made has
      been deleted exactly once. */
  lemma AllReleased(s: System)
    requires Counted(s)
    requires forall i :: 0 <= i < |s.shared| ==> s.shared[i] == None
    requires forall k :: 0 <= k < |s.weak| ==> s.weak[k] == None
    ensures s.heap.blocks == map[]
    ensures forall b: nat :: b < s.heap.next ==> s.heap.objectsDeleted[b] == 1 && s.heap.blocksDeleted[b] == 1
  {
    forall b | b in s.heap.blocks
      ensures false
    {
      if s.heap.blocks[b].strong > 0 {
        var i := FindHandle(s.shared, b);
      } else {
        var k := FindHandle(s.weak, b);
      }
    }
  }

  // ---------------------------------------------------------------------------
  // WeakPtr has no destructor

  /** A `WeakPtr` going out of scope as written: `WeakPtr` declares no
      destructor, so the handle disappears and the weak count stays. */
  function DestroyWeakAsWritten(s: System, k: nat): (r: System)
    requires k < |s.weak|
    ensures r.heap == s.heap && r.shared == s.shared
  {
    System(s.heap, s.shared, s.weak[k := None])
  }

  /** As written, letting a non-empty weak handle go out of scope breaks
      the weak count: the block counts a handle that no longer exists. */
  lemma DestroyWeakAsWrittenMiscounts(s: System, k: nat)
    requires Counted(s) && k < |s.weak| && s.weak[k].Some?
    ensures var b := s.weak[k].value; var r := DestroyWeakAsWritten(s, k);
      b in r.heap.blocks && r.heap.blocks[b].weak == Count(r.weak, b) + 1
  {
    CountUpdate(s.weak, k, None, s.weak[k].value);
  }

  /** One object, one shared and one weak handle on it. */
  function SharedAndWeak(): (s: System)
    ensures Counted(s) && s.shared == [Some(0)] && s.weak == [Some(0)] && s.heap.next == 1
  {
    WeakFromShared(MakeShared(Empty()), 0)
  }

  /** As written, once both handles have gone out of scope the object is
      deleted but its control block never is: it stays with a weak count
      of 1 and no handle to release it. */
  lemma WeakPtrLeaksBlock()
    ensures var s := DestroyWeakAsWritten(SharedAndWeak(), 0);
      var h := DropStrong(s.heap, 0);
      && h.objectsDeleted[0] == 1 && h.blocksDeleted[0] == 0
      && 0 in h.blocks && h.blocks[0] == Block(0, 1)
      && s.weak == [None] && s.shared == [Some(0)]
  {
    var s := SharedAndWeak();
    assert s.heap.blocks[0] == Block(1, 1);
  }

  /** With a destructor that calls `Reset`, the same scopes end with the
      object and its block each deleted exactly once, whichever handle
      goes first. */
  lemma WeakPtrResetFreesBlock()
    ensures var s := ResetShared(ResetWeak(SharedAndWeak(), 0), 0);
      s.heap.objectsDeleted[0] == 1 && s.heap.blocksDeleted[0] == 1
    ensures var s := ResetWeak(ResetShared(SharedAndWeak(), 0), 0);
      s.heap.objectsDeleted[0] == 1 && s.heap.blocksDeleted[0] == 1
  {
    var s1 := ResetShared(ResetWeak(SharedAndWeak(), 0), 0);
    assert s1.shared == [None] && s1.weak == [None];
    AllReleased(s1);
    var s2 := ResetWeak(ResetShared(SharedAndWeak(), 0), 0);
    assert s2.shared == [None] && s2.weak == [None];
    AllReleased(s2);
  }
}

=== FILE: spsc_queue.dfy ===
/**
  The index arithmetic of `SpscQueue<T>` (hermes/container/spsc_queue.h):
  a ring of `max_size_` slots of `sizeof(T)` bytes placed after a header of
  two cache lines in a memory-mapped file. The header holds the head index
  at byte 0 and the tail index at byte 64; the producer writes slot `tail`
  and advances `tail` modulo `max_size_`, and the ring is full when `tail`
  meets `head`. Only the producer side exists (`Pop` is not implemented).

  Sizes are `size_t`; `max_size_`, `head` and `tail` are `int`, so the slot
  count is narrowed to 32 bits, and `%` truncates toward zero.
 */
module SpscQueues {
  import Digits

  const CACHE_LINE: nat := 64
  const HEADER_SIZE: nat := 2 * CACHE_LINE
  /** `sizeof(std::atomic<int>)`. */
  const ATOMIC_INT_SIZE: nat := 4
  const SIZE_T_LIMIT: nat := 0x1_0000_0000_0000_0000

  type SizeT = n: nat | n < SIZE_T_LIMIT

  /** The conversion of a `size_t` to `int`: the value modulo 2^32, read in
      two's complement. */
  function ToInt(n: nat): (r: int)
    ensures -0x8000_0000 <= r < 0x8000_0000
    ensures (n - r) % 0x1_0000_0000 == 0
    ensures n < 0x8000_0000 ==> r == n
  {
    var m := n % 0x1_0000_0000;
    if m < 0x8000_0000 then m else m - 0x1_0000_0000
  }

  /** Narrowing never makes the magnitude larger. */
  lemma ToIntShrinks(n: nat)
    ensures Abs(ToInt(n)) <= n
  {
  }

  function Abs(x: int): nat {
    if x < 0 then -x else x
  }

  /** C++ `a % b`: truncating division's remainder, which has the sign of
      `a`. */
  function CRem(a: int, b: int): (r: int)
    requires b != 0
    ensures Abs(r) < Abs(b)
    ensures a >= 0 ==> r == a % Abs(b)
  {
    var m := Abs(a) % Abs(b);
    if a >= 0 then m else -m
  }

  /** The two indices, the slot count and the slots written, by index. */
  datatype Queue<T> = Queue(head: int, tail: int, maxSize: int, slots: map<int, T>)

  /** `Init` either stops the program at a `CHECK` or sets the two indices
      and the slot count of a queue with no slot written yet. */
  datatype Initialized = Aborted | Ready(head: int, tail: int, maxSize: int)

  /** The slot count as written: the file size less the size of two
      `atomic<int>`, in elements. */
  function SlotCountAsWritten(fileSize: SizeT, elemSize: nat): int
    requires HEADER_SIZE < fileSize && elemSize > 0
  {
    ToInt((fileSize - 2 * ATOMIC_INT_SIZE) / elemSize)
  }

  /** The slot count of the region after the header, in elements. */
  function SlotCount(fileSize: SizeT, elemSize: nat): int
    requires HEADER_SIZE < fileSize && elemSize > 0
  {
    ToInt((fileSize - HEADER_SIZE) / elemSize)
  }

  /** `Init` with the slot count `count` computes: the file must be larger
      than the header; head 0, tail 1, nothing written. */
  function InitWith(fileSize: SizeT, count: int): (r: Initialized)
    ensures r.Aborted? <==> fileSize <= HEADER_SIZE
    ensures r.Ready? ==> r.head == 0 && r.tail == 1 && r.maxSize == count
  {
    if fileSize <= HEADER_SIZE then Aborted else Ready(0, 1, count)
  }

  /** `Init(file_path, file_size, reset)` as written. */
  function InitAsWritten(fileSize: SizeT, elemSize: nat): (r: Initialized)
    requires elemSize > 0
    ensures r.Aborted? <==> fileSize <= HEADER_SIZE
  {
    InitWith(fileSize, if fileSize <= HEADER_SIZE then 0 else SlotCountAsWritten(fileSize, elemSize))
  }

  /** `Init` counting the slots of the region after the header. */
  function Init(fileSize: SizeT, elemSize: nat): (r: Initialized)
    requires elemSize > 0
    ensures r.Aborted? <==> fileSize <= HEADER_SIZE
  {
    InitWith(fileSize, if fileSize <= HEADER_SIZE then 0 else SlotCount(fileSize, elemSize))
  }

  /** The result of `PushImpl`: the queue and the value returned, or
      undefined behaviour when it divides by a slot count of 0. */
  datatype Pushed<T> = Pushed(q: Queue<T>, ok: bool) | ZeroDivisor

  /** `PushImpl`: full when head meets tail; otherwise construct the value
      in slot `tail` and advance `tail`. */
  function Push<T>(q: Queue<T>, v: T): (r: Pushed<T>)
  {
    if q.head == q.tail then Pushed(q, false)
    else if q.maxSize == 0 then ZeroDivisor
    else Pushed(q.(slots := q.slots[q.tail := v], tail := CRem(q.tail + 1, q.maxSize)), true)
  }

  /** A push fails, changing nothing, exactly when head meets tail; else it
      writes the value at the old tail, touches no other slot, moves only
      the tail, and keeps it within the ring when it starts non-negative. */
  lemma PushSpec<T>(q: Queue<T>, v: T)
    ensures Push(q, v) == Pushed(q, false) <==> q.head == q.tail
    ensures Push(q, v) == ZeroDivisor <==> q.head != q.tail && q.maxSize == 0
    ensures Push(q, v).Pushed? && Push(q, v).ok ==>
      var r := Push(q, v).q;
      && r.head == q.head && r.maxSize == q.maxSize
      && q.tail in r.slots && r.slots[q.tail] == v
      && (forall k :: k in q.slots && k != q.tail ==> k in r.slots && r.slots[k] == q.slots[k])
      && (forall k :: k in r.slots <==> k in q.slots || k == q.tail)
      && (q.tail >= 0 ==> 0 <= r.tail < Abs(q.maxSize))
  {
  }

  /** Pushing values one after another, counting the pushes that succeed. */
  function PushAll<T>(q: Queue<T>, xs: seq<T>): (r: (Queue<T>, nat))
    ensures r.1 <= |xs| && r.0.maxSize == q.maxSize
    decreases |xs|
  {
    if xs == [] then (q, 0)
    else match Push(q, xs[0])
      case Pushed(q', ok) =>
        var rest := PushAll(q', xs[1..]);
        (rest.0, rest.1 + if ok then 1 else 0)
      case ZeroDivisor => (q, 0) // undefined behaviour: stop
  }

  /** Slots 1 to `|vals|` holding `vals`, in order. */
  function Fill<T>(vals: seq<T>): (m: map<int, T>)
    ensures forall k :: k in m <==> 1 <= k <= |vals|
    ensures forall k :: k in m ==> m[k] == vals[k - 1]
    decreases |vals|
  {
    if vals == [] then map[] else Fill(vals[..|vals| - 1])[|vals| := vals[|vals| - 1]]
  }

  function Min(a: int, b: int): int {
    if a <= b then a else b
  }

  /** The queue after `|vals|` successful pushes from `Init`. */
  function Filled<T>(m: int, vals: seq<T>): (q: Queue<T>)
    requires Abs(m) >= 2 && |vals| <= Abs(m) - 1
  {
    Queue(0, if 1 + |vals| == Abs(m) then 0 else 1 + |vals|, m, Fill(vals))
  }

  /** Advancing the tail by one within the ring: `(k) % a` for `k` at most
      `a` wraps only at `a` itself. */
  lemma WrapOnce(k: int, a: int)
    requires 0 <= k <= a && a > 0
    ensures k % a == if k == a then 0 else k
  {
  }

  /** Pushing onto a queue that has taken `vals` since `Init`: as many
      values succeed as there are slots left, the ring having room for
      `|max_size_| - 1`, and they fill the next slots in order. */
  lemma {:induction false} PushAllFilled<T>(m: int, vals: seq<T>, xs: seq<T>)
    requires Abs(m) >= 2 && |vals| <= Abs(m) - 1
    ensures var n := Min(|xs|, Abs(m) - 1 - |vals|);
      PushAll(Filled(m, vals), xs) == (Filled(m, vals + xs[..n]), n)
    decreases |xs|
  {
    var n := Min(|xs|, Abs(m) - 1 - |vals|);
    if xs == [] {
      assert vals + xs[..n] == vals;
    } else if |vals| == Abs(m) - 1 {
      PushOntoFull(m, vals, xs[0]);
      PushAllCons(Filled(m, vals), xs, Filled(m, vals), false);
      PushAllFilled(m, vals, xs[1..]);
      assert vals + xs[..n] == vals;
    } else {
      var vals' := vals + [xs[0]];
      PushOntoFilled(m, vals, xs[0]);
      PushAllCons(Filled(m, vals), xs, Filled(m, vals'), true);
      PushAllFilled(m, vals', xs[1..]);
      assert vals' + xs[1..][..n - 1] == vals + xs[..n];
    }
  }

  /** One step of `PushAll`: the first push, then the rest. */
  lemma PushAllCons<T>(q: Queue<T>, xs: seq<T>, q': Queue<T>, ok: bool)
    requires xs != [] && Push(q, xs[0]) == Pushed(q', ok)
    ensures PushAll(q, xs) == (PushAll(q', xs[1..]).0, PushAll(q', xs[1..]).1 + if ok then 1 else 0)
  {
  }

  /** A push onto a ring with room writes the next slot. */
  lemma PushOntoFilled<T>(m: int, vals: seq<T>, x: T)
    requires Abs(m) >= 2 && |vals| < Abs(m) - 1
    ensures Push(Filled(m, vals), x) == Pushed(Filled(m, vals + [x]), true)
  {
    var q := Filled(m, vals);
    assert q.tail == 1 + |vals|;
    WrapOnce(q.tail + 1, Abs(m));
    assert Fill(vals)[q.tail := x] == Fill(vals + [x]);
  }

  /** A push onto a full ring fails. */
  lemma PushOntoFull<T>(m: int, vals: seq<T>, x: T)
    requires Abs(m) >= 2 && |vals| == Abs(m) - 1
    ensures Push(Filled(m, vals), x) == Pushed(Filled(m, vals), false)
  {
    assert Filled(m, vals).tail == 0;
  }

  /** From `Init`'s head 0 and tail 1, with a ring of at least two slots,
      exactly `|max_size_| - 1` pushes succeed before the first failure,
      and they fill slots 1 to `|max_size_| - 1`; slot 0 is never written. */
  lemma PushesFromStart<T>(m: int, xs: seq<T>)
    requires Abs(m) >= 2
    ensures var r := PushAll(Queue(0, 1, m, map[]), xs);
      && r.1 == Min(|xs|, Abs(m) - 1)
      && r.0.slots == Fill(xs[..r.1])
      && (|xs| >= Abs(m) - 1 ==> r.0.head == r.0.tail)
  {
    var n := Min(|xs|, Abs(m) - 1);
    PushAllFromStart(m, xs);
    if n == Abs(m) - 1 {
      FullWhenTailMeetsHead(m, xs[..n]);
    }
  }

  /** `Init`'s queue is the one that has taken nothing yet. */
  lemma PushAllFromStart<T>(m: int, xs: seq<T>)
    requires Abs(m) >= 2
    ensures var n := Min(|xs|, Abs(m) - 1);
      PushAll(Queue(0, 1, m, map[]), xs) == (Filled(m, xs[..n]), n)
  {
    var n := Min(|xs|, Abs(m) - 1);
    var none: seq<T> := [];
    assert Queue(0, 1, m, map[]) == Filled(m, none);
    PushAllFilled(m, none, xs);
    assert none + xs[..n] == xs[..n];
  }

  /** After `|max_size_| - 1` pushes the tail has come round to the head. */
  lemma FullWhenTailMeetsHead<T>(m: int, vals: seq<T>)
    requires Abs(m) >= 2 && |vals| == Abs(m) - 1
    ensures Filled(m, vals).tail == Filled(m, vals).head
  {
  }

  /** Pushing onto a full queue changes nothing, however often. */
  lemma {:induction false} PushAllFull<T>(q: Queue<T>, xs: seq<T>)
    requires q.head == q.tail
    ensures PushAll(q, xs) == (q, 0)
    decreases |xs|
  {
    if xs != [] {
      PushAllFull(q, xs[1..]);
    }
  }

  /** A ring of one slot, from head 0 and tail 1: the first push still
      succeeds and writes slot 1, which is outside the ring, and wraps the
      tail to the head, so every later push fails. */
  lemma PushesOneSlot<T>(m: int, xs: seq<T>)
    requires Abs(m) == 1
    ensures var r := PushAll(Queue(0, 1, m, map[]), xs);
      && r.1 == Min(|xs|, 1)
      && r.0.slots == Fill(xs[..r.1])
      && (|xs| >= 1 ==> r.0.head == r.0.tail)
  {
    if xs != [] {
      var q: Queue<T> := Queue(0, 1, m, map[]);
      var q' := Queue(0, 0, m, map[1 := xs[0]]);
      assert Push(q, xs[0]) == Pushed(q', true);
      PushAllFull(q', xs[1..]);
      assert Fill(xs[..1]) == map[1 := xs[0]];
    }
  }

  /** The same from `Init` itself: the queue it leaves has its indices and
      no slot written. */
  lemma PushesFromInit<T>(fileSize: SizeT, elemSize: nat, xs: seq<T>)
    requires elemSize > 0
    requires var r := Init(fileSize, elemSize); r.Ready? && Abs(r.maxSize) >= 2
    ensures var i := Init(fileSize, elemSize);
      var r := PushAll(Queue(i.head, i.tail, i.maxSize, map[]), xs);
      && r.1 == Min(|xs|, Abs(i.maxSize) - 1)
      && (forall k :: k in r.0.slots <==> 1 <= k <= r.1)
  {
    var i := Init(fileSize, elemSize);
    PushesFromStart(i.maxSize, xs);
    var r := PushAll(Queue(i.head, i.tail, i.maxSize, map[]), xs);
    assert |xs[..r.1]| == r.1;
  }

  // ---------------------------------------------------------------------------
  // Where the slots lie in the file

  /** Slot `k` lies wholly inside the file: `data_` starts after the
      header. */
  predicate InFile(k: int, fileSize: nat, elemSize: nat) {
    0 <= k && HEADER_SIZE + (k + 1) * elemSize <= fileSize
  }

  /** Counting the slots of the region after the header, every slot of the
      ring lies inside the file, narrowed or not. */
  lemma SlotCountFits(fileSize: SizeT, elemSize: nat, k: int)
    requires HEADER_SIZE < fileSize && elemSize > 0
    requires 0 <= k < Abs(SlotCount(fileSize, elemSize))
    ensures InFile(k, fileSize, elemSize)
  {
    var c := (fileSize - HEADER_SIZE) / elemSize;
    ToIntShrinks(c);
    assert k + 1 <= c;
    assert (k + 1) * elemSize <= c * elemSize by {
      MulMono(k + 1, c, elemSize);
    }
  }

  lemma MulMono(a: nat, b: nat, c: nat)
    requires a <= b
    ensures a * c <= b * c
  {
  }

  /** Pushing from `Init` only ever writes slots inside the file. */
  lemma PushesStayInFile<T>(fileSize: SizeT, elemSize: nat, xs: seq<T>)
    requires elemSize > 0
    requires var r := Init(fileSize, elemSize); r.Ready? && Abs(r.maxSize) >= 2
    ensures var i := Init(fileSize, elemSize);
      forall k :: k in PushAll(Queue(i.head, i.tail, i.maxSize, map[]), xs).0.slots ==> InFile(k, fileSize, elemSize)
  {
    var i := Init(fileSize, elemSize);
    PushesFromInit(fileSize, elemSize, xs);
    forall k | k in PushAll(Queue(i.head, i.tail, i.maxSize, map[]), xs).0.slots
      ensures InFile(k, fileSize, elemSize)
    {
      SlotCountFits(fileSize, elemSize, k);
    }
  }

  /** The corrected count still leaves a one-slot ring when the file holds
      the header and a single element: the tail starts at 1, so the one
      push that succeeds writes slot 1, past the end of the file. */
  lemma OneSlotRingWritesPastFile(xs: seq<Digits.Char8>)
    requires |xs| >= 1
    ensures var i := Init(129, 1);
      var q := Queue(i.head, i.tail, i.maxSize, map[]);
      && i == Ready(0, 1, 1)
      && PushAll(q, xs).1 == 1
      && 1 in PushAll(q, xs).0.slots && !InFile(1, 129, 1)
  {
    PushesOneSlot(1, xs);
    assert |xs[..1]| == 1;
  }

  /** As written, a 256-byte file of `char` elements, the only element
      type the `static_cast` from `char*` at :56 accepts, gets a ring of
      248 slots although the region after the header holds 128 bytes: of
      the 247 pushes that succeed, the 128th writes slot 128, the first
      byte past the end of the file. Corrected, the ring has 128 slots and
      all 127 pushes that succeed stay in the file. */
  lemma AsWrittenWritesPastFile(xs: seq<Digits.Char8>)
    requires |xs| == 247
    ensures var i := InitAsWritten(256, 1);
      var q := Queue(i.head, i.tail, i.maxSize, map[]);
      && i.maxSize == 248
      && PushAll(q, xs).1 == 247
      && 128 in PushAll(q, xs).0.slots && !InFile(128, 256, 1)
    ensures var i := Init(256, 1);
      var q := Queue(i.head, i.tail, i.maxSize, map[]);
      && i.maxSize == 128
      && PushAll(q, xs).1 == 127
      && forall k :: k in PushAll(q, xs).0.slots ==> InFile(k, 256, 1)
  {
    var i := InitAsWritten(256, 1);
    assert i == Ready(0, 1, 248);
    PushesFromStart(248, xs);
    assert |xs[..247]| == 247;
    PushesStayInFile(256, 1, xs);
    PushesFromInit(256, 1, xs);
  }
}

=== FILE: static_list.dfy ===
/**
  `hermes::container::StaticList` and `StaticListAllocator` (hermes/container/
  static_list.h): a doubly-linked list whose nodes live in a fixed pool of
  `MAX_SIZE` slots. The allocator hands out slots from the top of a free
  list; `Delete` is meant to give a slot back.

  The list is modelled as its values from `head_` to `tail_` together with
  the pool slot of each node; an iterator is the slot of the node it points
  at, or `None` for a null iterator.
 */
module StaticLists {
  import opened Options

  type Iterator = Option<nat>

  /** The pool's bookkeeping: `free_list_[0 .. free_cnt_]` are the free
      slots, `free_list_` has `MAX_SIZE` entries. */
  datatype Allocator = Allocator(maxSize: nat, freeList: seq<nat>, freeCnt: nat)

  predicate AllocatorShape(a: Allocator) {
    |a.freeList| == a.maxSize && a.freeCnt <= a.maxSize
  }

  /** The slots `0 .. n`. */
  function Slots(n: nat): (s: seq<nat>)
    ensures |s| == n && forall i :: 0 <= i < n ==> s[i] == i
  {
    seq(n, i requires 0 <= i => i as nat)
  }

  /** The constructor: every slot free, in order. */
  function NewAllocator(maxSize: nat): (a: Allocator)
    ensures AllocatorShape(a) && a.freeCnt == maxSize && a.freeList == Slots(maxSize)
  {
    Allocator(maxSize, Slots(maxSize), maxSize)
  }

  datatype Allocated = Allocated(a: Allocator, slot: Option<nat>)

  /** `New`: null when no slot is free, else the slot on top of the free
      list. */
  function New(a: Allocator): (r: Allocated)
    requires AllocatorShape(a)
    ensures AllocatorShape(r.a) && r.a.maxSize == a.maxSize && r.a.freeList == a.freeList
    ensures r.slot.None? <==> a.freeCnt == 0
    ensures r.slot.None? ==> r.a == a
    ensures r.slot.Some? ==> r.a.freeCnt == a.freeCnt - 1 && r.slot.value == a.freeList[r.a.freeCnt]
  {
    if a.freeCnt == 0 then Allocated(a, None)
    else Allocated(a.(freeCnt := a.freeCnt - 1), Some(a.freeList[a.freeCnt - 1]))
  }

  datatype Deleted = Deleted(a: Allocator, ok: bool)

  /** `Delete` as written: refuse when the free list is full, else store the
      slot at `free_list_[free_cnt_]` without counting it. The pointer
      checks (`diff < 0` on an unsigned difference, misalignment) never
      reject a node of the pool, so they are not modelled. */
  function DeleteAsWritten(a: Allocator, slot: nat): (r: Deleted)
    requires AllocatorShape(a)
    ensures AllocatorShape(r.a) && r.a.maxSize == a.maxSize
    ensures r.ok <==> a.freeCnt < a.maxSize
    ensures r.a.freeCnt == a.freeCnt
  {
    if a.freeCnt == a.maxSize then Deleted(a, false)
    else Deleted(a.(freeList := a.freeList[a.freeCnt := slot]), true)
  }

  /** `Delete` with `free_list_[free_cnt_++] = ptr - data_`: the slot is
      pushed on the free list. */
  function Delete(a: Allocator, slot: nat): (r: Deleted)
    requires AllocatorShape(a)
    ensures AllocatorShape(r.a) && r.a.maxSize == a.maxSize
    ensures r.ok <==> a.freeCnt < a.maxSize
    ensures !r.ok ==> r.a == a
    ensures r.ok ==> r.a.freeCnt == a.freeCnt + 1 && r.a.freeList[..r.a.freeCnt] == a.freeList[..a.freeCnt] + [slot]
  {
    if a.freeCnt == a.maxSize then Deleted(a, false)
    else
      var a' := a.(freeList := a.freeList[a.freeCnt := slot], freeCnt := a.freeCnt + 1);
      assert a'.freeList[..a'.freeCnt] == a.freeList[..a.freeCnt] + [slot];
      Deleted(a', true)
  }

  // ---------------------------------------------------------------------------
  // The list

  /** `values[i]` is the value of the i-th node from `head_`, held in pool
      slot `slots[i]`. */
  datatype StaticList<T> = StaticList(values: seq<T>, slots: seq<nat>, alloc: Allocator)

  /** The slots in use: the list's and the free ones. */
  function Owned<T>(l: StaticList<T>): seq<nat>
    requires AllocatorShape(l.alloc)
  {
    l.slots + l.alloc.freeList[..l.alloc.freeCnt]
  }

  /** One slot per value, and a well-formed allocator. */
  predicate Shape<T>(l: StaticList<T>) {
    AllocatorShape(l.alloc) && |l.slots| == |l.values|
  }

  /** Every pool slot is either a node of the list or free, exactly once. */
  ghost predicate Valid<T>(l: StaticList<T>) {
    Shape(l) && multiset(Owned(l)) == multiset(Slots(l.alloc.maxSize))
  }

  /** `StaticList()`: no nodes, a fresh pool. */
  function Empty<T>(maxSize: nat): (l: StaticList<T>)
    ensures Valid(l) && l.values == [] && l.alloc.maxSize == maxSize
  {
    var l := StaticList([], [], NewAllocator(maxSize));
    assert Owned(l) == Slots(maxSize);
    l
  }

  /** `Size()`. */
  function Size<T>(l: StaticList<T>): nat {
    |l.values|
  }

  /** `Begin()`: `head_`. */
  function Begin<T>(l: StaticList<T>): Iterator {
    if l.slots == [] then None else Some(l.slots[0])
  }

  /** `End()`: `tail_`, the last node rather than one past it. */
  function End<T>(l: StaticList<T>): Iterator {
    if l.slots == [] then None else Some(l.slots[|l.slots| - 1])
  }

  /** Position of the node in slot `s`. */
  function PositionOf(slots: seq<nat>, s: nat): (p: nat)
    requires s in slots
    ensures p < |slots| && slots[p] == s
  {
    if slots[0] == s then 0 else 1 + PositionOf(slots[1..], s)
  }

  /** `*it`. */
  function Get<T>(l: StaticList<T>, it: Iterator): T
    requires |l.slots| == |l.values| && it.Some? && it.value in l.slots
  {
    l.values[PositionOf(l.slots, it.value)]
  }

  /** The number of times `x` occurs among the slots `0 .. n`. */
  lemma SlotsCount(n: nat, x: nat)
    ensures multiset(Slots(n))[x] == if x < n then 1 else 0
  {
    if n > 0 {
      assert Slots(n) == Slots(n - 1) + [n - 1];
      SlotsCount(n - 1, x);
    }
  }

  /** Every pool slot is held at most once. */
  lemma OwnedOnce<T>(l: StaticList<T>, x: nat)
    requires Valid(l)
    ensures multiset(Owned(l))[x] <= 1
    ensures x in Owned(l) ==> x < l.alloc.maxSize
  {
    SlotsCount(l.alloc.maxSize, x);
  }

  /** No two nodes share a slot, so an iterator names one node. */
  lemma SlotsDistinct<T>(l: StaticList<T>, i: nat, j: nat)
    requires Valid(l) && i < j < |l.slots|
    ensures l.slots[i] != l.slots[j]
  {
    var x := l.slots[j];
    OwnedOnce(l, x);
    if l.slots[i] == x {
      TwiceCounted(l.slots, i, j);
    }
  }

  /** A value at two positions of a sequence occurs twice in it. */
  lemma TwiceCounted(s: seq<nat>, i: nat, j: nat)
    requires i < j < |s| && s[i] == s[j]
    ensures multiset(s)[s[j]] >= 2
  {
    assert s == s[..j] + s[j..];
    assert s[..j][i] == s[j];
    assert s[j..][0] == s[j];
  }

  lemma PositionOfAt<T>(l: StaticList<T>, p: nat)
    requires Valid(l) && p < |l.slots|
    ensures PositionOf(l.slots, l.slots[p]) == p
  {
    var q := PositionOf(l.slots, l.slots[p]);
    if q < p {
      SlotsDistinct(l, q, p);
    } else if q > p {
      SlotsDistinct(l, p, q);
    }
  }

  /** The pool holds `MAX_SIZE` slots, so the nodes and the free slots
      together number `MAX_SIZE`. */
  lemma SizeBound<T>(l: StaticList<T>)
    requires Valid(l)
    ensures Size(l) + l.alloc.freeCnt == l.alloc.maxSize
  {
    assert |multiset(Owned(l))| == |multiset(Slots(l.alloc.maxSize))|;
  }

  // ---------------------------------------------------------------------------
  // PushBack, PushFront

  datatype Pushed<T> = Pushed(l: StaticList<T>, ok: bool)

  /** `PushBackImpl`: take a slot, link the node after `tail_`. */
  function PushBack<T>(l: StaticList<T>, x: T): (r: Pushed<T>)
    requires Shape(l)
    ensures Shape(r.l)
  {
    var n := New(l.alloc);
    if n.slot.None? then Pushed(l, false)
    else Pushed(StaticList(l.values + [x], l.slots + [n.slot.value], n.a), true)
  }

  /** `PushFrontImpl`: take a slot, link the node before `head_`. */
  function PushFront<T>(l: StaticList<T>, x: T): (r: Pushed<T>)
    requires Shape(l)
    ensures Shape(r.l)
  {
    var n := New(l.alloc);
    if n.slot.None? then Pushed(l, false)
    else Pushed(StaticList([x] + l.values, [n.slot.value] + l.slots, n.a), true)
  }

  /** Taking the top free slot moves it from the free part to the list. */
  lemma TakeSlot(a: Allocator)
    requires AllocatorShape(a) && a.freeCnt > 0
    ensures a.freeList[..a.freeCnt] == New(a).a.freeList[..New(a).a.freeCnt] + [New(a).slot.value]
  {
  }

  /** `PushBack` succeeds exactly while the pool has a free slot; then it
      appends the value, otherwise it changes nothing. */
  lemma PushBackSpec<T>(l: StaticList<T>, x: T)
    requires Valid(l)
    ensures var r := PushBack(l, x);
      && Valid(r.l)
      && (r.ok <==> Size(l) < l.alloc.maxSize)
      && (r.ok ==> r.l.values == l.values + [x])
      && (!r.ok ==> r.l == l)
  {
    SizeBound(l);
    var r := PushBack(l, x);
    if r.ok {
      TakeSlot(l.alloc);
      var n := New(l.alloc);
      assert Owned(r.l) == l.slots + [n.slot.value] + n.a.freeList[..n.a.freeCnt];
      assert multiset(Owned(r.l)) == multiset(Owned(l));
    }
  }

  /** `PushFront` succeeds exactly while the pool has a free slot; then it
      prepends the value, otherwise it changes nothing. */
  lemma PushFrontSpec<T>(l: StaticList<T>, x: T)
    requires Valid(l)
    ensures var r := PushFront(l, x);
      && Valid(r.l)
      && (r.ok <==> Size(l) < l.alloc.maxSize)
      && (r.ok ==> r.l.values == [x] + l.values)
      && (!r.ok ==> r.l == l)
  {
    SizeBound(l);
    var r := PushFront(l, x);
    if r.ok {
      TakeSlot(l.alloc);
      var n := New(l.alloc);
      assert Owned(r.l) == [n.slot.value] + l.slots + n.a.freeList[..n.a.freeCnt];
      assert multiset(Owned(r.l)) == multiset(Owned(l));
    }
  }

  // ---------------------------------------------------------------------------
  // Erase

  /** `Erase` unlinks the node: its neighbours are joined, and `head_` or
      `tail_` moves when it was first or last. */
  function Unlink<T>(l: StaticList<T>, p: nat): (l': StaticList<T>)
    requires |l.slots| == |l.values| && p < |l.values|
    ensures |l'.slots| == |l'.values| == |l.values| - 1 && l'.alloc == l.alloc
  {
    StaticList(l.values[..p] + l.values[p + 1..], l.slots[..p] + l.slots[p + 1..], l.alloc)
  }

  /** `Erase` as written: a null iterator is a no-op reporting success;
      otherwise unlink the node and return what `Delete` as written
      reports. */
  function EraseAsWritten<T>(l: StaticList<T>, it: Iterator): (r: Pushed<T>)
    requires Shape(l) && (it.Some? ==> it.value in l.slots)
    ensures Shape(r.l)
  {
    if it.None? then Pushed(l, true)
    else
      var p := PositionOf(l.slots, it.value);
      var d := DeleteAsWritten(l.alloc, it.value);
      Pushed(Unlink(l, p).(alloc := d.a), d.ok)
  }

  /** `Erase` with the corrected `Delete`. */
  function Erase<T>(l: StaticList<T>, it: Iterator): (r: Pushed<T>)
    requires Shape(l) && (it.Some? ==> it.value in l.slots)
    ensures Shape(r.l)
  {
    if it.None? then Pushed(l, true)
    else
      var p := PositionOf(l.slots, it.value);
      var d := Delete(l.alloc, it.value);
      Pushed(Unlink(l, p).(alloc := d.a), d.ok)
  }

  /** Erasing a null iterator changes nothing; erasing a node removes
      exactly its value, returns its slot to the pool and reports success. */
  lemma EraseSpec<T>(l: StaticList<T>, it: Iterator)
    requires Valid(l) && (it.Some? ==> it.value in l.slots)
    ensures var r := Erase(l, it);
      && Valid(r.l)
      && r.ok
      && (it.None? ==> r.l == l)
      && (it.Some? ==>
            var p := PositionOf(l.slots, it.value);
            r.l.values == l.values[..p] + l.values[p + 1..] && Size(r.l) == Size(l) - 1)
  {
    SizeBound(l);
    if it.Some? {
      var p := PositionOf(l.slots, it.value);
      var r := Erase(l, it);
      var s := l.slots;
      assert s == s[..p] + [s[p]] + s[p + 1..];
      assert Owned(r.l) == s[..p] + s[p + 1..] + (l.alloc.freeList[..l.alloc.freeCnt] + [s[p]]);
      assert multiset(Owned(r.l)) == multiset(Owned(l));
    }
  }

  /** `*Begin()` is the first value and `*End()` the last. */
  lemma BeginEndValues<T>(l: StaticList<T>)
    requires Valid(l) && l.values != []
    ensures Begin(l).Some? && Begin(l).value in l.slots && Get(l, Begin(l)) == l.values[0]
    ensures End(l).Some? && End(l).value in l.slots && Get(l, End(l)) == l.values[|l.values| - 1]
  {
    PositionOfAt(l, |l.slots| - 1);
  }


  // ---------------------------------------------------------------------------
  // Push order

  /** Pushing values at the back one by one. */
  function PushAll<T>(l: StaticList<T>, xs: seq<T>): (l': StaticList<T>)
    requires Shape(l)
    ensures Shape(l')
    decreases |xs|
  {
    if xs == [] then l
    else
      PushAll(PushBack(l, xs[0]).l, xs[1..])
  }

  /** While the pool lasts, pushing at the back appends the values in
      order. */
  lemma {:induction false} PushAllSpec<T>(l: StaticList<T>, xs: seq<T>)
    requires Valid(l) && Size(l) + |xs| <= l.alloc.maxSize
    ensures Valid(PushAll(l, xs)) && PushAll(l, xs).values == l.values + xs
    decreases |xs|
  {
    if xs != [] {
      var l' := PushBack(l, xs[0]).l;
      PushBackSpec(l, xs[0]);
      assert PushAll(l, xs) == PushAll(l', xs[1..]);
      PushAllSpec(l', xs[1..]);
      assert l'.values + xs[1..] == l.values + xs;
    }
  }

  /** Reading `*Begin()` and erasing `Begin()` until the list is empty. */
  function Drain<T>(l: StaticList<T>): seq<T>
    requires Shape(l)
    decreases |l.values|
  {
    if l.values == [] then []
    else
      [Get(l, Begin(l))] + Drain(Erase(l, Begin(l)).l)
  }

  /** Values come out of the front in list order. */
  lemma {:induction false} DrainSpec<T>(l: StaticList<T>)
    requires Valid(l)
    ensures Drain(l) == l.values
    decreases |l.values|
  {
    if l.values != [] {
      assert PositionOf(l.slots, l.slots[0]) == 0;
      EraseBegin(l);
      DrainSpec(Erase(l, Begin(l)).l);
    }
  }

  /** `Erase(End())` keeps the list valid and drops its last value. */
  lemma EraseEnd<T>(l: StaticList<T>)
    requires Valid(l) && l.values != []
    ensures End(l).value in l.slots
    ensures Valid(Erase(l, End(l)).l) && Erase(l, End(l)).l.values == l.values[..|l.values| - 1]
  {
    var n := |l.values|;
    PositionOfAt(l, n - 1);
    EraseSpec(l, End(l));
    assert l.values[..n - 1] + l.values[n..] == l.values[..n - 1];
  }

  /** `Erase(Begin())` keeps the list valid and drops its first value. */
  lemma EraseBegin<T>(l: StaticList<T>)
    requires Valid(l) && l.values != []
    ensures Begin(l).value in l.slots
    ensures Valid(Erase(l, Begin(l)).l) && Erase(l, Begin(l)).l.values == l.values[1..]
  {
    assert PositionOf(l.slots, l.slots[0]) == 0;
    EraseSpec(l, Begin(l));
  }

  /** Erasing `End()` twice drops the last two values. */
  lemma EraseEndTwice<T>(l: StaticList<T>)
    requires Valid(l) && |l.values| >= 2
    ensures End(l).value in l.slots
    ensures var l1 := Erase(l, End(l)).l;
      && Valid(l1) && l1.values != [] && End(l1).value in l1.slots
      && Valid(Erase(l1, End(l1)).l)
      && Erase(l1, End(l1)).l.values == l.values[..|l.values| - 2]
  {
    EraseEnd(l);
    var l1 := Erase(l, End(l)).l;
    EraseEnd(l1);
  }

  /** Push values and two extra ones at the back, erase `End()` twice, then
      drain from `Begin()`: the values come back in push order. */
  lemma PushEraseDrain<T>(maxSize: nat, xs: seq<T>, a: T, b: T)
    requires |xs| + 2 <= maxSize
    ensures var l := PushAll(Empty(maxSize), xs + [a, b]);
      && l.values != [] && End(l).value in l.slots
      && var l1 := Erase(l, End(l)).l;
      && Shape(l1) && l1.values != [] && End(l1).value in l1.slots
      && Drain(Erase(l1, End(l1)).l) == xs
  {
    var l := PushAll(Empty<T>(maxSize), xs + [a, b]);
    PushAllSpec(Empty<T>(maxSize), xs + [a, b]);
    assert Valid(l) && l.values == xs + [a, b];
    EraseEndTwice(l);
    assert l.values[..|l.values| - 2] == xs;
    var l1 := Erase(l, End(l)).l;
    DrainSpec(Erase(l1, End(l1)).l);
  }

  // ---------------------------------------------------------------------------
  // Delete as written

  /** A client's calls on the list. */
  datatype Op<T> = PushBackOp(x: T) | PushFrontOp(x: T) | EraseBeginOp | EraseEndOp

  datatype Run<T> = Run(l: StaticList<T>, pushes: nat)

  /** Apply the calls in order with `Erase` as written, counting the pushes
      that succeed. */
  function RunAsWritten<T>(l: StaticList<T>, ops: seq<Op<T>>): (r: Run<T>)
    requires Shape(l)
    ensures Shape(r.l) && r.l.alloc.maxSize == l.alloc.maxSize
    decreases |ops|
  {
    if ops == [] then Run(l, 0)
    else
      var step := match ops[0]
        case PushBackOp(x) => PushBack(l, x)
        case PushFrontOp(x) => PushFront(l, x)
        case EraseBeginOp => EraseAsWritten(l, Begin(l))
        case EraseEndOp => EraseAsWritten(l, End(l));
      var rest := RunAsWritten(step.l, ops[1..]);
      var pushed := if (ops[0].PushBackOp? || ops[0].PushFrontOp?) && step.ok then 1 else 0;
      Run(rest.l, rest.pushes + pushed)
  }

  /** As written, the pool serves at most `MAX_SIZE` successful pushes over
      the list's whole life, however many values are erased in between:
      every success uses up one unit of `free_cnt_` for good. */
  lemma {:induction false} AsWrittenLifetime<T>(l: StaticList<T>, ops: seq<Op<T>>)
    requires Shape(l)
    ensures RunAsWritten(l, ops).pushes + RunAsWritten(l, ops).l.alloc.freeCnt == l.alloc.freeCnt
    ensures RunAsWritten(l, ops).pushes <= l.alloc.maxSize
    decreases |ops|
  {
    if ops != [] {
      var step := match ops[0]
        case PushBackOp(x) => PushBack(l, x)
        case PushFrontOp(x) => PushFront(l, x)
        case EraseBeginOp => EraseAsWritten(l, Begin(l))
        case EraseEndOp => EraseAsWritten(l, End(l));
      AsWrittenLifetime(step.l, ops[1..]);
    }
  }

  /** With one slot: push, erase it again, push once more. As written the
      second push fails on an empty list, since the erased slot never
      returns to the pool; with the corrected `Delete` it succeeds. */
  lemma AsWrittenPoolRunsDry<T>(x: T, y: T)
    ensures var l := PushBack(Empty<T>(1), x).l;
      && l.values == [x] && Begin(l).value in l.slots
      && var gone := EraseAsWritten(l, Begin(l)).l;
      && gone.values == []
      && !PushBack(gone, y).ok
      && Erase(l, Begin(l)).l.values == []
      && PushBack(Erase(l, Begin(l)).l, y).ok
  {
    var e := Empty<T>(1);
    PushBackSpec(e, x);
    var l := PushBack(e, x).l;
    EraseSpec(l, Begin(l));
    PushBackSpec(Erase(l, Begin(l)).l, y);
  }
}

=== FILE: stl_hash_map.dfy ===
/**
  `hermes::container::HashMap` (hermes/container/stl_hash_map.h): a chained
  hash table whose nodes all hang in one doubly-linked list, sorted by
  bucket, with `buckets_[b]` pointing at the first node of bucket `b`. A new
  node goes in front of its bucket's first node; once `size_` reaches
  `LOAD_FACTOR * bucket_cnt_` (the default load factor 1.0 makes that
  `size_ >= bucket_cnt_`) the table doubles its buckets and re-inserts every
  node in list order.

  The hash functor is the parameter `hash`; an iterator is the id of the
  node it points at, or `None` for `End()`.
 */
module StlHashMap {
  import opened Options
  import opened HashMapNodes

  type Iterator = Option<nat>

  datatype HashMap<K(!new), V> = HashMap(
    list: seq<Node<K, V>>,
    buckets: seq<Option<nat>>,
    size: nat,
    bucketCnt: nat,
    nextId: nat)

  /** Result of `Insert`: the map, the iterator to the key's node, and
      whether a node was added. */
  datatype Inserted<K(!new), V> = Inserted(m: HashMap<K, V>, it: Iterator, inserted: bool)

  /** Result of `Erase` and of `operator[]`. */
  datatype Erased<K(!new), V> = Erased(m: HashMap<K, V>, it: Iterator)
  datatype Indexed<K(!new), V> = Indexed(m: HashMap<K, V>, value: V)

  /** The shape every operation keeps: a bucket per slot, nodes with
      distinct keys and ids, each in the bucket of its key's hash, sorted
      by bucket, `buckets_[b]` the first node of bucket `b`, and `size_`
      the number of nodes. */
  ghost predicate Linked<K(!new), V>(h: HashMap<K, V>, hash: K -> nat) {
    && h.bucketCnt >= 1
    && |h.buckets| == h.bucketCnt
    && UniqueKeys(h.list)
    && UniqueIds(h.list)
    && Sorted(h.list)
    && (forall i :: 0 <= i < |h.list| ==> h.list[i].bucket == hash(h.list[i].key) % h.bucketCnt)
    && (forall i :: 0 <= i < |h.list| ==> h.list[i].id < h.nextId)
    && (forall b: nat :: b < h.bucketCnt ==> h.buckets[b] == Head(h.list, b))
    && h.size == |h.list|
  }

  /** Between operations the load factor is below 1: `Size() < BucketSize()`. */
  ghost predicate Valid<K(!new), V>(h: HashMap<K, V>, hash: K -> nat) {
    Linked(h, hash) && h.size < h.bucketCnt
  }

  // ---------------------------------------------------------------------------
  // Init, KeyToBucketId, Begin

  /** `Init`: an empty list, one empty bucket. */
  function Init<K(==, !new), V>(): HashMap<K, V> {
    HashMap([], [None], 0, 1, 0)
  }

  /** After `Init` the map is empty, with size 0 and one bucket, and has the
      shape every operation expects. */
  lemma InitSpec<K(!new), V>(hash: K -> nat)
    ensures var h: HashMap<K, V> := Init();
      && Valid(h, hash)
      && h.size == 0 && h.bucketCnt == 1
      && forall k :: Lookup(h.list, k) == None
  {
  }

  /** `KeyToBucketId`: the key's hash modulo the bucket count. */
  function KeyToBucketId<K(==, !new), V>(h: HashMap<K, V>, hash: K -> nat, k: K): (b: nat)
    requires h.bucketCnt >= 1
    ensures b < h.bucketCnt
  {
    hash(k) % h.bucketCnt
  }

  /** The scan of `InsertNew` and `Begin`: the first bucket from `from` on
      with a head, or `|buckets|` when there is none. */
  function NextBucket(buckets: seq<Option<nat>>, from: nat): (j: nat)
    requires from <= |buckets|
    ensures from <= j <= |buckets|
    ensures j < |buckets| ==> buckets[j].Some?
    ensures forall t :: from <= t < j ==> buckets[t].None?
    decreases |buckets| - from
  {
    if from == |buckets| || buckets[from].Some? then from else NextBucket(buckets, from + 1)
  }

  /** `Begin`: the head of the first non-empty bucket, or `End()`. */
  function Begin<K(==, !new), V>(h: HashMap<K, V>): Iterator
    requires |h.buckets| >= 1
  {
    var j := NextBucket(h.buckets, 0);
    if j == |h.buckets| then None else h.buckets[j]
  }

  /** A bucket without a head holds no node. */
  lemma EmptyBucket<K(!new), V>(h: HashMap<K, V>, hash: K -> nat, c: nat, t: nat)
    requires Linked(h, hash) && c < h.bucketCnt && h.buckets[c].None? && t < |h.list|
    ensures h.list[t].bucket != c
  {
    NoHeadNoNode(h.list, c, t);
  }

  /** `Begin` is the first node of the list: the list is sorted by bucket,
      so the first non-empty bucket's head comes first. */
  lemma BeginIsFirst<K(!new), V>(h: HashMap<K, V>, hash: K -> nat)
    requires Linked(h, hash)
    ensures Begin(h) == if h.list == [] then None else Some(h.list[0].id)
  {
    var j := NextBucket(h.buckets, 0);
    if h.list != [] {
      var c := h.list[0].bucket;
      assert c < h.bucketCnt;
      if j == |h.buckets| || j > c {
        EmptyBucket(h, hash, c, 0);
      } else {
        assert h.buckets[j] == Head(h.list, j);
        var i := FirstAtLeast(h.list, j);
        assert i < |h.list| && h.list[i].bucket == j;
        FirstAtLeastIs(h.list, j, 0);
      }
    }
  }

  // ---------------------------------------------------------------------------
  // Find

  /** The walk of `Find` from position `i` along the nodes of bucket `b`. */
  function FindFrom<K(==, !new), V>(list: seq<Node<K, V>>, i: nat, b: nat, k: K): (r: Option<nat>)
    requires i <= |list|
    ensures r.Some? ==> i <= r.value < |list| && list[r.value].key == k
    decreases |list| - i
  {
    if i == |list| || list[i].bucket != b then None
    else if list[i].key == k then Some(i)
    else FindFrom(list, i + 1, b, k)
  }

  /** The walk reaches the node holding `k` when every node up to it is in
      bucket `b` and none before it holds `k`. */
  lemma {:induction false} FindFromReaches<K(!new), V>(list: seq<Node<K, V>>, i: nat, j: nat, b: nat, k: K)
    requires i <= j < |list| && list[j].key == k
    requires forall u :: i <= u <= j ==> list[u].bucket == b
    requires forall u :: i <= u < j ==> list[u].key != k
    ensures FindFrom(list, i, b, k) == Some(j)
    decreases j - i
  {
    if i < j {
      FindFromReaches(list, i + 1, j, b, k);
    }
  }

  /** `Find`: from the head of the key's bucket, walk while the nodes stay
      in that bucket. */
  function Find<K(==, !new), V>(h: HashMap<K, V>, hash: K -> nat, k: K): (it: Iterator)
    requires Linked(h, hash)
    ensures it.Some? ==> HasId(h.list, it.value) && h.list[IndexOf(h.list, it.value)].key == k
  {
    var b := KeyToBucketId(h, hash, k);
    match h.buckets[b]
    case None => None
    case Some(id) =>
      var i0 := FirstAtLeast(h.list, b);
      assert h.list[i0].id == id;
      match FindFrom(h.list, IndexOf(h.list, id), b, k)
      case None => None
      case Some(j) => IndexOfAt(h.list, j); Some(h.list[j].id)
  }

  /** `Find` yields the node holding the key, and `End()` exactly when the
      key is absent. */
  lemma FindSpec<K(!new), V>(h: HashMap<K, V>, hash: K -> nat, k: K)
    requires Linked(h, hash)
    ensures Find(h, hash, k) == NodeOf(h.list, k)
    ensures Find(h, hash, k).None? <==> Lookup(h.list, k).None?
  {
    var b := KeyToBucketId(h, hash, k);
    match KeyIndex(h.list, k)
    case None =>
    case Some(j) =>
      assert h.list[j].bucket == b;
      var i0 := FirstAtLeast(h.list, b);
      assert i0 <= j;
      BucketRun(h.list, b, j, i0);
      assert h.buckets[b] == Some(h.list[i0].id);
      IndexOfAt(h.list, i0);
      forall u | i0 <= u <= j
        ensures h.list[u].bucket == b
      {
        BucketRun(h.list, b, j, u);
      }
      FindFromReaches(h.list, i0, j, b, k);
      IndexOfAt(h.list, j);
  }

  /** `Contains`: `Find` is not `End()`. */
  function Contains<K(==, !new), V>(h: HashMap<K, V>, hash: K -> nat, k: K): bool
    requires Linked(h, hash)
  {
    Find(h, hash, k).Some?
  }

  lemma ContainsSpec<K(!new), V>(h: HashMap<K, V>, hash: K -> nat, k: K)
    requires Linked(h, hash)
    ensures Contains(h, hash, k) <==> Lookup(h.list, k).Some?
  {
    FindSpec(h, hash, k);
  }

  /** `IsEmpty`: `!size_`. */
  function IsEmpty<K(==, !new), V>(h: HashMap<K, V>): bool {
    h.size == 0
  }

  lemma IsEmptySpec<K(!new), V>(h: HashMap<K, V>, hash: K -> nat)
    requires Linked(h, hash)
    ensures IsEmpty(h) <==> forall k :: Lookup(h.list, k).None?
  {
    if h.list != [] {
      KeyIndexAt(h.list, 0);
      assert Lookup(h.list, h.list[0].key).Some?;
    }
  }

  // ---------------------------------------------------------------------------
  // InsertNew(NodeBase *) and Rehash

  /** A node that may be linked into `h`: its key and id are new and its id
      is below the next one to hand out. */
  ghost predicate Fresh<K(!new), V>(h: HashMap<K, V>, n: Node<K, V>) {
    Apart(h.list, [n]) && n.id < h.nextId
  }

  /** Where `InsertNew(NodeBase *)` hooks the node: in front of its bucket's
      head, else in front of the next non-empty bucket's head, else at the
      end of the list (in front of `head_`). */
  function HookPosition<K(==, !new), V>(h: HashMap<K, V>, hash: K -> nat, b: nat): (pos: nat)
    requires Linked(h, hash) && b < h.bucketCnt
    ensures pos <= |h.list|
  {
    var j := if h.buckets[b].Some? then b else NextBucket(h.buckets, b + 1);
    if j == |h.buckets| then |h.list|
    else
      assert h.buckets[j] == Head(h.list, j);
      assert h.list[FirstAtLeast(h.list, j)].id == h.buckets[j].value;
      IndexOf(h.list, h.buckets[j].value)
  }

  /** The hook position is the first node of the bucket or a later one, so
      the list stays sorted. */
  lemma HookPositionIsFirstAtLeast<K(!new), V>(h: HashMap<K, V>, hash: K -> nat, b: nat)
    requires Linked(h, hash) && b < h.bucketCnt
    ensures HookPosition(h, hash, b) == FirstAtLeast(h.list, b)
  {
    var j := if h.buckets[b].Some? then b else NextBucket(h.buckets, b + 1);
    EmptyBuckets(h, hash, b, j);
    if j < |h.buckets| {
      assert h.buckets[j] == Head(h.list, j);
      var i := FirstAtLeast(h.list, j);
      IndexOfAt(h.list, i);
      FirstAtLeastIs(h.list, b, i);
    } else {
      FirstAtLeastIs(h.list, b, |h.list|);
    }
  }

  /** Buckets `b` to `j - 1` without a head hold no node, so every node
      below bucket `j` is below bucket `b`. */
  lemma EmptyBuckets<K(!new), V>(h: HashMap<K, V>, hash: K -> nat, b: nat, j: nat)
    requires Linked(h, hash) && b <= j <= h.bucketCnt
    requires forall t :: b <= t < j ==> h.buckets[t].None?
    ensures forall u :: 0 <= u < |h.list| && h.list[u].bucket < j ==> h.list[u].bucket < b
  {
    forall u | 0 <= u < |h.list| && h.list[u].bucket < j
      ensures h.list[u].bucket < b
    {
      var c := h.list[u].bucket;
      if c >= b {
        EmptyBucket(h, hash, c, u);
      }
    }
  }

  /** `InsertNew(NodeBase *)`: hook the node, make it its bucket's head and
      count it. */
  function Link<K(==, !new), V>(h: HashMap<K, V>, hash: K -> nat, node: Node<K, V>): (h': HashMap<K, V>)
    requires Linked(h, hash)
    ensures h'.size == h.size + 1 && h'.bucketCnt == h.bucketCnt && h'.nextId == h.nextId
  {
    var b := KeyToBucketId(h, hash, node.key);
    var n := node.(bucket := b);
    HashMap(InsertAt(h.list, HookPosition(h, hash, b), n), h.buckets[b := Some(n.id)],
            h.size + 1, h.bucketCnt, h.nextId)
  }

  /** Linking a fresh node keeps the shape, adds exactly the node's key and
      value to the map and its id to the nodes. */
  lemma LinkSpec<K(!new), V>(h: HashMap<K, V>, hash: K -> nat, node: Node<K, V>)
    requires Linked(h, hash) && Fresh(h, node)
    ensures var h' := Link(h, hash, node);
      && Linked(h', hash)
      && (forall k :: Entry(h'.list, k) == if k == node.key then Some((node.id, node.value)) else Entry(h.list, k))
  {
    var b := KeyToBucketId(h, hash, node.key);
    var n := node.(bucket := b);
    HookPositionIsFirstAtLeast(h, hash, b);
    var p := FirstAtLeast(h.list, b);
    var l' := InsertAt(h.list, p, n);
    assert Apart(h.list, [n]) by {
      assert [n][0].key == [node][0].key && [n][0].id == [node][0].id;
    }
    InsertAtSpec(h.list, p, n);
    InsertHeads(h.list, n);
    var h' := Link(h, hash, node);
    assert h'.list == l';
    assert forall c: nat :: c < h'.bucketCnt ==> h'.buckets[c] == Head(l', c);
    assert forall i :: 0 <= i < |l'| ==> l'[i].bucket == hash(l'[i].key) % h'.bucketCnt;
  }

  /** The re-insertion loop of `Rehash`: link the old nodes in list order. */
  function Relink<K(==, !new), V>(h: HashMap<K, V>, hash: K -> nat, nodes: seq<Node<K, V>>): (h': HashMap<K, V>)
    requires Linked(h, hash) && Apart(h.list, nodes) && UniqueKeys(nodes) && UniqueIds(nodes)
    requires forall j :: 0 <= j < |nodes| ==> nodes[j].id < h.nextId
    ensures h'.size == h.size + |nodes| && h'.bucketCnt == h.bucketCnt && h'.nextId == h.nextId
    decreases |nodes|
  {
    if nodes == [] then h
    else
      RelinkStep(h, hash, nodes);
      Relink(Link(h, hash, nodes[0]), hash, nodes[1..])
  }

  /** After linking the first node the others may still be linked. */
  lemma RelinkStep<K(!new), V>(h: HashMap<K, V>, hash: K -> nat, nodes: seq<Node<K, V>>)
    requires Linked(h, hash) && Apart(h.list, nodes) && UniqueKeys(nodes) && UniqueIds(nodes)
    requires forall j :: 0 <= j < |nodes| ==> nodes[j].id < h.nextId
    requires nodes != []
    ensures Fresh(h, nodes[0])
    ensures var h1 := Link(h, hash, nodes[0]);
      && Linked(h1, hash) && Apart(h1.list, nodes[1..]) && UniqueKeys(nodes[1..]) && UniqueIds(nodes[1..])
      && (forall j :: 0 <= j < |nodes[1..]| ==> nodes[1..][j].id < h1.nextId)
  {
    ApartUncons(h.list, nodes);
    UniqueUncons(nodes);
    LinkSpec(h, hash, nodes[0]);
    var b := KeyToBucketId(h, hash, nodes[0].key);
    var n := nodes[0].(bucket := b);
    HookPositionIsFirstAtLeast(h, hash, b);
    assert Apart([n], nodes[1..]) by {
      assert [n][0].key == [nodes[0]][0].key && [n][0].id == [nodes[0]][0].id;
    }
    ApartInsert(h.list, FirstAtLeast(h.list, b), n, nodes[1..]);
  }

  /** Linking fresh nodes one by one keeps the shape and adds exactly their
      entries. */
  lemma {:induction false} RelinkSpec<K(!new), V>(h: HashMap<K, V>, hash: K -> nat, nodes: seq<Node<K, V>>)
    requires Linked(h, hash) && Apart(h.list, nodes) && UniqueKeys(nodes) && UniqueIds(nodes)
    requires forall j :: 0 <= j < |nodes| ==> nodes[j].id < h.nextId
    ensures var h' := Relink(h, hash, nodes);
      && Linked(h', hash)
      && (forall k :: Entry(h'.list, k) == if Entry(nodes, k).Some? then Entry(nodes, k) else Entry(h.list, k))
    decreases |nodes|
  {
    if nodes != [] {
      RelinkStep(h, hash, nodes);
      LinkSpec(h, hash, nodes[0]);
      var h1 := Link(h, hash, nodes[0]);
      RelinkSpec(h1, hash, nodes[1..]);
      var h' := Relink(h, hash, nodes);
      assert h' == Relink(h1, hash, nodes[1..]);
      UniqueUncons(nodes);
      forall k
        ensures Entry(h'.list, k) == if Entry(nodes, k).Some? then Entry(nodes, k) else Entry(h.list, k)
      {
        EntryMerge(nodes, k, Entry(h'.list, k), Entry(h1.list, k), Entry(h.list, k));
      }
    }
  }

  /** One step of `RelinkSpec`'s map: the first node's entry lies under the
      later nodes' entries, whose keys differ from it. */
  lemma EntryMerge<K(!new), V>(nodes: seq<Node<K, V>>, k: K, after: Option<(nat, V)>, mid: Option<(nat, V)>, before: Option<(nat, V)>)
    requires nodes != [] && Apart([nodes[0]], nodes[1..])
    requires after == if Entry(nodes[1..], k).Some? then Entry(nodes[1..], k) else mid
    requires mid == if k == nodes[0].key then Some((nodes[0].id, nodes[0].value)) else before
    ensures after == if Entry(nodes, k).Some? then Entry(nodes, k) else before
  {
    EntryCons(nodes, k);
    if k == nodes[0].key {
      ApartAbsent([nodes[0]], nodes[1..], 0);
    }
  }

  /** `Rehash`: double the buckets, empty the list and re-insert the old
      nodes in the order `Begin()` and `it++` visit them. */
  function Rehash<K(==, !new), V>(h: HashMap<K, V>, hash: K -> nat): (h': HashMap<K, V>)
    requires Linked(h, hash)
    ensures h'.bucketCnt == 2 * h.bucketCnt && h'.size == h.size && h'.nextId == h.nextId
  {
    var empty := HashMap([], seq(2 * h.bucketCnt, _ => None), 0, 2 * h.bucketCnt, h.nextId);
    assert Linked(empty, hash);
    Relink(empty, hash, h.list)
  }

  /** Rehashing keeps the shape and, for every key, the node holding it and
      its value. */
  lemma RehashSpec<K(!new), V>(h: HashMap<K, V>, hash: K -> nat)
    requires Linked(h, hash)
    ensures var h' := Rehash(h, hash);
      && Linked(h', hash)
      && (forall k :: Entry(h'.list, k) == Entry(h.list, k))
  {
    var empty := HashMap([], seq(2 * h.bucketCnt, _ => None), 0, 2 * h.bucketCnt, h.nextId);
    assert Linked(empty, hash);
    RelinkSpec(empty, hash, h.list);
  }

  // ---------------------------------------------------------------------------
  // InsertNew(PType &&), Insert, operator[]

  /** `InsertNew(PType &&)`: a new node with the next id, linked, then a
      rehash when the load factor reaches 1. */
  function InsertNew<K(==, !new), V>(h: HashMap<K, V>, hash: K -> nat, k: K, v: V): (r: Erased<K, V>)
    requires Valid(h, hash) && Lookup(h.list, k).None?
    ensures r.it == Some(h.nextId) && Linked(r.m, hash)
    ensures forall k' :: Entry(r.m.list, k') == if k' == k then Some((h.nextId, v)) else Entry(h.list, k')
  {
    LinkFreshEntries(h, hash, k, v);
    var h1 := Link(h.(nextId := h.nextId + 1), hash, Node(h.nextId, k, v, 0));
    MaybeRehashSpec(h1, hash);
    Erased(MaybeRehash(h1, hash), Some(h.nextId))
  }

  /** Linking a fresh node under the next id adds exactly its entry. */
  lemma LinkFreshEntries<K(!new), V>(h: HashMap<K, V>, hash: K -> nat, k: K, v: V)
    requires Linked(h, hash) && Lookup(h.list, k).None?
    ensures Linked(h.(nextId := h.nextId + 1), hash) && Fresh(h.(nextId := h.nextId + 1), Node(h.nextId, k, v, 0))
    ensures Linked(Link(h.(nextId := h.nextId + 1), hash, Node(h.nextId, k, v, 0)), hash)
    ensures forall k' :: Entry(Link(h.(nextId := h.nextId + 1), hash, Node(h.nextId, k, v, 0)).list, k')
                        == if k' == k then Some((h.nextId, v)) else Entry(h.list, k')
  {
    NewNodeFresh(h, hash, k, v);
    LinkSpec(h.(nextId := h.nextId + 1), hash, Node(h.nextId, k, v, 0));
  }

  /** The rehash `InsertNew` does after linking, once `size_ >= LOAD_FACTOR * bucket_cnt_`. */
  function MaybeRehash<K(==, !new), V>(h: HashMap<K, V>, hash: K -> nat): (h': HashMap<K, V>)
    requires Linked(h, hash)
    ensures h'.size == h.size
    ensures h'.bucketCnt == if h.size >= h.bucketCnt then 2 * h.bucketCnt else h.bucketCnt
  {
    if h.size >= h.bucketCnt then Rehash(h, hash) else h
  }

  lemma MaybeRehashSpec<K(!new), V>(h: HashMap<K, V>, hash: K -> nat)
    requires Linked(h, hash)
    ensures Linked(MaybeRehash(h, hash), hash)
    ensures forall k :: Entry(MaybeRehash(h, hash).list, k) == Entry(h.list, k)
  {
    if h.size >= h.bucketCnt {
      RehashSpec(h, hash);
    }
  }

  /** The node `InsertNew` allocates is fresh for the map with the next id
      advanced. */
  lemma NewNodeFresh<K(!new), V>(h: HashMap<K, V>, hash: K -> nat, k: K, v: V)
    requires Linked(h, hash) && Lookup(h.list, k).None?
    ensures Linked(h.(nextId := h.nextId + 1), hash)
    ensures Fresh(h.(nextId := h.nextId + 1), Node(h.nextId, k, v, 0))
  {
  }

  /** A new key: the map gains exactly the entry, the size grows by one, the
      load factor stays below 1 (the buckets double when it reaches 1), and
      the iterator is the key's node. */
  lemma InsertNewSpec<K(!new), V>(h: HashMap<K, V>, hash: K -> nat, k: K, v: V)
    requires Valid(h, hash) && Lookup(h.list, k).None?
    ensures var r := InsertNew(h, hash, k, v);
      && Valid(r.m, hash)
      && r.m.size == h.size + 1
      && r.m.bucketCnt == (if h.size + 1 == h.bucketCnt then 2 * h.bucketCnt else h.bucketCnt)
      && (forall k' :: Lookup(r.m.list, k') == if k' == k then Some(v) else Lookup(h.list, k'))
      && r.it == NodeOf(r.m.list, k)
  {
    var m := InsertNew(h, hash, k, v).m;
    InsertNewSize(h, hash, k, v);
    forall k'
      ensures Lookup(m.list, k') == if k' == k then Some(v) else Lookup(h.list, k')
    {
      assert Entry(m.list, k') == if k' == k then Some((h.nextId, v)) else Entry(h.list, k');
    }
    assert Entry(m.list, k) == Some((h.nextId, v));
  }

  /** The size grows by one; the buckets double when it reaches their count. */
  lemma InsertNewSize<K(!new), V>(h: HashMap<K, V>, hash: K -> nat, k: K, v: V)
    requires Valid(h, hash) && Lookup(h.list, k).None?
    ensures var m := InsertNew(h, hash, k, v).m;
      && m.size == h.size + 1
      && m.bucketCnt == (if h.size + 1 == h.bucketCnt then 2 * h.bucketCnt else h.bucketCnt)
  {
  }

  /** `Insert`: overwrite the value when the key is present, otherwise
      insert a new node. */
  function Insert<K(==, !new), V>(h: HashMap<K, V>, hash: K -> nat, k: K, v: V): (r: Inserted<K, V>)
    requires Valid(h, hash)
    ensures r.it.Some? && Valid(r.m, hash)
  {
    match Find(h, hash, k)
    case Some(id) =>
      var p := IndexOf(h.list, id);
      SetValueSpec(h, hash, p, v);
      Inserted(h.(list := h.list[p := h.list[p].(value := v)]), Some(id), false)
    case None =>
      FindSpec(h, hash, k);
      InsertNewSpec(h, hash, k, v);
      var e := InsertNew(h, hash, k, v);
      Inserted(e.m, e.it, true)
  }

  /** Overwriting a node's value changes the map at its key only. */
  lemma SetValueSpec<K(!new), V>(h: HashMap<K, V>, hash: K -> nat, p: nat, v: V)
    requires Linked(h, hash) && p < |h.list|
    ensures var h' := h.(list := h.list[p := h.list[p].(value := v)]);
      && Linked(h', hash)
      && (forall k :: Lookup(h'.list, k) == if k == h.list[p].key then Some(v) else Lookup(h.list, k))
      && NodeOf(h'.list, h.list[p].key) == Some(h.list[p].id)
  {
    SetValueKeeps(h.list, p, v);
  }

  /** `Insert` stores the value under the key whether or not it was present,
      reports whether it added a node, grows the size exactly then, and
      returns the key's node. */
  lemma InsertSpec<K(!new), V>(h: HashMap<K, V>, hash: K -> nat, k: K, v: V)
    requires Valid(h, hash)
    ensures var r := Insert(h, hash, k, v);
      && Valid(r.m, hash)
      && (r.inserted <==> Lookup(h.list, k).None?)
      && r.m.size == h.size + (if r.inserted then 1 else 0)
      && (forall k' :: Lookup(r.m.list, k') == if k' == k then Some(v) else Lookup(h.list, k'))
      && r.it == NodeOf(r.m.list, k)
  {
    FindSpec(h, hash, k);
    match Find(h, hash, k)
    case Some(id) =>
      var p := IndexOf(h.list, id);
      SetValueSpec(h, hash, p, v);
    case None =>
      InsertNewSpec(h, hash, k, v);
  }

  /** Inserting pairs one after another, as a caller fills a map. */
  function InsertAll<K(==, !new), V>(h: HashMap<K, V>, hash: K -> nat, kvs: seq<(K, V)>): (r: HashMap<K, V>)
    requires Valid(h, hash)
    ensures Valid(r, hash)
    decreases |kvs|
  {
    if kvs == [] then h
    else
      InsertAll(Insert(h, hash, kvs[0].0, kvs[0].1).m, hash, kvs[1..])
  }

  /** Inserting pairs with distinct new keys adds one to the size per pair
      and stores every pair. */
  lemma {:induction false} InsertAllSpec<K(!new), V>(h: HashMap<K, V>, hash: K -> nat, kvs: seq<(K, V)>)
    requires Valid(h, hash)
    requires forall i, j :: 0 <= i < j < |kvs| ==> kvs[i].0 != kvs[j].0
    requires forall i :: 0 <= i < |kvs| ==> Lookup(h.list, kvs[i].0).None?
    ensures var r := InsertAll(h, hash, kvs);
      && r.size == h.size + |kvs|
      && (forall i :: 0 <= i < |kvs| ==> Lookup(r.list, kvs[i].0) == Some(kvs[i].1))
    decreases |kvs|
  {
    if kvs != [] {
      var (k, v) := kvs[0];
      InsertSpec(h, hash, k, v);
      var h1 := Insert(h, hash, k, v).m;
      var rest := kvs[1..];
      forall i | 0 <= i < |rest|
        ensures Lookup(h1.list, rest[i].0).None?
      {
        assert rest[i] == kvs[i + 1];
      }
      InsertAllSpec(h1, hash, rest);
      InsertAllKeeps(h1, hash, rest);
      var r := InsertAll(h, hash, kvs);
      assert r == InsertAll(h1, hash, rest);
      forall i | 0 <= i < |kvs|
        ensures Lookup(r.list, kvs[i].0) == Some(kvs[i].1)
      {
        if i > 0 {
          assert kvs[i] == rest[i - 1];
        } else {
          forall j | 0 <= j < |rest| ensures rest[j].0 != k {
            assert rest[j] == kvs[j + 1];
          }
        }
      }
    }
  }

  /** A key that is not inserted keeps its value. */
  lemma {:induction false} InsertAllKeeps<K(!new), V>(h: HashMap<K, V>, hash: K -> nat, kvs: seq<(K, V)>)
    requires Valid(h, hash)
    ensures var r := InsertAll(h, hash, kvs);
      forall k :: (forall i :: 0 <= i < |kvs| ==> kvs[i].0 != k) ==> Lookup(r.list, k) == Lookup(h.list, k)
    decreases |kvs|
  {
    if kvs != [] {
      var (k, v) := kvs[0];
      InsertSpec(h, hash, k, v);
      var h1 := Insert(h, hash, k, v).m;
      var rest := kvs[1..];
      InsertAllKeeps(h1, hash, rest);
      var r := InsertAll(h, hash, kvs);
      assert r == InsertAll(h1, hash, rest);
      forall k' | forall i :: 0 <= i < |kvs| ==> kvs[i].0 != k'
        ensures Lookup(r.list, k') == Lookup(h.list, k')
      {
        assert kvs[0].0 != k';
        forall j | 0 <= j < |rest| ensures rest[j].0 != k' {
          assert rest[j] == kvs[j + 1];
        }
      }
    }
  }

  /** `operator[]`: the stored value, inserting `T{}` (here `default`) first
      when the key is absent. */
  function Index<K(==, !new), V>(h: HashMap<K, V>, hash: K -> nat, k: K, default: V): (r: Indexed<K, V>)
    requires Valid(h, hash)
  {
    match Find(h, hash, k)
    case Some(id) => Indexed(h, h.list[IndexOf(h.list, id)].value)
    case None =>
      FindSpec(h, hash, k);
      Indexed(InsertNew(h, hash, k, default).m, default)
  }

  /** `operator[]` yields the stored value and leaves the map alone when the
      key is present; otherwise it adds the entry `(key, T{})` and yields
      `T{}`. */
  lemma IndexSpec<K(!new), V>(h: HashMap<K, V>, hash: K -> nat, k: K, default: V)
    requires Valid(h, hash)
    ensures var r := Index(h, hash, k, default);
      && Valid(r.m, hash)
      && (Lookup(h.list, k).Some? ==> r.m == h && Some(r.value) == Lookup(h.list, k))
      && (Lookup(h.list, k).None? ==>
            r.value == default && r.m.size == h.size + 1
            && forall k' :: Lookup(r.m.list, k') == if k' == k then Some(default) else Lookup(h.list, k'))
  {
    FindSpec(h, hash, k);
    match Find(h, hash, k)
    case Some(id) =>
      var j := KeyIndex(h.list, k).value;
      IndexOfAt(h.list, j);
    case None =>
      InsertNewSpec(h, hash, k, default);
  }

  // ---------------------------------------------------------------------------
  // Erase

  /** `Erase` as written: unhook the node, hand its bucket's head to the
      next node when that is in the same bucket (else clear it), and return
      the next node; `size_` is left as it was. */
  function EraseAsWritten<K(==, !new), V>(h: HashMap<K, V>, hash: K -> nat, it: Iterator): (r: Erased<K, V>)
    requires Linked(h, hash) && (it.Some? ==> HasId(h.list, it.value))
    ensures it.None? ==> r == Erased(h, None)
    ensures it.Some? ==> |r.m.list| == |h.list| - 1 && r.m.size == h.size
  {
    match it
    case None => Erased(h, None)
    case Some(id) =>
      var p := IndexOf(h.list, id);
      var b := KeyToBucketId(h, hash, h.list[p].key);
      var next: Iterator := if p + 1 < |h.list| then Some(h.list[p + 1].id) else None;
      var buckets :=
        if h.buckets[b] == Some(id) then
          h.buckets[b := if next.Some? && h.list[p + 1].bucket == b then next else None]
        else h.buckets;
      Erased(HashMap(RemoveAt(h.list, p), buckets, h.size, h.bucketCnt, h.nextId), next)
  }

  /** `Erase` with `size_ -= 1` after the unhook. */
  function Erase<K(==, !new), V>(h: HashMap<K, V>, hash: K -> nat, it: Iterator): (r: Erased<K, V>)
    requires Linked(h, hash) && (it.Some? ==> HasId(h.list, it.value))
  {
    var r := EraseAsWritten(h, hash, it);
    if it.None? then r else Erased(r.m.(size := h.size - 1), r.it)
  }

  /** Erasing `End()` changes nothing; erasing a node removes exactly its
      entry, shrinks the size by one, keeps the shape, and returns the next
      node in list order (or `End()`). */
  lemma EraseSpec<K(!new), V>(h: HashMap<K, V>, hash: K -> nat, it: Iterator)
    requires Valid(h, hash) && (it.Some? ==> HasId(h.list, it.value))
    ensures var r := Erase(h, hash, it);
      && Valid(r.m, hash)
      && (it.None? ==> r == Erased(h, None))
      && (it.Some? ==>
            var p := IndexOf(h.list, it.value);
            && r.m.size == h.size - 1
            && !HasId(r.m.list, it.value)
            && r.it == (if p + 1 < |h.list| then Some(h.list[p + 1].id) else None)
            && forall k :: Lookup(r.m.list, k) == if k == h.list[p].key then None else Lookup(h.list, k))
  {
    if it.Some? {
      var p := IndexOf(h.list, it.value);
      RemoveAtSpec(h.list, p);
      EraseShape(h, hash, p);
    }
  }

  /** Unhooking the node at `p` and fixing its bucket's head as `Erase`
      does keeps every bucket pointing at its first node. */
  lemma EraseShape<K(!new), V>(h: HashMap<K, V>, hash: K -> nat, p: nat)
    requires Linked(h, hash) && p < |h.list|
    ensures HasId(h.list, h.list[p].id)
    ensures var m := Erase(h, hash, Some(h.list[p].id)).m;
      forall c: nat :: c < m.bucketCnt ==> m.buckets[c] == Head(m.list, c)
  {
    var id := h.list[p].id;
    IndexOfAt(h.list, p);
    var b := h.list[p].bucket;
    RemoveHeads(h.list, p);
    IndexOfAt(h.list, FirstAtLeast(h.list, b));
  }

  /** Erase as written leaves `Size()` one above the number of entries. */
  lemma EraseAsWrittenKeepsSize<K(!new), V>(h: HashMap<K, V>, hash: K -> nat, id: nat)
    requires Valid(h, hash) && HasId(h.list, id)
    ensures var r := EraseAsWritten(h, hash, Some(id));
      r.m.size == h.size && r.m.size == |r.m.list| + 1
  {
  }

  /** Insert one key into a fresh map and erase it again: the map as written
      is empty, yet `Size()` reports 1 and `IsEmpty()` false; the corrected
      `Erase` reports 0. */
  lemma EraseAsWrittenStaleSize<K(!new), V>(hash: K -> nat, k: K, v: V)
    ensures var h := Insert(Init(), hash, k, v).m;
      && Linked(h, hash)
      && var it := Find(h, hash, k);
      && EraseAsWritten(h, hash, it).m.list == []
      && EraseAsWritten(h, hash, it).m.size == 1
      && !IsEmpty(EraseAsWritten(h, hash, it).m)
      && Erase(h, hash, it).m.size == 0
  {
    var h0: HashMap<K, V> := Init();
    InitSpec<K, V>(hash);
    InsertSpec(h0, hash, k, v);
    var h := Insert(h0, hash, k, v).m;
    FindSpec(h, hash, k);
    assert Lookup(h.list, k).Some?;
    assert |h.list| == 1;
  }
}

=== FILE: stl_shared_ptr.dfy ===
/**
  `hermes::container::SharedPtr` of hermes/container/stl_shared_ptr.h: a
  reference-counted pointer whose count is an `atomic<int>` on its own
  cache line. It has no weak references and no empty state of its own: a
  handle is empty only after it has been moved from.

  The model is a whole system of handles over a heap of counters. Counter
  `b` belongs to the `b`-th object created, so `b` also names that object;
  a handle is the counter it points at, `None` once moved from or
  destroyed. `deleted` counts, per object, how many times it was deleted
  together with its counter.
 */
module StlSharedPtr {
  import opened Options
  import opened HandleCounts

  datatype Heap = Heap(counts: map<nat, nat>, next: nat, deleted: multiset<nat>)

  datatype System = System(heap: Heap, handles: seq<Option<nat>>)

  /** Every live counter holds the number of handles pointing at it, which
      is positive; every handle points at a live counter; and each object
      created is deleted once if its counter is gone and never otherwise. */
  ghost predicate Counted(s: System) {
    && (forall b :: b in s.heap.counts ==> b < s.heap.next && s.heap.counts[b] == Count(s.handles, b) > 0)
    && (forall i :: 0 <= i < |s.handles| && s.handles[i].Some? ==> s.handles[i].value in s.heap.counts)
    && (forall b: nat :: s.heap.deleted[b] == if b < s.heap.next && b !in s.heap.counts then 1 else 0)
  }

  /** No handles, no objects. */
  function Empty(): (s: System)
    ensures Counted(s)
  {
    System(Heap(map[], 0, multiset{}), [])
  }

  /** `fetch_sub(1)` on counter `b`, deleting the object and the counter
      when it was 1. */
  function Release(h: Heap, b: nat): (r: Heap)
    requires b in h.counts && h.counts[b] > 0
  {
    if h.counts[b] == 1 then Heap(h.counts - {b}, h.next, h.deleted + multiset{b})
    else Heap(h.counts[b := h.counts[b] - 1], h.next, h.deleted)
  }

  /** `SharedPtr(T* data)`: a new counter set to 1 and a new handle. */
  function FromPtr(s: System): (r: System)
    requires Counted(s)
    ensures Counted(r) && r.handles == s.handles + [Some(s.heap.next)] && r.heap.next == s.heap.next + 1
  {
    FromPtrSpec(s);
    System(Heap(s.heap.counts[s.heap.next := 1], s.heap.next + 1, s.heap.deleted), s.handles + [Some(s.heap.next)])
  }

  /** `SharedPtr(const SharedPtr&)`: the source must not be empty. */
  function Copy(s: System, i: nat): (r: System)
    requires Counted(s) && i < |s.handles| && s.handles[i].Some?
    ensures Counted(r) && r.handles == s.handles + [s.handles[i]] && r.heap.next == s.heap.next
  {
    CopySpec(s, i);
    var b := s.handles[i].value;
    System(s.heap.(counts := s.heap.counts[b := s.heap.counts[b] + 1]), s.handles + [Some(b)])
  }

  /** `SharedPtr(SharedPtr&&)`: take the source's pointers and null them;
      the count does not change. */
  function Move(s: System, i: nat): (r: System)
    requires Counted(s) && i < |s.handles|
    ensures Counted(r) && r.handles == s.handles[i := None] + [s.handles[i]] && r.heap.next == s.heap.next
  {
    MoveSpec(s, i);
    System(s.heap, s.handles[i := None] + [s.handles[i]])
  }

  /** `~SharedPtr()`: nothing for an empty handle, else `Release`. */
  function Destroy(s: System, i: nat): (r: System)
    requires Counted(s) && i < |s.handles|
    ensures Counted(r) && r.handles == s.handles[i := None] && r.heap.next == s.heap.next
  {
    DestroySpec(s, i);
    match s.handles[i]
    case None => s
    case Some(b) => System(Release(s.heap, b), s.handles[i := None])
  }

  /** `IsUnique()`: the count is 1. Undefined on an empty handle. */
  function IsUnique(s: System, i: nat): bool
    requires Counted(s) && i < |s.handles| && s.handles[i].Some?
  {
    s.heap.counts[s.handles[i].value] == 1
  }

  /** `operator=(SharedPtr&&)`: release the target (which must not be
      empty), then take the source's pointers and null them. */
  function MoveAssign(s: System, i: nat, j: nat): (r: System)
    requires Counted(s) && i < |s.handles| && j < |s.handles| && s.handles[i].Some?
    ensures Counted(r) && r.handles == s.handles[i := s.handles[j]][j := None] && r.heap.next == s.heap.next
  {
    MoveAssignSpec(s, i, j);
    System(Release(s.heap, s.handles[i].value), s.handles[i := s.handles[j]][j := None])
  }

  datatype Outcome = Done(s: System) | UseAfterFree

  /** `operator=(const SharedPtr&)` as written: release the target, then
      increment the source's counter, which the release may just have
      deleted when both are the same handle. */
  function CopyAssignAsWritten(s: System, i: nat, j: nat): (r: Outcome)
    requires Counted(s) && i < |s.handles| && j < |s.handles| && s.handles[i].Some? && s.handles[j].Some?
  {
    var h := Release(s.heap, s.handles[i].value);
    var b := s.handles[j].value;
    if b !in h.counts then UseAfterFree
    else Done(System(h.(counts := h.counts[b := h.counts[b] + 1]), s.handles[i := Some(b)]))
  }

  /** `operator=(const SharedPtr&)` incrementing the source's counter
      before releasing the target. */
  function CopyAssign(s: System, i: nat, j: nat): (r: System)
    requires Counted(s) && i < |s.handles| && j < |s.handles| && s.handles[i].Some? && s.handles[j].Some?
    ensures Counted(r) && r.handles == s.handles[i := s.handles[j]] && r.heap.next == s.heap.next
  {
    CopyAssignSpec(s, i, j);
    var b := s.handles[j].value;
    var h := s.heap.(counts := s.heap.counts[b := s.heap.counts[b] + 1]);
    System(Release(h, s.handles[i].value), s.handles[i := Some(b)])
  }

  // ---------------------------------------------------------------------------
  // The counting invariant

  /** Repointing handle `i` from `b` to `x`, with the counter of `b`
      released and that of `x` (if any) raised, keeps the counts. */
  lemma Repoint(s: System, i: nat, x: Option<nat>, h: Heap)
    requires Counted(s) && i < |s.handles| && s.handles[i].Some?
    requires x.Some? ==> x.value in s.heap.counts
    requires var b := s.handles[i].value;
      var raised := if x.Some? then s.heap.counts[x.value := s.heap.counts[x.value] + 1] else s.heap.counts;
      h == Release(Heap(raised, s.heap.next, s.heap.deleted), b)
    ensures Counted(System(h, s.handles[i := x]))
  {
    var b := s.handles[i].value;
    var hs := s.handles[i := x];
    forall c | c in h.counts
      ensures c < h.next && h.counts[c] == Count(hs, c) > 0
    {
      CountUpdate(s.handles, i, x, c);
    }
    forall k | 0 <= k < |hs| && hs[k].Some?
      ensures hs[k].value in h.counts
    {
      if k != i && hs[k] == Some(b) {
        CountUpdate(s.handles, i, x, b);
        CountPositive(hs, k);
      }
    }
  }

  /** A counter that is not live has no handles. */
  lemma CountNone(s: System, c: nat)
    requires Counted(s) && c !in s.heap.counts
    ensures Count(s.handles, c) == 0
  {
    if Count(s.handles, c) > 0 {
      var k := FindHandle(s.handles, c);
    }
  }

  /** A new object starts with one handle, which is unique. */
  lemma FromPtrSpec(s: System)
    requires Counted(s)
    ensures var r := System(Heap(s.heap.counts[s.heap.next := 1], s.heap.next + 1, s.heap.deleted), s.handles + [Some(s.heap.next)]);
      Counted(r)
  {
    var r := System(Heap(s.heap.counts[s.heap.next := 1], s.heap.next + 1, s.heap.deleted), s.handles + [Some(s.heap.next)]);
    forall c | c in r.heap.counts
      ensures c < r.heap.next && r.heap.counts[c] == Count(r.handles, c) > 0
    {
      CountAppend(s.handles, Some(s.heap.next), c);
      if c == s.heap.next {
        CountNone(s, c);
      }
    }
  }

  lemma CopySpec(s: System, i: nat)
    requires Counted(s) && i < |s.handles| && s.handles[i].Some?
    ensures var b := s.handles[i].value;
      Counted(System(s.heap.(counts := s.heap.counts[b := s.heap.counts[b] + 1]), s.handles + [Some(b)]))
  {
    var b := s.handles[i].value;
    var r := System(s.heap.(counts := s.heap.counts[b := s.heap.counts[b] + 1]), s.handles + [Some(b)]);
    forall c | c in r.heap.counts
      ensures c < r.heap.next && r.heap.counts[c] == Count(r.handles, c) > 0
    {
      CountAppend(s.handles, Some(b), c);
    }
  }

  lemma MoveSpec(s: System, i: nat)
    requires Counted(s) && i < |s.handles|
    ensures Counted(System(s.heap, s.handles[i := None] + [s.handles[i]]))
  {
    var hs := s.handles[i := None] + [s.handles[i]];
    forall c | c in s.heap.counts
      ensures Count(hs, c) == Count(s.handles, c)
    {
      CountUpdate(s.handles, i, None, c);
      CountAppend(s.handles[i := None], s.handles[i], c);
    }
  }

  lemma DestroySpec(s: System, i: nat)
    requires Counted(s) && i < |s.handles|
    ensures s.handles[i].Some? ==> Counted(System(Release(s.heap, s.handles[i].value), s.handles[i := None]))
  {
    if s.handles[i].Some? {
      Repoint(s, i, None, Release(s.heap, s.handles[i].value));
    }
  }

  lemma CopyAssignSpec(s: System, i: nat, j: nat)
    requires Counted(s) && i < |s.handles| && j < |s.handles| && s.handles[i].Some? && s.handles[j].Some?
    ensures var b := s.handles[j].value;
      var h := s.heap.(counts := s.heap.counts[b := s.heap.counts[b] + 1]);
      && b in h.counts && s.handles[i].value in h.counts && h.counts[s.handles[i].value] > 0
      && Counted(System(Release(h, s.handles[i].value), s.handles[i := Some(b)]))
  {
    var b := s.handles[j].value;
    var h := s.heap.(counts := s.heap.counts[b := s.heap.counts[b] + 1]);
    Repoint(s, i, Some(b), Release(h, s.handles[i].value));
  }

  /** Handing one handle's pointer to an empty handle keeps the counts. */
  lemma Relocate(s: System, i: nat, j: nat)
    requires Counted(s) && i < |s.handles| && j < |s.handles| && i != j && s.handles[i].None?
    ensures Counted(System(s.heap, s.handles[i := s.handles[j]][j := None]))
  {
    var hs := s.handles[i := s.handles[j]];
    forall c | c in s.heap.counts
      ensures Count(hs[j := None], c) == Count(s.handles, c)
    {
      CountUpdate(s.handles, i, s.handles[j], c);
      CountUpdate(hs, j, None, c);
    }
  }

  lemma MoveAssignSpec(s: System, i: nat, j: nat)
    requires Counted(s) && i < |s.handles| && j < |s.handles| && s.handles[i].Some?
    ensures Counted(System(Release(s.heap, s.handles[i].value), s.handles[i := s.handles[j]][j := None]))
  {
    var d := System(Release(s.heap, s.handles[i].value), s.handles[i := None]);
    DestroySpec(s, i);
    if i == j {
      assert s.handles[i := s.handles[j]][j := None] == d.handles;
    } else {
      Relocate(d, i, j);
      assert d.handles[i := d.handles[j]][j := None] == s.handles[i := s.handles[j]][j := None];
    }
  }

  // ---------------------------------------------------------------------------
  // What each operation does to the counts

  /** A copy points at the source's counter, which now counts one more
      handle; nothing is deleted. */
  lemma CopyShares(s: System, i: nat)
    requires Counted(s) && i < |s.handles| && s.handles[i].Some?
    ensures var r := Copy(s, i); var b := s.handles[i].value;
      && r.handles[|s.handles|] == s.handles[i]
      && r.heap.counts[b] == Count(r.handles, b) == Count(s.handles, b) + 1
      && r.heap.deleted == s.heap.deleted
  {
    CountAppend(s.handles, Some(s.handles[i].value), s.handles[i].value);
  }

  /** A move hands the pointer to the new handle and nulls the source; the
      count and the heap are unchanged. */
  lemma MoveTransfers(s: System, i: nat)
    requires Counted(s) && i < |s.handles|
    ensures var r := Move(s, i);
      && r.handles[i] == None && r.handles[|s.handles|] == s.handles[i]
      && r.heap == s.heap
      && forall k :: 0 <= k < |s.handles| && k != i ==> r.handles[k] == s.handles[k]
  {
  }

  /** `IsUnique` holds exactly when no other handle shares the counter. */
  lemma IsUniqueSpec(s: System, i: nat)
    requires Counted(s) && i < |s.handles| && s.handles[i].Some?
    ensures IsUnique(s, i) <==> forall k :: 0 <= k < |s.handles| && k != i ==> s.handles[k] != s.handles[i]
  {
    var b := s.handles[i].value;
    var others := s.handles[i := None];
    CountUpdate(s.handles, i, None, b);
    if IsUnique(s, i) {
      CountZero(others, b);
      forall k | 0 <= k < |s.handles| && k != i
        ensures s.handles[k] != s.handles[i]
      {
        assert others[k] == s.handles[k];
      }
    } else if Count(others, b) > 0 {
      var k := FindHandle(others, b);
      assert k != i && s.handles[k] == s.handles[i];
    }
  }

  /** Destroying a handle deletes its object exactly when it was the unique
      handle; an empty handle changes nothing. */
  lemma DestroySpecCounts(s: System, i: nat)
    requires Counted(s) && i < |s.handles|
    ensures s.handles[i].None? ==> Destroy(s, i) == s
    ensures s.handles[i].Some? ==>
      var b := s.handles[i].value; var r := Destroy(s, i);
      && (b in r.heap.counts <==> !IsUnique(s, i))
      && r.heap.deleted[b] == s.heap.deleted[b] + (if IsUnique(s, i) then 1 else 0)
      && forall c :: c != b ==> r.heap.deleted[c] == s.heap.deleted[c]
  {
  }

  /** Move assignment releases the target's counter as destruction does:
      its object is deleted exactly when the target was its unique handle,
      and no other object is deleted. */
  lemma MoveAssignCounts(s: System, i: nat, j: nat)
    requires Counted(s) && i < |s.handles| && j < |s.handles| && s.handles[i].Some?
    ensures var b := s.handles[i].value; var r := MoveAssign(s, i, j);
      && (b in r.heap.counts <==> !IsUnique(s, i))
      && r.heap.deleted[b] == s.heap.deleted[b] + (if IsUnique(s, i) then 1 else 0)
      && forall c :: c != b ==> r.heap.deleted[c] == s.heap.deleted[c]
  {
  }

  /** Destroying handles `m - 1` down to `n`, as a scope ends. */
  function DestroyRange(s: System, n: nat, m: nat): (r: System)
    requires Counted(s) && n <= m <= |s.handles|
    ensures Counted(r) && |r.handles| == |s.handles| && r.heap.next == s.heap.next
    ensures forall k :: n <= k < m ==> r.handles[k] == None
    ensures forall k :: 0 <= k < |s.handles| && !(n <= k < m) ==> r.handles[k] == s.handles[k]
    decreases m - n
  {
    if m == n then s else DestroyRange(Destroy(s, m - 1), n, m - 1)
  }

  /** Once every handle is gone, every object created has been deleted
      exactly once and no counter is left. */
  lemma AllDestroyed(s: System)
    requires Counted(s)
    requires forall k :: 0 <= k < |s.handles| ==> s.handles[k] == None
    ensures s.heap.counts == map[]
    ensures forall b: nat :: b < s.heap.next ==> s.heap.deleted[b] == 1
  {
    forall b | b in s.heap.counts
      ensures false
    {
      var k := FindHandle(s.handles, b);
    }
  }

  /** The handles of the unit test's scenario before its scopes end, made
      in a system that has no handles yet (the test starts from none). */
  function Scenario(s: System): (r: System)
    requires Counted(s) && s.handles == []
    ensures Counted(r)
  {
    var p2 := Copy(FromPtr(s), 0);
    Move(Copy(Copy(Copy(p2, 1), 0), 2), 1)
  }

  /** Where the scenario's handles point: six handles, all at the one new
      object, except the second, which was moved to the sixth. */
  lemma ScenarioHandles(s: System)
    requires Counted(s) && s.handles == []
    ensures var r := Scenario(s);
      && r.heap.next == s.heap.next + 1
      && |r.handles| == 6 && r.handles[1] == None
      && forall k :: 0 <= k < 6 && k != 1 ==> r.handles[k] == Some(s.heap.next)
  {
    var n := s.heap.next;
    var s1 := FromPtr(s);
    assert s1.handles == [Some(n)];
    CopyOfAll(s1, 0, n);
    var s2 := Copy(s1, 0);
    CopyOfAll(s2, 1, n);
    var s3 := Copy(s2, 1);
    CopyOfAll(s3, 0, n);
    var s4 := Copy(s3, 0);
    CopyOfAll(s4, 2, n);
    var s5 := Copy(s4, 2);
    assert Scenario(s) == Move(s5, 1);
  }

  /** Copying a handle when every handle points at object `n`. */
  lemma CopyOfAll(s: System, i: nat, n: nat)
    requires Counted(s) && i < |s.handles|
    requires forall k :: 0 <= k < |s.handles| ==> s.handles[k] == Some(n)
    ensures var r := Copy(s, i);
      && |r.handles| == |s.handles| + 1 && r.heap.next == s.heap.next
      && forall k :: 0 <= k < |r.handles| ==> r.handles[k] == Some(n)
  {
  }

  /** The first handle of the unit tests' scenario is unique until it is
      copied. */
  lemma ScenarioUnique()
    ensures IsUnique(FromPtr(Empty()), 0) && !IsUnique(Copy(FromPtr(Empty()), 0), 0)
  {
    var p1 := FromPtr(Empty());
    assert p1.heap.counts == map[0 := 1];
  }

  /** The reference count scenario of the unit tests: the sixth handle
      (moved from the second) points where the fifth does, and the object
      is deleted once when every handle has gone out of scope, not when the
      inner scope ends. */
  lemma RefCntScenario(s: System)
    requires Counted(s) && s.handles == []
    ensures Scenario(s).handles[5] == Scenario(s).handles[4]
    ensures DestroyRange(Scenario(s), 3, 6).heap.deleted[s.heap.next] == 0
    ensures DestroyRange(DestroyRange(Scenario(s), 3, 6), 0, 3).heap.deleted[s.heap.next] == 1
  {
    var p6 := Scenario(s);
    ScenarioHandles(s);
    InnerScope(p6);
    var inner := DestroyRange(p6, 3, 6);
    OuterScope(inner, 3);
  }

  /** Ending the inner scope keeps the object of the first handle. */
  lemma InnerScope(s: System)
    requires Counted(s) && |s.handles| == 6 && s.handles[0].Some?
    ensures DestroyRange(s, 3, 6).heap.deleted[s.handles[0].value] == 0
  {
    var inner := DestroyRange(s, 3, 6);
    assert inner.handles[0] == s.handles[0];
    LiveNotDeleted(inner, 0);
  }

  /** Ending the outer scope, once the handles after it are gone, deletes
      every object. */
  lemma OuterScope(s: System, n: nat)
    requires Counted(s) && n <= |s.handles|
    requires forall k :: n <= k < |s.handles| ==> s.handles[k] == None
    ensures forall b: nat :: b < s.heap.next ==> DestroyRange(s, 0, n).heap.deleted[b] == 1
  {
    var all := DestroyRange(s, 0, n);
    forall k | 0 <= k < |all.handles|
      ensures all.handles[k] == None
    {
      if k >= n {
        assert all.handles[k] == s.handles[k];
      }
    }
    AllDestroyed(all);
  }

  /** An object some handle points at has not been deleted. */
  lemma LiveNotDeleted(s: System, k: nat)
    requires Counted(s) && k < |s.handles| && s.handles[k].Some?
    ensures s.heap.deleted[s.handles[k].value] == 0
  {
  }

  // ---------------------------------------------------------------------------
  // Copy-assigning a unique handle to itself

  /** As written, copy assignment fails exactly when the source shares the
      target's counter and the target is unique, that is on `p = p` with a
      count of 1; otherwise it agrees with the corrected order. */
  lemma CopyAssignAsWrittenSpec(s: System, i: nat, j: nat)
    requires Counted(s) && i < |s.handles| && j < |s.handles| && s.handles[i].Some? && s.handles[j].Some?
    ensures CopyAssignAsWritten(s, i, j) == UseAfterFree <==> s.handles[j] == s.handles[i] && IsUnique(s, i)
    ensures CopyAssignAsWritten(s, i, j) != UseAfterFree ==> CopyAssignAsWritten(s, i, j) == Done(CopyAssign(s, i, j))
  {
    var r := CopyAssignAsWritten(s, i, j);
    if r != UseAfterFree {
      var c := CopyAssign(s, i, j);
      assert r.s.heap.counts == c.heap.counts;
    }
  }

  /** `p = p` on a unique handle: as written the counter is freed and then
      incremented; corrected, nothing changes. */
  lemma SelfCopyAssignUseAfterFree(s: System, i: nat)
    requires Counted(s) && i < |s.handles| && s.handles[i].Some?
    ensures CopyAssignAsWritten(s, i, i) == UseAfterFree <==> IsUnique(s, i)
    ensures CopyAssign(s, i, i) == s
  {
    CopyAssignAsWrittenSpec(s, i, i);
    var b := s.handles[i].value;
    assert CopyAssign(s, i, i).heap.counts == s.heap.counts;
    assert s.handles[i := Some(b)] == s.handles;
  }
}

=== FILE: stl_vector.dfy ===
/**
  `hermes::container::Vector` (hermes/container/stl_vector.h): a growable
  array. `size_` elements are constructed in a buffer of `max_size_` slots;
  when a push finds the buffer full it is reallocated at twice the size (one
  slot the first time) and the elements are moved over.

  A vector is modelled as the sequence of its constructed elements and the
  capacity of its buffer.
 */
module StlVector {
  import opened Pow2

  datatype Vector<T> = Vector(items: seq<T>, maxSize: nat)

  /** The elements fit the buffer, whose capacity is 0 or a power of two. */
  ghost predicate Valid<T>(v: Vector<T>) {
    |v.items| <= v.maxSize && (v.maxSize == 0 || IsPow2(v.maxSize))
  }

  /** `Vector()`: no buffer, no elements. */
  function Empty<T>(): (v: Vector<T>)
    ensures Valid(v) && Size(v) == 0 && MaxSize(v) == 0
  {
    Vector([], 0)
  }

  /** `size()`. */
  function Size<T>(v: Vector<T>): nat {
    |v.items|
  }

  /** `MaxSize()`. */
  function MaxSize<T>(v: Vector<T>): nat {
    v.maxSize
  }

  /** `Resize()`: a buffer of one slot the first time, twice the old one
      after that, holding the same elements. */
  function Resize<T>(v: Vector<T>): (r: Vector<T>)
    requires Valid(v)
    ensures Valid(r) && r.items == v.items
    ensures r.maxSize == if v.maxSize == 0 then 1 else 2 * v.maxSize
  {
    if v.maxSize == 0 then Vector(v.items, 1)
    else
      DoublePow2(v.maxSize);
      Vector(v.items, 2 * v.maxSize)
  }

  /** `PushBack(item)`: grow when `size_ == max_size_`, then construct the
      item at index `size_`. */
  function PushBack<T>(v: Vector<T>, x: T): (r: Vector<T>)
    requires Valid(v)
    ensures Valid(r)
  {
    var w := if |v.items| == v.maxSize then Resize(v) else v;
    Vector(w.items + [x], w.maxSize)
  }

  /** `operator[](index)`; an index past the end is undefined behaviour in
      the source. */
  function Get<T>(v: Vector<T>, i: nat): T
    requires i < Size(v)
  {
    v.items[i]
  }

  /** `Back()`; undefined on an empty vector. */
  function Back<T>(v: Vector<T>): T
    requires Size(v) > 0
  {
    v.items[|v.items| - 1]
  }

  /** `PopBack()`: destroy the last element; undefined on an empty vector. */
  function PopBack<T>(v: Vector<T>): (r: Vector<T>)
    requires Size(v) > 0
  {
    Vector(v.items[..|v.items| - 1], v.maxSize)
  }

  /** A push stores the item after the old elements, which keep their
      indices; the buffer grows exactly when it was full, to 1 or double. */
  lemma PushBackSpec<T>(v: Vector<T>, x: T)
    requires Valid(v)
    ensures var r := PushBack(v, x);
      && Size(r) == Size(v) + 1
      && Get(r, Size(v)) == x
      && (forall i :: 0 <= i < Size(v) ==> Get(r, i) == Get(v, i))
      && (Size(v) < MaxSize(v) ==> MaxSize(r) == MaxSize(v))
      && (Size(v) == MaxSize(v) ==> MaxSize(r) == if MaxSize(v) == 0 then 1 else 2 * MaxSize(v))
  {
  }

  /** `Back()` after `PushBack(x)` is `x`. */
  lemma BackAfterPush<T>(v: Vector<T>, x: T)
    requires Valid(v)
    ensures Size(PushBack(v, x)) > 0 && Back(PushBack(v, x)) == x
  {
    PushBackSpec(v, x);
  }

  /** `PopBack` shortens the vector by one and keeps every other element at
      its index; it never shrinks the buffer. */
  lemma PopBackSpec<T>(v: Vector<T>)
    requires Valid(v) && Size(v) > 0
    ensures var r := PopBack(v);
      && Valid(r)
      && Size(r) == Size(v) - 1
      && MaxSize(r) == MaxSize(v)
      && forall i :: 0 <= i < Size(r) ==> Get(r, i) == Get(v, i)
  {
  }

  /** `PopBack` undoes `PushBack` on the elements. */
  lemma PopUndoesPush<T>(v: Vector<T>, x: T)
    requires Valid(v)
    ensures Size(PushBack(v, x)) > 0 && PopBack(PushBack(v, x)).items == v.items
  {
    PushBackSpec(v, x);
  }

  /** Pushing the items one by one. */
  function PushAll<T>(v: Vector<T>, xs: seq<T>): (r: Vector<T>)
    requires Valid(v)
    ensures Valid(r)
    decreases |xs|
  {
    if xs == [] then v else PushAll(PushBack(v, xs[0]), xs[1..])
  }

  /** Pushing appends the items in order. */
  lemma {:induction false} PushAllItems<T>(v: Vector<T>, xs: seq<T>)
    requires Valid(v)
    ensures PushAll(v, xs).items == v.items + xs
    decreases |xs|
  {
    if xs != [] {
      PushAllItems(PushBack(v, xs[0]), xs[1..]);
      assert v.items + [xs[0]] + xs[1..] == v.items + xs;
    }
  }

  /** The buffer of a vector built by pushes alone is as small as the
      doubling allows: 0 for none, else a power of two below twice the
      size. */
  ghost predicate Tight<T>(v: Vector<T>) {
    if v.items == [] then v.maxSize == 0
    else IsPow2(v.maxSize) && |v.items| <= v.maxSize < 2 * |v.items|
  }

  lemma PushKeepsTight<T>(v: Vector<T>, x: T)
    requires Valid(v) && Tight(v)
    ensures Tight(PushBack(v, x))
  {
    PushBackSpec(v, x);
    if |v.items| == v.maxSize && v.maxSize > 0 {
      DoublePow2(v.maxSize);
    }
  }

  lemma {:induction false} PushAllTight<T>(v: Vector<T>, xs: seq<T>)
    requires Valid(v) && Tight(v)
    ensures Tight(PushAll(v, xs))
    decreases |xs|
  {
    if xs != [] {
      PushKeepsTight(v, xs[0]);
      PushAllTight(PushBack(v, xs[0]), xs[1..]);
    }
  }

  /** After pushing `xs` into a new vector, `v[i]` is the i-th item pushed,
      and the capacity is `std::bit_ceil` of the size (0 for no pushes). */
  lemma PushAllFromEmpty<T>(xs: seq<T>)
    ensures var v := PushAll(Empty<T>(), xs);
      && Size(v) == |xs|
      && (forall i :: 0 <= i < |xs| ==> Get(v, i) == xs[i])
      && MaxSize(v) == if xs == [] then 0 else BitCeil(|xs|)
  {
    var v := PushAll(Empty<T>(), xs);
    PushAllItems(Empty<T>(), xs);
    PushAllTight(Empty<T>(), xs);
    if xs != [] {
      BitCeilLeast(|xs|, v.maxSize);
    }
  }

  /** Push eight values, read them back by index, pop all but one: `Back()`
      is the first value. */
  lemma PushReadPop<T>(xs: seq<T>)
    requires |xs| == 8
    ensures var v := PushAll(Empty<T>(), xs);
      && Size(v) == 8
      && (forall i :: 0 <= i < 8 ==> Get(v, i) == xs[i])
      && var w := PopBack(PopBack(PopBack(PopBack(PopBack(PopBack(PopBack(v)))))));
      && Size(w) == 1 && Back(w) == xs[0]
  {
    PushAllFromEmpty(xs);
  }
}

=== FILE: string_buf.dfy ===
/**
  `hermes::container::String` (hermes/container/string.h): a growable,
  NUL-terminated byte string. `data_` is null until the first allocation;
  after that it holds `max_size_` bytes of which the first `size_` are the
  text and the byte at `size_` is meant to be the terminator.

  A string is modelled by the bytes `data_[0 ..= size_]` that the class
  keeps meaningful (nothing while `data_` is null), `size_` and `max_size_`.
  The bytes past the terminator are stale or uninitialised and play no part.
 */
module StringBuf {
  import opened Pow2
  import Digits

  /** A C `char`, as elsewhere in the model. */
  type Char8 = Digits.Char8

  const NUL: Char8 := Digits.NUL

  datatype String = String(buf: seq<Char8>, size: nat, maxSize: nat)

  /** Either no buffer at all, or a buffer of a power-of-two capacity whose
      first `size + 1` bytes are the text and the byte after it. */
  ghost predicate Valid(s: String) {
    || (s.buf == [] && s.size == 0 && s.maxSize == 0)
    || (|s.buf| == s.size + 1 && s.size < s.maxSize && IsPow2(s.maxSize))
  }

  /** The byte after the text is NUL (trivially so without a buffer). */
  predicate Terminated(s: String) {
    s.buf == [] || (s.size < |s.buf| && s.buf[s.size] == NUL)
  }

  /** The text: `size_` bytes from `data_`. */
  function Content(s: String): seq<Char8>
    requires Valid(s)
  {
    if s.buf == [] then [] else s.buf[..s.size]
  }

  /** `String()`: size 0, no buffer. */
  function Default(): (s: String)
    ensures Valid(s) && Terminated(s) && Content(s) == [] && s.size == 0 && s.maxSize == 0
  {
    String([], 0, 0)
  }

  /** `Size()`. */
  function Size(s: String): nat {
    s.size
  }

  /** `MaxSize()`. */
  function MaxSize(s: String): nat {
    s.maxSize
  }

  /** The capacity `Resize()` moves to: 2 the first time, double after. */
  function Grown(maxSize: nat): (m: nat)
    requires maxSize == 0 || IsPow2(maxSize)
    ensures IsPow2(m) && m > maxSize
  {
    if maxSize == 0 then 2
    else
      DoublePow2(maxSize);
      2 * maxSize
  }

  // ---------------------------------------------------------------------------
  // PushBack, PopBack, operator[]

  /** `PushBack(c)`: grow when `size_ + 1 >= max_size_` (`Resize` keeps the
      first `size_ + 1` bytes), then write `c` at `size_` and NUL after it. */
  function PushBack(s: String, c: Char8): (r: String)
    requires Valid(s)
    ensures Valid(r)
  {
    var m := if s.size + 1 >= s.maxSize then Grown(s.maxSize) else s.maxSize;
    String(Content(s) + [c, NUL], s.size + 1, m)
  }

  /** A push appends the byte and terminates the text, after which the text
      and its terminator fit the buffer; the buffer grows exactly when it
      had no room for both, to 2 or double. */
  lemma PushBackSpec(s: String, c: Char8)
    requires Valid(s)
    ensures var r := PushBack(s, c);
      && Terminated(r)
      && Content(r) == Content(s) + [c]
      && Size(r) == Size(s) + 1 && Size(r) < MaxSize(r)
      && (Size(s) + 1 < MaxSize(s) ==> MaxSize(r) == MaxSize(s))
      && (Size(s) + 1 >= MaxSize(s) ==> MaxSize(r) == if MaxSize(s) == 0 then 2 else 2 * MaxSize(s))
  {
    var r := PushBack(s, c);
    assert r.buf[..r.size] == Content(s) + [c];
  }

  /** `PopBack()`: nothing on an empty string, otherwise shorten the text by
      one and write the terminator in its place. */
  function PopBack(s: String): (r: String)
    requires Valid(s)
    ensures Valid(r)
  {
    if s.size == 0 then s
    else String(s.buf[..s.size - 1] + [NUL], s.size - 1, s.maxSize)
  }

  /** `PopBack` drops the last byte of a non-empty text and leaves it
      terminated; on an empty string it changes nothing. */
  lemma PopBackSpec(s: String)
    requires Valid(s)
    ensures var r := PopBack(s);
      && (Size(s) == 0 ==> r == s)
      && (Size(s) > 0 ==>
            Terminated(r) && Size(r) == Size(s) - 1 && MaxSize(r) == MaxSize(s)
            && Content(r) == Content(s)[..Size(s) - 1])
  {
  }

  /** `PopBack` undoes `PushBack` on the text. */
  lemma PopUndoesPush(s: String, c: Char8)
    requires Valid(s)
    ensures Content(PopBack(PushBack(s, c))) == Content(s)
  {
    PushBackSpec(s, c);
    PopBackSpec(PushBack(s, c));
  }

  /** `operator[](idx)` read; only the text and its terminator are modelled
      (the source does not check the index at all). */
  function Get(s: String, idx: nat): Char8
    requires idx < |s.buf|
  {
    s.buf[idx]
  }

  /** `operator[](idx) = c`. */
  function Set(s: String, idx: nat, c: Char8): (r: String)
    requires idx < |s.buf|
  {
    s.(buf := s.buf[idx := c])
  }

  /** A write through `operator[]` inside the text changes that byte and no
      other, and keeps the size. */
  lemma SetSpec(s: String, idx: nat, c: Char8)
    requires Valid(s) && idx < Size(s)
    ensures var r := Set(s, idx, c);
      && Valid(r) && Terminated(r) == Terminated(s)
      && Size(r) == Size(s) && idx < |r.buf| && Get(r, idx) == c
      && |Content(r)| == |Content(s)|
      && forall j :: 0 <= j < Size(s) && j != idx ==> Content(r)[j] == Content(s)[j]
  {
  }

  // ---------------------------------------------------------------------------
  // operator==

  /** `memcmp(a, b, n) == 0`. */
  function SameBytes(a: seq<Char8>, b: seq<Char8>, n: nat): (r: bool)
    requires n <= |a| && n <= |b|
  {
    n == 0 || (a[0] == b[0] && SameBytes(a[1..], b[1..], n - 1))
  }

  lemma {:induction false} SameBytesSpec(a: seq<Char8>, b: seq<Char8>, n: nat)
    requires n <= |a| && n <= |b|
    ensures SameBytes(a, b, n) <==> a[..n] == b[..n]
  {
    if n > 0 {
      SameBytesSpec(a[1..], b[1..], n - 1);
      assert a[..n] == [a[0]] + a[1..][..n - 1];
      assert b[..n] == [b[0]] + b[1..][..n - 1];
    }
  }

  /** `operator==`: equal sizes, then `memcmp` over `size_` bytes. */
  function Equal(a: String, b: String): bool
    requires Valid(a) && Valid(b)
  {
    a.size == b.size && SameBytes(a.buf, b.buf, a.size)
  }

  /** Two strings compare equal exactly when their texts are the same; the
      capacity and the bytes after the text do not matter. */
  lemma EqualSpec(a: String, b: String)
    requires Valid(a) && Valid(b)
    ensures Equal(a, b) <==> Content(a) == Content(b)
  {
    if a.size == b.size {
      SameBytesSpec(a.buf, b.buf, a.size);
    }
  }

  // ---------------------------------------------------------------------------
  // AssignValue, CopyFrom, MoveFrom

  /** The capacity after storing `c_size` bytes: unchanged when it
      suffices, else `std::bit_ceil(c_size)` in a fresh buffer. */
  function Fit(maxSize: nat, cSize: nat): nat {
    if maxSize < cSize then BitCeil(cSize) else maxSize
  }

  /** `AssignValue(ptr, size)`: `size + 1` bytes are copied from `ptr`, the
      last of them standing in for the terminator. */
  function AssignValue(s: String, src: seq<Char8>, n: nat): (r: String)
    requires Valid(s) && n < |src|
    ensures Valid(r)
  {
    String(src[..n + 1], n, Fit(s.maxSize, n + 1))
  }

  /** After `AssignValue(ptr, n)` the text is the first `n` bytes at `ptr`,
      terminated exactly when `ptr[n]` is NUL. The buffer is replaced only
      when it cannot hold `n + 1` bytes, and then by the smallest power of
      two that can. */
  lemma AssignValueSpec(s: String, src: seq<Char8>, n: nat)
    requires Valid(s) && n < |src|
    ensures var r := AssignValue(s, src, n);
      && Size(r) == n && Content(r) == src[..n]
      && (Terminated(r) <==> src[n] == NUL)
      && (n + 1 <= MaxSize(s) ==> MaxSize(r) == MaxSize(s))
      && (n + 1 > MaxSize(s) ==>
            && IsPow2(MaxSize(r)) && n + 1 <= MaxSize(r)
            && forall c: nat :: IsPow2(c) && n + 1 <= c ==> MaxSize(r) <= c)
  {
    forall c: nat | IsPow2(c) && n + 1 <= c
      ensures BitCeil(n + 1) <= c
    {
      BitCeilLeast(n + 1, c);
    }
  }

  /** The index of the first NUL: `strlen`. */
  function StrLen(src: seq<Char8>): (n: nat)
    requires NUL in src
    ensures n < |src| && src[n] == NUL && NUL !in src[..n]
  {
    if src[0] == NUL then 0
    else
      assert src == [src[0]] + src[1..];
      1 + StrLen(src[1..])
  }

  /** `String(const char* s)`. */
  function FromCStr(src: seq<Char8>): (r: String)
    requires NUL in src
    ensures Valid(r)
  {
    AssignValue(Default(), src, StrLen(src))
  }

  /** `String(const char* s, size)`. */
  function FromChars(src: seq<Char8>, n: nat): (r: String)
    requires n < |src|
    ensures Valid(r)
  {
    AssignValue(Default(), src, n)
  }

  /** The C string at `CStr()`: the bytes before the first NUL. */
  function CStr(s: String): seq<Char8>
    requires NUL in s.buf
  {
    s.buf[..StrLen(s.buf)]
  }

  /** A string made from a C string holds exactly the bytes before its NUL,
      terminated, so `CStr()` gives them back. */
  lemma FromCStrSpec(src: seq<Char8>)
    requires NUL in src
    ensures var r := FromCStr(src);
      && Terminated(r) && NUL in r.buf
      && Content(r) == src[..StrLen(src)] && CStr(r) == Content(r)
  {
    var n := StrLen(src);
    AssignValueSpec(Default(), src, n);
    var r := FromCStr(src);
    assert r.buf[n] == NUL;
    assert NUL !in r.buf[..n];
  }

  datatype Copied = Copied(s: String) | NullRead

  /** `CopyFrom(rhs)` as written: `memcpy` reads `rhs.size_ + 1` bytes from
      `rhs.data_`, which is null for a string that never allocated. */
  function CopyFromAsWritten(s: String, rhs: String): (r: Copied)
    requires Valid(s) && Valid(rhs)
    ensures r.Copied? ==> Valid(r.s)
  {
    if rhs.buf == [] then NullRead
    else Copied(String(rhs.buf, rhs.size, Fit(s.maxSize, rhs.size + 1)))
  }

  /** `CopyFrom(rhs)` writing the text and then the terminator itself, so
      that a string that never allocated copies as the empty text. */
  function CopyFrom(s: String, rhs: String): (r: String)
    requires Valid(s) && Valid(rhs)
    ensures Valid(r)
  {
    String(Content(rhs) + [NUL], rhs.size, Fit(s.maxSize, rhs.size + 1))
  }

  /** A copy has the text of its source, terminated, and compares equal to
      it; the buffer is kept when it can hold the text and its terminator. */
  lemma CopyFromSpec(s: String, rhs: String)
    requires Valid(s) && Valid(rhs)
    ensures var r := CopyFrom(s, rhs);
      && Terminated(r) && Content(r) == Content(rhs) && Equal(r, rhs)
      && (Size(rhs) + 1 <= MaxSize(s) ==> MaxSize(r) == MaxSize(s))
      && (Size(rhs) + 1 > MaxSize(s) ==>
            && IsPow2(MaxSize(r)) && Size(rhs) + 1 <= MaxSize(r)
            && forall c: nat :: IsPow2(c) && Size(rhs) + 1 <= c ==> MaxSize(r) <= c)
      && Size(r) < MaxSize(r)
  {
    var r := CopyFrom(s, rhs);
    forall c: nat | IsPow2(c) && Size(rhs) + 1 <= c
      ensures BitCeil(Size(rhs) + 1) <= c
    {
      BitCeilLeast(Size(rhs) + 1, c);
    }
    assert r.buf[..r.size] == Content(rhs);
    EqualSpec(r, rhs);
  }

  /** Copying a string that never allocated: as written the copy reads from
      the null `data_`; the corrected copy is the empty text. On every
      allocated, terminated source the two agree. */
  lemma CopyFromAsWrittenNullRead(s: String, rhs: String)
    requires Valid(s) && Valid(rhs) && Terminated(rhs)
    ensures CopyFromAsWritten(s, Default()).NullRead?
    ensures Content(CopyFrom(s, Default())) == []
    ensures rhs.buf != [] ==> CopyFromAsWritten(s, rhs) == Copied(CopyFrom(s, rhs))
  {
    if rhs.buf != [] {
      assert rhs.buf == rhs.buf[..rhs.size] + [NUL];
    }
  }

  /** `MoveFrom(rhs)`: swap buffer, size and capacity; the first component
      is the target, the second the source. */
  function MoveFrom(s: String, rhs: String): (r: (String, String))
  {
    (rhs, s)
  }

  /** A move hands the source's text and buffer to the target and the
      target's to the source, so moving back restores both; the move
      constructor, whose target starts empty, leaves the source with no
      buffer and size 0. */
  lemma MoveFromSpec(s: String, rhs: String)
    requires Valid(s) && Valid(rhs)
    ensures var r := MoveFrom(s, rhs);
      && Valid(r.0) && Valid(r.1)
      && Content(r.0) == Content(rhs) && Content(r.1) == Content(s)
      && MaxSize(r.0) == MaxSize(rhs) && MaxSize(r.1) == MaxSize(s)
      && MoveFrom(r.0, r.1) == (s, rhs)
    ensures MoveFrom(Default(), rhs).1 == Default()
  {
  }

  /** `String s("abc"); s.PushBack('d'); s.PopBack();` reads "abcd" and
      then "abc"; a copy with `'!'` pushed no longer compares equal. */
  lemma PushPopCopy(src: seq<Char8>, c: Char8)
    requires NUL in src
    ensures var s := FromCStr(src);
      && Content(PushBack(s, c)) == src[..StrLen(src)] + [c]
      && Content(PopBack(PushBack(s, c))) == src[..StrLen(src)]
      && Equal(CopyFrom(Default(), s), s)
      && !Equal(PushBack(CopyFrom(Default(), s), c), s)
  {
    var s := FromCStr(src);
    FromCStrSpec(src);
    PushBackSpec(s, c);
    PopUndoesPush(s, c);
    CopyFromSpec(Default(), s);
    var t := CopyFrom(Default(), s);
    PushBackSpec(t, c);
    assert |Content(PushBack(t, c))| == |Content(s)| + 1;
    EqualSpec(PushBack(t, c), s);
  }
}

=== FILE: unique_ptr.dfy ===
/**
  `hermes::container::UniquePtr` of hermes/container/smart_pointer.h: the
  sole owner of one heap object, deleted by the destructor. Objects are
  named by the number of the allocation that made them; a null pointer is
  `None`.

  Copying is deleted; moving hands the object over. The model follows a
  whole set of handles through moves, so that the guarantee of unique
  ownership can be stated: when every handle is destroyed, every object
  ever handed to one is deleted exactly once.
 */
module UniquePtrs {
  import opened Options

  /** `UniquePtr(T* ptr = nullptr)` and `MakeUnique`: the constructor just
      stores the pointer. */
  datatype UniquePtr = UniquePtr(data: Option<nat>)

  /** `Get()`. */
  function Get(u: UniquePtr): Option<nat> {
    u.data
  }

  /** `explicit operator bool`. */
  function IsOwning(u: UniquePtr): (r: bool)
    ensures r <==> Get(u) != None
  {
    u.data != None
  }

  /** The objects `~UniquePtr()` deletes: `delete` of null does nothing. */
  function Deletes(u: UniquePtr): (d: multiset<nat>)
    ensures IsOwning(u) ==> d == multiset{Get(u).value}
    ensures !IsOwning(u) ==> d == multiset{}
  {
    if u.data.Some? then multiset{u.data.value} else multiset{}
  }

  /** `UniquePtr(UniquePtr&& rhs)`: the new handle, and the source, which
      the constructor nulls. */
  function MoveConstruct(rhs: UniquePtr): (r: (UniquePtr, UniquePtr))
    ensures Get(r.0) == Get(rhs) && !IsOwning(r.1)
    ensures Deletes(r.0) + Deletes(r.1) == Deletes(rhs)
  {
    (rhs, UniquePtr(None))
  }

  /** `operator=(UniquePtr&& rhs)`: `std::swap` of the two pointers; the
      target's old object is left for the source to delete. */
  function MoveAssign(u: UniquePtr, rhs: UniquePtr): (r: (UniquePtr, UniquePtr))
    ensures Get(r.0) == Get(rhs)
    ensures Deletes(r.0) + Deletes(r.1) == Deletes(u) + Deletes(rhs)
  {
    (rhs, u)
  }

  /** Moving back undoes a move assignment. */
  lemma MoveAssignTwice(u: UniquePtr, rhs: UniquePtr)
    ensures var r := MoveAssign(u, rhs); MoveAssign(r.0, r.1) == (u, rhs)
  {
  }

  /** The transfer of ownership of the unit tests: the moved-to handle
      reaches the object, the moved-from one is null. */
  lemma TransferOwnership(obj: nat)
    ensures var r := MoveConstruct(UniquePtr(Some(obj)));
      && Get(r.0) == Some(obj) && IsOwning(r.0) && !IsOwning(r.1)
  {
  }

  // ---------------------------------------------------------------------------
  // Many handles

  /** The objects owned by a set of handles, with multiplicity: what
      destroying all of them deletes. */
  function Owned(hs: seq<UniquePtr>): multiset<nat>
    decreases |hs|
  {
    if hs == [] then multiset{} else Owned(hs[..|hs| - 1]) + Deletes(hs[|hs| - 1])
  }

  lemma OwnedAppend(hs: seq<UniquePtr>, u: UniquePtr)
    ensures Owned(hs + [u]) == Owned(hs) + Deletes(u)
  {
    assert (hs + [u])[..|hs|] == hs;
  }

  lemma {:induction false} OwnedUpdate(hs: seq<UniquePtr>, i: nat, u: UniquePtr)
    requires i < |hs|
    ensures Owned(hs[i := u]) + Deletes(hs[i]) == Owned(hs) + Deletes(u)
    decreases |hs|
  {
    var n := |hs| - 1;
    var hs' := hs[i := u];
    assert Owned(hs) == Owned(hs[..n]) + Deletes(hs[n]);
    assert Owned(hs') == Owned(hs'[..n]) + Deletes(hs'[n]);
    if i < n {
      OwnedUpdate(hs[..n], i, u);
      assert hs[..n][i] == hs[i] && hs'[n] == hs[n];
      assert hs'[..n] == hs[..n][i := u];
      forall b
        ensures (Owned(hs') + Deletes(hs[i]))[b] == (Owned(hs) + Deletes(u))[b]
      {
        assert (Owned(hs'[..n]) + Deletes(hs[i]))[b] == (Owned(hs[..n]) + Deletes(u))[b];
      }
    } else {
      assert hs'[..n] == hs[..n];
    }
  }

  /** Objects `0 .. n - 1`, once each. */
  function Created(n: nat): multiset<nat>
  {
    if n == 0 then multiset{} else Created(n - 1) + multiset{n - 1}
  }

  lemma {:induction false} CreatedOnce(n: nat)
    ensures forall b: nat :: Created(n)[b] == if b < n then 1 else 0
  {
    if n > 0 {
      CreatedOnce(n - 1);
    }
  }

  /** What a client does with its handles; an operation naming a handle
      that does not exist is skipped. */
  datatype UniqueOp =
    | MakeOp                       // MakeUnique: a handle to a new object
    | NullOp                       // UniquePtr(): a null handle
    | MoveOp(i: nat)               // a new handle moved from handle i
    | MoveAssignOp(i: nat, j: nat) // handle i = std::move(handle j)

  function Apply(hs: seq<UniquePtr>, next: nat, op: UniqueOp): (r: (seq<UniquePtr>, nat))
  {
    match op
    case MakeOp => (hs + [UniquePtr(Some(next))], next + 1)
    case NullOp => (hs + [UniquePtr(None)], next)
    case MoveOp(i) => if i < |hs| then (MoveOut(hs, i), next) else (hs, next)
    case MoveAssignOp(i, j) => if i < |hs| && j < |hs| then (MoveBetween(hs, i, j), next) else (hs, next)
  }

  /** A new handle move-constructed from handle `i`, which is left null. */
  function MoveOut(hs: seq<UniquePtr>, i: nat): seq<UniquePtr>
    requires i < |hs|
  {
    var m := MoveConstruct(hs[i]);
    hs[i := m.1] + [m.0]
  }

  /** Handle `i` move-assigned from handle `j`. */
  function MoveBetween(hs: seq<UniquePtr>, i: nat, j: nat): seq<UniquePtr>
    requires i < |hs| && j < |hs|
  {
    var m := MoveAssign(hs[i], hs[j]);
    hs[i := m.0][j := m.1]
  }

  /** Every operation keeps the objects owned, adding the one it makes. */
  lemma ApplyKeepsOwned(hs: seq<UniquePtr>, next: nat, op: UniqueOp)
    ensures var r := Apply(hs, next, op);
      Owned(r.0) == Owned(hs) + (if op.MakeOp? then multiset{next} else multiset{})
    ensures Apply(hs, next, op).1 == if op.MakeOp? then next + 1 else next
  {
    match op
    case MakeOp => OwnedAppend(hs, UniquePtr(Some(next)));
    case NullOp => OwnedAppend(hs, UniquePtr(None));
    case MoveOp(i) =>
      if i < |hs| {
        MoveKeepsOwned(hs, i);
      }
    case MoveAssignOp(i, j) =>
      if i < |hs| && j < |hs| {
        SwapKeepsOwned(hs, i, j);
      }
  }

  lemma MoveKeepsOwned(hs: seq<UniquePtr>, i: nat)
    requires i < |hs|
    ensures Owned(hs[i := UniquePtr(None)] + [hs[i]]) == Owned(hs)
  {
    OwnedUpdate(hs, i, UniquePtr(None));
    OwnedAppend(hs[i := UniquePtr(None)], hs[i]);
  }

  lemma SwapKeepsOwned(hs: seq<UniquePtr>, i: nat, j: nat)
    requires i < |hs| && j < |hs|
    ensures Owned(hs[i := hs[j]][j := hs[i]]) == Owned(hs)
  {
    var a := hs[i := hs[j]];
    OwnedUpdate(hs, i, hs[j]);
    OwnedUpdate(a, j, hs[i]);
    assert a[j] == hs[j];
    Cancel(Owned(a[j := hs[i]]), Owned(hs), Deletes(hs[j]));
  }

  lemma Cancel(x: multiset<nat>, y: multiset<nat>, z: multiset<nat>)
    requires x + z == y + z
    ensures x == y
  {
    forall b | b in x || b in y
      ensures x[b] == y[b]
    {
      assert (x + z)[b] == (y + z)[b];
    }
  }

  function Run(hs: seq<UniquePtr>, next: nat, ops: seq<UniqueOp>): (r: (seq<UniquePtr>, nat))
    decreases |ops|
  {
    if ops == [] then (hs, next)
    else
      var s := Apply(hs, next, ops[0]);
      Run(s.0, s.1, ops[1..])
  }

  /** Unique ownership: whatever a client does with its handles, when they
      are all destroyed every object made has been deleted exactly once. */
  lemma {:induction false} RunDeletesOnce(ops: seq<UniqueOp>, hs: seq<UniquePtr>, next: nat)
    requires Owned(hs) == Created(next)
    ensures var r := Run(hs, next, ops);
      forall b: nat :: Owned(r.0)[b] == if b < r.1 then 1 else 0
    decreases |ops|
  {
    if ops == [] {
      assert Run(hs, next, ops) == (hs, next);
      CreatedOnce(next);
    } else {
      var s := Apply(hs, next, ops[0]);
      ApplyKeepsOwned(hs, next, ops[0]);
      assert Owned(s.0) == Created(s.1);
      RunDeletesOnce(ops[1..], s.0, s.1);
      assert Run(hs, next, ops) == Run(s.0, s.1, ops[1..]);
    }
  }
}
